=== FILE: README.md ===
# Nested-layer DAG viewer: a verified model of its cores

The repository is a series of three.js prototypes of a viewer for directed acyclic
graphs that nest: every node of a layer can open a layer of its own below it, and the
camera dives into it and climbs back out. Behind the rendering sit small, deterministic
cores, and this project models them in Dafny:

- **The rank layouts.** `Layout.compute` (TypeScript and JavaScript) and
  `LayoutEngine.apply` raise the rank of every edge's target to one above its source
  until a pass changes nothing, then place the nodes by rank (`Ranking`, `SceneTs`,
  `SceneJs`, `Planes`).
- **The graph stores.** A `Layer` of either prototype and the `GraphPlane`/`GraphNode`
  pair keep a node map in insertion order and an edge list. They add, replace and
  remove nodes, add edges, mark hovered nodes, and re-run the layout after every change
  (`SceneTs`, `SceneJs`, `Planes`).
- **The two-dimensional editor** of `app.js` (`GraphUI`). It keeps grid cards with a
  capped relaxation and a path of nested graphs at most twelve deep, with its timers as
  explicit steps. It also models the link selection, deletion, the wheel and inline
  labels.
- **The camera managers.**
  - `CameraJs` models the flight along a curve with a clamped progress and a cubic
    ease-out, and the linear transition with its stopping threshold.
  - `CameraTs` models the ride along a path with a clamped lookahead.
- **The applications.**
  - `AppJs` and `AppTs` model the stack of layers left behind and the current layer. They
    also model sub-layers seeded on demand and the visibility flags or target opacities a dive and
    a climb set. Their remaining parts are the ctrl-click link protocol, the hover preview,
    deletion, the wheel and the automatic zoom-out.
  - `Navigation` models the path/history scrubber of `Navigator.ts`.
  - `HoverInput` models the hover tracker of the third prototype.

Shared pieces live in `Common` (vectors, JavaScript truthiness, `Map` deletion order) and
`Seeding` (the ids of seeded sub-layers).

Layers, nodes, planes, cameras and applications are classes whose methods update their
fields in place. Each method is specified against a function of the old state or by
the invariant it keeps. Node maps are `map`s with a separate insertion-order `seq`,
because a JavaScript `Map` iterates in insertion order. Picking by ray is an input:
- the object under the pointer, with its parent chain;
- or, in the third prototype, the sequence of nodes hit, nearest first.

Clock readings and sampled curve points are parameters.

## Model

| member | source | states |
|---|---|---|
| Ranking.GapShrinks | src/Layout.ts:16-18 | raising ranks only lowers the distance left to a level numbering, and raising an edge's target lowers it strictly, so the relaxation of an acyclic edge set terminates |
| Ranking.PathClimbs | src/Layout.ts:10-21 | at the loop's exit every edge climbs, so ranks rise by at least one along every edge of a walk |
| Ranking.CycleHasNoFixpoint | src/Layout.ts:10-21 | an edge set with a cycle, a self-loop included, has no exit state: the uncapped `while (changed)` loop never ends on it |
| Ranking.CycleIsNotAcyclic | src/Layout.ts:10-21 | a cyclic edge set admits no level numbering, so the acyclicity precondition of the layouts excludes exactly the hanging inputs |
| Ranking.LevelIsFixpoint | src/Layout.ts:10-21 | a level numbering is itself a state the loop exits from |
| Ranking.FixpointMeansAcyclic | src/Layout.ts:10-21 | any exit state witnesses acyclicity, so a finished layout can always be run again on the same edges |
| Ranking.ExactIsUnique | src/Layout.ts:8-21 | two finished rankings of the same acyclic edges agree everywhere: ranks depend on the edges only |
| Ranking.ExactCharacterised | src/Layout.ts:13-19 | in a finished ranking a node is at rank 0 iff no edge enters it, and otherwise exactly one above its highest-ranked predecessor |
| Ranking.Detach | src/Layer.ts:102-108 | the kept edges are exactly those not incident to the removed node; their order is stated by Ranking.DetachSplits |
| Ranking.DetachSplits | src/Layer.ts:102-108 | filtering works part by part, so the kept edges stay in their original order |
| Ranking.DetachUntouched | src/Layer.ts:102-108 | removing a node no edge touches leaves the edge list unchanged |
| Ranking.Known | src/Layout.js:15-21 | the edges the JavaScript relaxation can act on are exactly those whose both ends are node ids |
| Ranking.KnownAll | src/Layout.js:15-21 | when every endpoint is a node, no edge is ignored |
| Ranking.AcyclicSubset | src/Layer.ts:102-108 | dropping edges keeps an edge set acyclic, so removal never creates a hang |
| Ranking.IndexOf | src/Layout.ts:33 | `indexOf` is -1 iff the element is absent, and otherwise its first position |
| Ranking.GroupSize | src/Layout.ts:23-28 | a rank group holds exactly the nodes of that rank |
| Ranking.GroupIndexOf | src/Layout.ts:33 | with distinct nodes, `group.indexOf(n)` is the number of earlier nodes of the same rank |
| Ranking.IndexOrdered | src/Layout.ts:30-38 | later nodes of a rank get strictly larger indices, all below the group size, so z offsets in a rank are distinct |
| Ranking.GroupIsSymmetric | src/Layout.ts:34 | every centred z offset of a rank group has its mirror image in the same group |
| Ranking.IndexInGroup | src/Layout.ts:32-34 | what `indexOf` and `group.length` come to for the i-th node |
| Ranking.GroupIsCentred | src/Layout.ts:34 | the centred z offsets of every rank group sum to 0 |
| Seeding.ChildIdsDistinct | src/App.ts:273-276 | the three seeded children `<id>_child_0..2` have different ids |
| Seeding.SubIdIsNotRoot | src/App.ts:271 | a sub-layer is never called `'root'`, so it starts hidden |
| Seeding.SubIdInjective | src/App.ts:271 | different nodes get differently named sub-layers |
| Seeding.ChainIsAcyclic | src/App.ts:278-279 | the seeded chain child_0 -> child_1 -> child_2 is acyclic after each of its two edges |
| SceneTs.Node.constructor | src/Node.ts:16-42 | a new node has the given id, label and position, is not hovered and has no sub-layer |
| SceneTs.RankSeq | src/Layout.ts:30 | lists the rank of every node, read with the default 0 |
| SceneTs.ComputeRanks | src/Layout.ts:5-21 | on acyclic edges the relaxation ends with every node ranked, nothing ranked that is neither a node nor entered by an edge, and the ranking finished (exit condition plus support) |
| SceneTs.RelaxPass | src/Layout.ts:13-20 | one pass keeps ranks below the levels, supported and growing; a pass that changes nothing leaves an exit state, and a changing pass shrinks the gap |
| SceneTs.RelaxStep | src/Layout.ts:16-18 | one raise keeps the pass invariant and shrinks the gap |
| SceneTs.GroupByRank | src/Layout.ts:23-28 | every node's rank has a group, and each group lists the nodes of its rank in insertion order |
| SceneTs.Compute | src/Layout.ts:4-39 | the ranks found are a finished ranking and every node sits at x = 5 * rank, z = 3 * its centred offset in its group |
| SceneTs.Place | src/Layout.ts:30-38 | given the grouping, every node is placed at x = 5 * rank, z = 3 * (index - (size - 1) / 2) |
| SceneTs.Slot | src/Layout.ts:30-37 | the coordinates computed for one node fit its rank and its centred offset in its rank group |
| SceneTs.Layer.NodesList | src/Layer.ts:130 | the nodes listed in insertion order |
| SceneTs.Layer.NodesDistinct | src/Layer.ts:116-118 | the listed nodes are distinct and are exactly nodes of the map |
| SceneTs.Layer.EdgesPointForward | src/Layer.ts:116-127 | after a layout every edge's target lies at least 5 units (one rank) further along x than its source |
| SceneTs.Layer.constructor | src/Layer.ts:18-45 | an empty layer at the given offsets, laid out; visible and opacity 1 iff its id is `'root'`, otherwise hidden at 0 |
| SceneTs.Layer.RefreshLayout | src/Layer.ts:116-127 | afterwards the positions are the layout of the current nodes and edges, and nothing else changes |
| SceneTs.Layer.AddNode | src/Layer.ts:80-85 | a fresh node is stored under the id, replacing any old one; a new id joins the insertion order at the end; the layer is laid out again; edges and fade state stay |
| SceneTs.Layer.Store | src/Layer.ts:82 | `nodes.set`: a new id joins the end of the order, an existing one keeps its place |
| SceneTs.Layer.AddEdge | src/Layer.ts:87-96 | with both ends stored the edge is appended (duplicates and self-loops included) and the layer laid out; otherwise nothing changes |
| SceneTs.Layer.RemoveNode | src/Layer.ts:98-114 | an unknown id changes nothing; a known node leaves the map and order with exactly its incident edges, the rest keep their order, and the layer is laid out again |
| SceneTs.Layer.Forget | src/Layer.ts:102-111 | the edge filter and the map deletion: map minus the id, order without it, edges detached |
| SceneTs.Layer.OnHover | src/Layer.ts:133-146 | a node is hovered iff the picked object is its mesh or lies below it; a miss clears every node |
| SceneTs.Layer.Update | src/Layer.ts:148-166 | the new opacity is SceneTs.FadeStep of the old one: a tenth of the way to its target when more than 0.001 away, and the group is visible iff the target is positive or the opacity exceeds 0.01 |
| SceneTs.RemovalIsConsistent | src/Layer.ts:98-114 | removing a node with its edges keeps every edge between stored nodes and the edges acyclic |
| SceneTs.InsertionIsConsistent | src/Layer.ts:80-85 | storing a node under its own id keeps the store invariant |
| SceneTs.InOrder | src/Layer.ts:130 | the map's values in the order of its keys |
| SceneTs.FadeStep | src/Layer.ts:149-150 | one update leaves exactly nine tenths of the gap to the target, on the same side, when it exceeds 0.001; leaves a smaller gap alone, and never passes the target |
| SceneTs.FadeBetween | src/Layer.ts:148-150 | repeated updates keep the opacity between its start and the target: it never overshoots |
| SceneTs.FadeGap | src/Layer.ts:148-150 | after n updates the gap to the target is within 0.001, or exactly 0.9^n times the first gap, on the same side of the target |
| SceneTs.LayoutIsDeterministic | src/Layout.ts:8-38 | any two finished rankings give the same ranks and offsets: `compute` ignores the old positions and is idempotent |
| SceneJs.Node.constructor | src/Node.js:4-41 | a new node has the given id, label and position, is not hovered and has no sub-layer |
| SceneJs.RankSeq | src/Layout.js:35 | lists the rank of every node |
| SceneJs.ZeroRanks | src/Layout.js:10 | exactly the listed ids are ranked, all at 0 |
| SceneJs.ComputeRanks | src/Layout.js:6-23 | exactly the nodes are ranked, and the ranking is finished over the edges between known nodes; edges naming unknown ids are never relaxed |
| SceneJs.RelaxStep | src/Layout.js:18-20 | one raise on an edge between ranked nodes keeps the pass invariant and shrinks the gap |
| SceneJs.RelaxPass | src/Layout.js:14-22 | a pass keeps the keys, support and growth; a quiet pass leaves an exit state over the known edges |
| SceneJs.GroupByRank | src/Layout.js:26-31 | each group lists the nodes of its rank in insertion order |
| SceneJs.Compute | src/Layout.js:3-43 | the nodes are ranked exactly by the known edges and placed at x = 5 * rank, z = 3 * centred offset |
| SceneJs.Place | src/Layout.js:34-42 | given the grouping, every node is placed at x = 5 * rank, z = 3 * (index - (size - 1) / 2) |
| SceneJs.Slot | src/Layout.js:34-41 | the coordinates computed for one node fit its rank and its centred offset in its rank group |
| SceneJs.Layer.NodesList | src/Layer.js:87 | the nodes in insertion order |
| SceneJs.Layer.NodesDistinct | src/Layer.js:70-73 | the listed nodes are distinct and their ids are exactly the map's keys |
| SceneJs.Layer.EdgesPointForward | src/Layer.js:70-84 | after a layout every edge's target lies at least 5 units further along x than its source |
| SceneJs.Layer.constructor | src/Layer.js:7-30 | an empty, laid-out layer, visible iff its id is `'root'` |
| SceneJs.Layer.RefreshLayout | src/Layer.js:70-84 | afterwards the positions are the layout of the current nodes and edges |
| SceneJs.Layer.AddNode | src/Layer.js:32-37 | a fresh node is stored under the id, replacing any old one, and the layer is laid out again |
| SceneJs.Layer.Store | src/Layer.js:34 | `nodes.set`: a new id joins the end of the order, an existing one keeps its place |
| SceneJs.Layer.AddEdge | src/Layer.js:39-48 | with both ends stored the edge is appended without deduplication and the layer laid out; otherwise nothing changes |
| SceneJs.Layer.RemoveNode | src/Layer.js:50-68 | an unknown id changes nothing; otherwise the node leaves with exactly its incident edges and the layer is laid out again |
| SceneJs.Layer.Forget | src/Layer.js:55-65 | map minus the id, order without it, edges detached |
| SceneJs.Layer.OnHover | src/Layer.js:90-94 | a node is hovered iff the picked object is exactly its mesh (no parent walk); a miss clears every node |
| SceneJs.RemovalIsConsistent | src/Layer.js:50-68 | removal keeps the store invariant |
| SceneJs.InsertionIsConsistent | src/Layer.js:32-37 | insertion keeps the store invariant |
| SceneJs.InOrder | src/Layer.js:87 | the map's values in key order |
| SceneJs.UnknownEdgeIgnored | src/Layout.js:16-18 | an edge with an endpoint outside the node map changes no rank |
| Planes.GraphNode.constructor | src/GraphNode.ts:12-35 | a new node has rank 0, no sub-plane and the resting glow 0.5 |
| Planes.GraphNode.SetHover | src/GraphNode.ts:62-86 | the glow becomes 2.0 when hovered and 0.5 otherwise; an existing sub-plane is shown iff hovered; only the glow and the sub-plane's visibility may change |
| Planes.GraphNode.EnsureSubLayer | src/GraphNode.ts:88-95 | the first call creates a hidden, empty plane `<id>_sub` at y offset -20; every call returns that same plane |
| Planes.Ranks | src2/LayoutEngine.ts:10 | the rank field of every node of a set, as a map |
| Planes.GraphPlane.Subs | src/GraphNode.ts:12 | the planes below the stored nodes, by node id |
| Planes.GraphPlane.RankList | src2/LayoutEngine.ts:26 | the stored nodes' ranks in insertion order |
| Planes.GraphPlane.constructor | src/GraphPlane.ts:17-25 | an empty, visible plane with the given id and offset |
| Planes.GraphPlane.AddNode | src/GraphPlane.ts:44-50 | a fresh node is stored under the id, replacing any old one, and returned; the plane and the planes below are laid out again; links stay; the planes of the tree stay the same and its nodes grow by the new node only |
| Planes.GraphPlane.Store | src/GraphPlane.ts:46 | `nodes.set` for a fresh node, keeping the plane tree valid |
| Planes.GraphPlane.AddLink | src/GraphPlane.ts:51-60 | with both ids stored exactly one link is appended and the layout re-run; otherwise nothing changes |
| Planes.GraphPlane.Connect | src/GraphPlane.ts:55-58 | the push of a link between stored nodes, then the layout |
| Planes.GraphPlane.Link | src/GraphPlane.ts:56 | the link is appended and every link still joins stored nodes |
| Planes.GraphPlane.EnsureSubLayerAt | src2/App.ts:47 | the stored node gets its sub-plane and the plane tree stays valid; a new sub-plane is `<id>_sub` at offset -20, hidden, valid, empty and the only plane of its own tree, and joins the tree's planes |
| Planes.GraphPlane.AddNodeBelow | src2/App.ts:48-49 | `addNode` on the sub-plane of a stored node: the sub-plane stores the fresh node under the id and stays valid, and so does the plane above, whose nodes grow by the new node only |
| Planes.GraphPlane.AddLinkBelow | src2/App.ts:50 | `addLink` on the sub-plane of a stored node: with both ids stored there exactly one link is appended, otherwise the links stay; both planes stay valid and their nodes stay the same |
| Planes.Apply | src2/LayoutEngine.ts:8-42 | afterwards the plane and every plane below it are laid out, and the ranks are a finished ranking when no replaced node kept a stale rank |
| Planes.ApplyBelow | src2/LayoutEngine.ts:37-41 | every plane below a stored node is laid out, and no node of the plane itself changes |
| Planes.LayOut | src2/LayoutEngine.ts:10-31 | the plane's own nodes are ranked and then placed |
| Planes.Rank | src2/LayoutEngine.ts:10-22 | reset to 0, then relaxation: every link climbs and the ranking is exact unless a replaced node kept an old rank |
| Planes.ResetRanks | src2/LayoutEngine.ts:10 | every stored node's rank is 0 and nothing else changes |
| Planes.Relax | src2/LayoutEngine.ts:13-22 | on acyclic links the loop ends in an exit state with ranks supported by the links |
| Planes.RelaxPass | src2/LayoutEngine.ts:16-21 | one pass over the links keeps the ranks below the levels and supported; a quiet pass leaves an exit state |
| Planes.Visit | src2/LayoutEngine.ts:17-19 | the callback lifts the target to one above the source exactly when it does not sit above it |
| Planes.Position | src2/LayoutEngine.ts:25-31 | node i sits at x = 10 * rank and z = 5 * the number of earlier nodes of its rank |
| Planes.Spread | src2/LayoutEngine.ts:26-31 | the loop over the stored nodes, keeping the count table and the placement of the nodes seen |
| Planes.Place | src2/App.ts:40-42 | `addNode` on a plane of the set-up: the fresh node is stored under the id, the plane stays valid, its links and planes stay, and its nodes grow by the new node only |
| Planes.Join | src2/App.ts:44-45 | `addLink` between two stored nodes of a plane of the set-up: exactly that link is appended and the plane stays valid, with its nodes and planes unchanged |
| Planes.StartUp | src2/App.ts:35-52 | the set-up builds a valid plane tree: the root holds `node_0 -> node_1 -> node_2`, `node_0` has the sub-plane `node_0_sub` holding `sub_0 -> sub_1`, and after the one layout pass every plane is laid out and the root's ranks are a finished ranking |
| GraphUI.Sweep | app.js:99-108 | no contract of its own: the definition of one pass of the callback over the edges in order, with whether it moved a card; what a pass guarantees is the contract of GraphUI.SweepDrifts |
| GraphUI.SweepDrifts | app.js:99-108 | a pass leaves every card with its fields except x, and x never decreases; a moved flag means some card went strictly right |
| GraphUI.SettleDrifts | app.js:96-109 | the capped loop only moves cards right, and when it stops on a quiet pass every edge between existing cards points right |
| GraphUI.SettledWhenOrdered | app.js:96-109 | cards that already satisfy every edge are left as they are after one pass |
| GraphUI.NoMoveWhenOrdered | app.js:99-108 | a pass over edges that already point right moves nothing |
| GraphUI.WithEdge | app.js:83-86 | self-loops and existing pairs are ignored, anything else is appended; the result holds exactly the old edges plus the new non-loop pair |
| GraphUI.WithEdgeSimple | app.js:84-86 | adding keeps the edge list free of duplicates and self-loops |
| GraphUI.WithEdgeIdempotent | app.js:84-86 | adding the same edge twice equals adding it once |
| GraphUI.DetachSimple | app.js:262 | deleting a card keeps the list free of duplicates and self-loops |
| GraphUI.FollowStopsAtGap | app.js:163-174 | the walk along the path ends at the graph of the last id before the first one without a graph, or at the root |
| GraphUI.DiveAndSurface | app.js:201-232 | after a dive completes the view is the card's graph, and after the pop the view is the one before the dive |
| GraphUI.Crumbs | app.js:423-427 | the breadcrumb starts with "Root" and is just "Root" iff the path is empty; GraphUI.CrumbsTrail gives its segments |
| GraphUI.Short | app.js:426 | the short form of an id is a prefix of it, five characters long or the whole id when shorter |
| GraphUI.TrailAppend | app.js:423-427 | one more id on the path adds exactly one segment, " > " and its short form, at the end |
| GraphUI.CrumbsTrail | app.js:423-427 | the breadcrumb is "Root" followed by one " > " segment per id, in path order |
| GraphUI.TrimStart | app.js:389 | the suffix of the input without leading white space, having dropped only white space |
| GraphUI.TrimEnd | app.js:389 | the prefix of the input without trailing white space, having dropped only white space |
| GraphUI.NodeLabel | app.js:389 | the label is non-empty and trimmed: exactly the trimmed input when that is not empty, and "New Node" exactly when it is |
| GraphUI.Digits | app.js:363 | the decimal digits of a natural number |
| GraphUI.DigitsInjective | app.js:363 | different numbers are written differently |
| GraphUI.Stamp | app.js:363 | the id of an inline card is "n" followed by the clock reading |
| GraphUI.StampInjective | app.js:363 | cards created at different milliseconds get different ids |
| GraphUI.ClampScale | app.js:321 | the new scale lies in [0.1, 5], equals its input inside the bounds and is the bound outside |
| GraphUI.GraphData.constructor | app.js:31 | an empty graph |
| GraphUI.GraphUI.constructor | app.js:23-52 | the root graph, no nested graphs, empty path, no selection, scale 1 |
| GraphUI.GraphUI.UpdateAutoRanking | app.js:90-110 | the cards become the capped relaxation of the old cards; x never decreases, and a quiet stop leaves every edge pointing right |
| GraphUI.GraphUI.RankPass | app.js:97-108 | one pass: the cards and flag are the pass function of the old cards |
| GraphUI.GraphUI.AddNodeToData | app.js:78-81 | a rank-0 card is stored under the id, replacing any old one, then re-ranked; edges stay and the new card keeps its fields except a non-decreasing x |
| GraphUI.GraphUI.AddEdgeToData | app.js:83-88 | the edges become the deduplicated list; the cards are re-ranked only when an edge was added; endpoints are not checked |
| GraphUI.GraphUI.GetCurrentData | app.js:163-174 | the loop returns the graph the path leads to |
| GraphUI.GraphUI.NavigateDown | app.js:176-198 | refused with no change at depth 12, during a navigation or for an id not in the graph on screen; otherwise the dive starts at scale 8 |
| GraphUI.GraphUI.DiveTimer | app.js:200-205 | the card gets a graph if it has none, and a graph created here is empty; its id is pushed, the path stays at most 12 long, other graphs are untouched, and with every id on the path having a graph the view becomes the card's graph |
| GraphUI.GraphUI.LandTimer | app.js:208-218 | scale 1, no selection, navigation allowed again; path and graphs untouched |
| GraphUI.GraphUI.NavigateUpInteractive | app.js:222-229 | a no-op with an empty path or during a navigation; otherwise the climb starts |
| GraphUI.GraphUI.SurfaceTimer | app.js:230-240 | exactly one id leaves the path; scale 1, no selection, navigation allowed again |
| GraphUI.GraphUI.Wheel | app.js:317-340 | the scale is the clamped new value, and a climb starts iff it is below 0.25 with a non-empty path and no navigation |
| GraphUI.GraphUI.HandleNodeLink | app.js:247-257 | the same id clears the selection; another id while one is selected adds that edge to the graph on screen (deduplicated, no self-loop), re-ranks its cards when the edge list grew, and clears the selection; otherwise the id is selected |
| GraphUI.GraphUI.DeleteNode | app.js:259-267 | the card and exactly its incident edges (others in order) leave the graph on screen, its nested graph is dropped, a selection of it is cleared, and the rest is re-ranked |
| GraphUI.GraphUI.CreateNodeInline | app.js:356-385 | a card with an empty label and id "n" + clock is stored at the grid cell of the graph on screen, without re-ranking |
| GraphUI.LabelInput.constructor | app.js:385 | an unfinished edit of the given card |
| GraphUI.LabelInput.Finalize | app.js:386-396 | the first call labels a still-existing card with the trimmed text (or "New Node") and re-ranks its graph; later calls change nothing |
| GraphUI.LabelInput.Cancel | app.js:401-403 | the edit is finished and the card is deleted from the graph on screen, as by a delete: its incident edges and nested graph go, a selection of it is cleared, the rest is re-ranked |
| CameraJs.Progress | src/CameraManager.js:72 | the progress is at most 1, non-negative for non-negative elapsed time, and 1 exactly from 2000 ms on |
| CameraJs.Ease | src/CameraManager.js:75 | no contract of its own: the definition of the cubic ease-out; its range and end points are the contract of CameraJs.EaseBounds, its monotonicity that of CameraJs.EaseMonotone |
| CameraJs.EaseBounds | src/CameraManager.js:75 | the ease maps [0, 1] into [0, 1], from 0 to 1 |
| CameraJs.EaseMonotone | src/CameraManager.js:75 | the ease never decreases |
| CameraJs.TransitionGap | src/CameraManager.js:95-97 | one transition tick scales every per-axis gap to the goal by 0.85 |
| CameraJs.TransitionDistance | src/CameraManager.js:95-97 | one transition tick multiplies the squared distance to the goal by 0.7225 |
| CameraJs.CameraManager.constructor | src/CameraManager.js:5-21 | controls enabled, looking at the origin, neither flying nor transitioning |
| CameraJs.CameraManager.TransitionTo | src/CameraManager.js:43-49 | the goals are stored, transitioning starts and the controls are disabled; a flight under way is not cancelled |
| CameraJs.CameraManager.FlyThrough | src/CameraManager.js:51-67 | flying with the given curve, look-at goal and start time, transition cancelled, controls disabled |
| CameraJs.CameraManager.Update | src/CameraManager.js:69-109 | a flight moves to the eased curve point and pulls the target a tenth closer, ending (controls back) once progress reaches 1; otherwise a transition closes 15% of each gap and ends iff both distances are below 0.1; idle changes nothing |
| CameraTs.Lookahead | src/CameraManager.ts:36 | the lookahead is at most 1, and not ahead of the progress iff the progress is at least 1 |
| CameraTs.CameraManager.constructor | src/CameraManager.ts:4-16 | no path, progress 0, ride mode off, controls enabled |
| CameraTs.CameraManager.SetRideMode | src/CameraManager.ts:18-22 | ride mode becomes the argument and the controls its negation |
| CameraTs.CameraManager.SetPath | src/CameraManager.ts:24-27 | the curve is stored and ride mode turned on, the controls unchanged |
| CameraTs.CameraManager.Update | src/CameraManager.ts:29-50 | only with ride mode and a path: the eye is the curve point raised by 0.5, and the target is the lookahead point, or the point plus the tangent once the lookahead stops ahead |
| AppJs.Holder | src/App.js:177-178 | the nearest object from the hit upwards with a non-empty id: the hit itself when it has one, and no object between the hit and the result has one; none exactly when the chain has none |
| AppJs.LinkClick | src/App.js:259-271 | a link is added iff a source is selected and differs from the clicked node, from the source to it; afterwards nothing is selected except after a click with none selected |
| AppJs.LinkToggles | src/App.js:259-262 | two clicks on one node select and deselect it, adding nothing |
| AppJs.LinkPairs | src/App.js:263-266 | clicks on two different nodes link the first to the second and leave nothing selected |
| AppJs.LinkClickAsWritten | src/App.js:263-267 | the state change is that of the protocol; the flag records that the log line reads the cleared source |
| AppJs.LinkLogThrows | src/App.js:267 | every linking click throws from its log line, after the edge was added and the selection cleared |
| AppJs.NewSubLayer | src/App.js:318-354 | a fresh layer `<id>_sub` 20 below the current layer, under the node's world x/z, hidden, holding the three children in a chain, laid out |
| AppJs.Populate | src/App.js:340-345 | the three children Alpha, Beta, Gamma, in order, none with a sub-layer |
| AppJs.AddChild | src/App.js:341-344 | a fresh child i, labelled after its index and without a sub-layer, joins after the earlier children, which stay |
| AppJs.Chain | src/App.js:347-348 | the two chain edges and a fresh layout, nodes and visibility unchanged |
| AppJs.SetVisible | src/App.js:370 | the group visibility is set |
| AppJs.HideSubLayers | src/App.js:360-365 | every sub-layer of a node of the layer but the focused one is hidden |
| AppJs.SwapVisibility | src/App.js:359-374 | the left layer and the other nodes' sub-layers are hidden and the node's sub-layer shown |
| AppJs.AddEdgeTo | src/App.js:264 | the edge is appended iff both ends are nodes of the layer; nodes and visibility stay |
| AppJs.App.constructor | src/App.js:6-72 | the empty, visible root layer is current, the stack is empty, nothing selected or hovered, camera at (0, 20, 20) |
| AppJs.App.FindNodeRecursive | src/App.js:307-316 | a node of the layer itself is found directly; any hit is a node of a known layer stored under that id |
| AppJs.App.FindAmong | src/App.js:309-314 | the loop over the nodes from the i-th on finds only nodes with that id |
| AppJs.App.FindsThroughSubLayer | src/App.js:309-314 | the search is complete one level down: whatever a node's sub-layer finds, the layer finds |
| AppJs.App.EnsureSubLayer | src/App.js:318-354 | idempotent: an existing sub-layer stays and nothing changes; otherwise the node gets a fresh seeded one; every sub-layer of the current layer afterwards was one before or is new |
| AppJs.App.BuildSubLayer | src/App.js:319-352 | a node without a sub-layer gets a new layer seeded with Alpha, Beta, Gamma and two chain edges, which joins the known layers and keeps the app valid |
| AppJs.App.Separate | src/App.js:338 | two nodes of a known layer never share a sub-layer, and no sub-layer is its node's layer |
| AppJs.App.Siblings | src/App.js:360-365 | the focused sub-layer is not the current layer nor any sibling's sub-layer, so hiding siblings cannot hide it |
| AppJs.App.SubLayersKnown | src/App.js:359-364 | every sub-layer of a known layer is known and is not that layer |
| AppJs.App.FocusNode | src/App.js:356-417 | exactly one entry (left layer, camera pose) is pushed and the sub-layer becomes current; the left layer and other sub-layers are hidden and the sub-layer shown; no other layer changes visibility; the camera flies through the node to 20 behind it and 20 above the sub-layer, looking at the sub-layer under the node, and only the flight fields of the camera change; a sub-layer built by the call holds the seeded children Alpha, Beta, Gamma in a chain, laid out under the node |
| AppJs.App.Descend | src/App.js:359-416 | the part of the dive after the sub-layer exists; only the left layer and its nodes' sub-layers change visibility, and only the camera's flight fields change; the contents of the sub-layer are kept |
| AppJs.App.Reveal | src/App.js:359-374 | the visibility changes of the dive, confined to the current layer and its nodes' sub-layers |
| AppJs.App.Enter | src/App.js:376-416 | the push, the fly-through with its curve and look-at goal, and the switch of current layer; the eye, the look-at point and any transition goal stay |
| AppJs.App.NavigateUp | src/App.js:419-435 | a no-op on an empty stack; otherwise the left layer is hidden, one entry is popped, its layer is current and visible, and a transition to the saved pose starts; no other layer changes visibility, and the eye and look-at point do not move |
| AppJs.App.Restore | src/App.js:427-434 | the pop, the switch and the transition request |
| AppJs.App.FocusThenNavigateUp | src/App.js:356-435 | a dive followed by a climb restores the current layer and the stack, the layer visible, the camera heading back to its old pose |
| AppJs.App.AutoZoomOut | src/App.js:451-457 | goes up one layer iff the stack is non-empty, no transition runs and the camera is more than 60 from its target, with the effects of navigateUp; otherwise nothing changes |
| AppJs.App.Animate | src/App.js:437-460 | one frame: the eye and look-at point end where the flight or transition step puts them; a climb happens iff the stack is non-empty, no transition is left running and the moved eye is more than 60 from the moved look-at point, and then has the effects of navigateUp; otherwise no layer changes |
| AppJs.App.OnPointerMove | src/App.js:164-204 | a hit marks the hovered mesh, tracks the nearest object with an id and shows (creating if needed) that node's sub-layer and changes no other layer's visibility; a miss clears the hover and hides every sub-layer of the current layer; the current layer's own visibility never changes |
| AppJs.App.HoverOn | src/App.js:171-192 | the hit branch: only the sub-layer of the node the hit names may change visibility |
| AppJs.App.Track | src/App.js:177-191 | the tracked object and the preview of its node; only that node's sub-layer may change visibility |
| AppJs.App.HoverOff | src/App.js:193-203 | the miss branch: only the sub-layers of the current layer's nodes change visibility |
| AppJs.App.HideAll | src/App.js:200-202 | every sub-layer of a node of the current layer is hidden, and no other layer changes |
| AppJs.App.Highlight | src/App.js:174 | each node's hover mark follows the hit |
| AppJs.App.Preview | src/App.js:182-190 | the hovered node's sub-layer exists and is shown; no other layer changes visibility |
| AppJs.App.OnKeyDown | src/App.js:281-288 | Delete or Backspace with a hovered object removes its node from the current layer and clears the hover; any other key changes nothing |
| AppJs.App.Remove | src/App.js:284 | the current layer's `removeNode` seen from the application |
| AppJs.App.OnClick | src/App.js:233-279 | a miss or a node outside the current layer changes nothing; with ctrl/meta the link protocol runs and no layer changes visibility; the camera is untouched by a miss or a link click; otherwise the click dives into the node with the visibility changes, flight curve, look-at goal and start time of focusNode, into a seeded sub-layer when the node had none |
| AppJs.App.Connect | src/App.js:264 | the edge is appended iff both ends are nodes of the current layer |
| AppJs.App.Link | src/App.js:259-271 | the link branch: the selection and edges follow the protocol |
| AppTs.Clamp01 | src/App.ts:162 | the result lies in [0, 1], equals the input inside and the bound outside |
| AppTs.WheelProgress | src/App.ts:160-162 | the progress stays in [0, 1], falls when scrolling down and rises when scrolling up, and is 0 iff the unclamped value is at most 0 |
| AppTs.Holder | src/App.ts:225 | the nearest object from the hit upwards with a non-empty id: the hit itself when it has one, and no object between the hit and the result has one; none exactly when the chain has none |
| AppTs.CameraTargetForNode | src/App.ts:393-400 | the eye is the node's world position plus (0, 0, 20), the look-at point that position minus (0, 20, 0) |
| AppTs.TargetsSubLayer | src/App.ts:393-400 | the look-at point is the origin of the node's seeded sub-layer, shown or not, and the eye 20 above and 20 behind it |
| AppTs.LinkClick | src/App.ts:230-238 | a link is added iff a source is selected and differs from the clicked node; afterwards nothing is selected except after a click with none selected |
| AppTs.LinkSequences | src/App.ts:230-238 | two clicks on a node select and deselect it; clicks on two different nodes link them; nothing stays selected |
| AppTs.NewSubLayer | src/App.ts:265-281 | a fresh layer `<id>_sub` 20 below, under the node's world x/z, hidden and transparent, with three children in a chain, laid out |
| AppTs.Populate | src/App.ts:273-276 | the three children Alpha, Beta, Gamma, in order |
| AppTs.AddChild | src/App.ts:274-275 | child i joins after the earlier children, labelled after its index, at (3i, 0) |
| AppTs.Chain | src/App.ts:278-279 | the two chain edges and a fresh layout |
| AppTs.AddEdgeTo | src/App.ts:234 | the edge is appended iff both ends are nodes of the layer; nodes and fade state stay |
| AppTs.SetTarget | src/App.ts:342 | the target opacity is set |
| AppTs.Show | src/App.ts:350 | the group is shown |
| AppTs.FadeSubLayers | src/App.ts:286-290 | every sub-layer of a node but the focused one gets target opacity 0 |
| AppTs.App.constructor | src/App.ts:34-87 | the visible, opaque root layer is current, the stack is empty, progress 0, no selection, camera not riding |
| AppTs.App.EnsureSubLayer | src/App.ts:265-281 | idempotent: an existing sub-layer stays; otherwise the node gets a fresh seeded one; every sub-layer of the current layer afterwards was one before or is new |
| AppTs.App.BuildSubLayer | src/App.ts:266-280 | a node without a sub-layer gets a new layer seeded with Alpha, Beta, Gamma and two chain edges, which joins the known layers and keeps the app valid |
| AppTs.App.Separate | src/App.ts:271 | two nodes of a known layer never share a sub-layer |
| AppTs.App.Siblings | src/App.ts:286-290 | setting the siblings' target opacity to 0 never touches the focused sub-layer |
| AppTs.App.SubLayersKnown | src/App.ts:286-290 | the sub-layers of a known layer are known and never the layer itself |
| AppTs.App.FocusNode | src/App.ts:283-325 | the other sub-layers get target opacity 0, the node's sub-layer is shown at target 1, the left layer keeps its target and visibility, `{layer, travelProgress}` is pushed, the sub-layer becomes current and the camera rides the new path; no other layer changes, and of the camera only the path and ride mode change; a sub-layer built by the call holds the seeded children Alpha, Beta, Gamma in a chain, laid out under the node, still at opacity 0 |
| AppTs.App.Descend | src/App.ts:286-324 | the dive once the sub-layer exists; only the node's sub-layer is shown, only the current layer's sub-layers change target, and of the camera only the path and ride mode change; the contents and opacity of the sub-layer are kept |
| AppTs.App.Reveal | src/App.ts:286-317 | the target-opacity and visibility changes of the dive; the left layer's own target and visibility are not touched |
| AppTs.App.FadeOthers | src/App.ts:286-290 | the `forEach` over the current layer's nodes; only their sub-layers' targets change |
| AppTs.App.Light | src/App.ts:316-317 | the sub-layer's target becomes 1 and it is shown |
| AppTs.App.Enter | src/App.ts:313-324 | the camera rides the path, the entry is pushed, the sub-layer is current; the eye, look-at point, ride progress and controls stay |
| AppTs.App.NavigateUp | src/App.ts:339-351 | a no-op on an empty stack; otherwise the left layer gets target opacity 0, one entry is popped, its layer is current, shown and at target 1, and the travel and ride progress return to the saved value; no other layer and no other camera field changes |
| AppTs.App.Restore | src/App.ts:343-347 | the pop and the restored progress |
| AppTs.App.FocusThenNavigateUp | src/App.ts:283-351 | a dive followed by a climb restores the current layer, the stack and the progress, the layer fading back in |
| AppTs.App.OnMouseWheel | src/App.ts:159-171 | progress stays in [0, 1], the ride follows it in ride mode, and a climb happens iff progress is 0, deltaY is positive and the stack non-empty, with the target-opacity changes of navigateUp; without a climb no layer changes |
| AppTs.App.Scrub | src/App.ts:160-166 | the clamped progress, copied to the ride in ride mode |
| AppTs.App.AutoZoomOut | src/App.ts:372-377 | goes up iff the stack is non-empty and the camera is more than 60 from its target, with no transition guard, with the effects of navigateUp; otherwise nothing changes |
| AppTs.App.Animate | src/App.ts:353-380 | one frame: in ride mode the eye and look-at point end where the ride puts them, otherwise they stay; a climb happens iff the stack is non-empty and the moved eye is more than 60 from the moved look-at point, with the effects of navigateUp; otherwise no layer changes |
| AppTs.App.OnClick | src/App.ts:219-245 | a miss or a node outside the current layer changes nothing; with ctrl/meta the link protocol runs and no layer changes target or visibility; the camera is untouched by a miss or a link click; otherwise the click dives into the node with the target-opacity changes and ride of focusNode, changing only the camera's path and ride mode, into a seeded sub-layer at opacity 0 when the node had none |
| AppTs.App.Connect | src/App.ts:234 | the edge is appended iff both ends are nodes of the current layer |
| AppTs.App.Link | src/App.ts:231-238 | the selection and edges follow the protocol |
| Navigation.ScrubStacks | src/Navigator.ts:29-50 | never more ids than before; delta 0 changes nothing; scrolling up drops the last path id, scrolling down the last history id |
| Navigation.ScrubAtEnds | src/Navigator.ts:29-50 | up with an empty path or down with an empty history changes nothing |
| Navigation.ScrubKeepsCount | src/Navigator.ts:32-44 | the ids on both stacks stay as many unless an empty id is moved, which is lost; no id appears from nowhere |
| Navigation.ScrubRoundTrip | src/Navigator.ts:30-48 | up then down, or down then up, restores both stacks when the moved id is non-empty |
| Navigation.ScrubDropsEmptyId | src/Navigator.ts:33 | an empty id scrolled up out of is lost, so the round trip fails for it |
| Navigation.Navigator.constructor | src/Navigator.ts:9-15 | both stacks empty, height 0 |
| Navigation.Navigator.Dive | src/Navigator.ts:17-27 | the id is appended, the history emptied, the camera looks at the point 20 below the node from 10 above and 40 behind it, and that height is current |
| Navigation.Navigator.Scrub | src/Navigator.ts:29-50 | the stacks follow the scrub function; up shows the root from (0, 30, 60) at height 0; down into a real id shows (0, -10, 40) at -20; otherwise the camera stays |
| Navigation.DiveThenScrubUp | src/test/05_navigation.test.ts:43 | a dive then one scroll up restores the path, with the id as the whole history, at height 0 |
| HoverInput.HoverNode.constructor | src3/Node.ts:7-18 | a new node does not glow |
| HoverInput.HoverApp.constructor | src3/App.ts:11-27 | nodes node_A and node_B, neither lit, nothing hovered |
| HoverInput.PickedId | src3/InputManager.ts:26-29 | the first hit's id, or none iff nothing is hit |
| HoverInput.Move | src3/InputManager.ts:31-34 | the last id becomes the pick; the tracker is unchanged iff the pick equals the last id; a change logs exactly the pick |
| HoverInput.MoveIdempotent | src3/InputManager.ts:31 | a second move onto the same id changes nothing |
| HoverInput.Moves | src3/InputManager.ts:18-40 | after a sequence of moves the last id is the last pick |
| HoverInput.HoverSequences | src3/test/05_reentry.test.ts:29-33 | A then B ends on B; A then empty space ends on none; A, none, A ends on A having announced A, none, A |
| HoverInput.ExactlyOneLit | src3/InputManager.ts:36-38 | with distinct ids exactly the node with the picked id glows, and none on a miss |
| HoverInput.InputManager.constructor | src3/InputManager.ts:8-16 | nothing seen, nothing announced, consistent with the application |
| HoverInput.InputManager.OnMouseMove | src3/InputManager.ts:18-40 | the tracker moves onto the picked id; the application reports it and exactly the nodes with it glow; an unchanged pick changes nothing |
| HoverInput.LightUp | src3/InputManager.ts:36-38 | each node glows iff its id is the picked one |
| Common.Without | src/Layer.ts:111 | deleting a key leaves exactly the other keys; their order is stated by Common.WithoutSplits and Common.WithoutAt |
| Common.WithoutSplits | src/Layer.ts:111 | deletion works part by part, so the remaining keys keep their insertion order |
| Common.WithoutAbsent | src/Layer.ts:111 | deleting a key that is not there leaves the order unchanged |
| Common.WithoutMiddle | src/Layer.ts:111 | deleting the one occurrence of a key joins the keys before it and after it |
| Common.WithoutAt | src/Layer.ts:111 | in a duplicate-free insertion order, deleting the key at position i leaves the keys before i followed by the keys after i |
| Common.Lookup | src/Layer.ts:88-89 | `map.get` returns the stored value iff the key is present |

## Left out

- Rendering, geometry, materials, labels, edge meshes, splines and the HUD: visual only.
- Raycasting and screen projection: the picked object (with its parent chain) or the sequence of nodes hit is an input.
- DOM and console I/O, `alert`, `prompt` and mouse panning: outside the modelled state. The hover log of the third prototype is kept as a sequence of announced ids.
- `requestAnimationFrame`, `setTimeout` and `performance.now`. Frames are explicit `Animate` calls. The editor's timers are the explicit steps `DiveTimer`, `LandTimer` and `SurfaceTimer`. Clock readings are parameters.
- Curve sampling. The flight curve of `src/CameraManager.js` is sampled by a function parameter. The ride path of `src/CameraManager.ts` is an abstract curve with its points and tangents given. `createTransitionCurve` and the master path of `src/App.ts` are replaced by the curve passed to `FocusNode`.
- Orbit-control damping, WASD panning and `controls.update`: camera numerics outside the modelled state.
- JavaScript numbers: the doubles of the prototypes (camera positions and lerps, flight progress and ease, wheel and ride progress, zoom scale, opacities, centred layout offsets) are exact reals, and grid cells, ranks and clock readings are unbounded integers. Rounding, overflow to infinity and NaN are not modelled, so an equality such as an arrival test or a clamp boundary holds exactly in the model where the source may be off by a rounding error.
- `initDemo` and `generateDAG`: random demo seeding.
- `src/App.ts` `onPointerMove`, `updateHoverSpline` and `onDoubleClick`, and `src/App.js` `onDoubleClick`: spline drawing and prompts. `updateHoverSpline` also creates a sub-layer on hover; that creation is not modelled for `src/App.ts`.
- `updateParentConnections`, and the per-frame layer fades that `src/App.ts` `animate` runs. `Layer.update` is modelled on its own as `SceneTs.Layer.Update`. The applications model only the target opacity a layer is given. `animate` (src/App.ts:353-361) updates only the root, the layers on the stack and the current layer. So a layer left by `navigateUp` (src/App.ts:342), or a sibling sub-layer set to target 0 by a later `focusNode` (src/App.ts:288), is not updated while it is neither on the stack nor current: it keeps its opacity and stays visible, although its target is 0.
- SceneTs.Layer.AddEdge, SceneJs.Layer.AddEdge, Planes.GraphPlane.AddLink, AppJs.App.OnClick, AppTs.App.OnClick: each requires that an added edge keeps its layer acyclic. In the source a cycle or self-loop makes the next layout loop forever (`Ranking.CycleHasNoFixpoint`), which a terminating model cannot represent.
- SceneTs.ComputeRanks, SceneJs.ComputeRanks, SceneTs.Compute, SceneJs.Compute, Planes.Relax: each requires acyclic edges, for the same reason.
- Planes.GraphPlane.AddNodeBelow, Planes.GraphPlane.AddLinkBelow, Planes.Place, Planes.Join: the layout pass that `addNode` and `addLink` run after each change (src/GraphPlane.ts:48, 58) is not restated, because the set-up ends with one layout pass over the whole tree (src2/App.ts:52), which Planes.StartUp states.
- Planes.Apply: a node replaced by `addNode` keeps the rank it last had while still being linked. A finished ranking is only promised when no such stale node exists.
- Navigation.ScrubRoundTrip: the round trip holds only for non-empty ids, because the source drops an empty id that it pops (`Navigation.ScrubDropsEmptyId`).
- GraphUI.Crumbs: the zoom percentage appended to the breadcrumb is not modelled.
- GraphUI.TrimStart: only the white-space characters the model lists count as white space, not every Unicode space that `trim` removes.
- GraphUI.TrimEnd: the same partial set of white-space characters as GraphUI.TrimStart.
- GraphUI.NodeLabel: trims with GraphUI.TrimStart and GraphUI.TrimEnd, so an input surrounded only by Unicode spaces outside that set keeps them.
- GraphUI.GraphUI.CreateNodeInline: blurring an earlier input, and the early return when the card's element is missing, are DOM behaviour and are not modelled.
- The edge-weight argument of `addEdge` and `GraphLink.update`: visual only.
- `src2/InputManager.ts`, `src2/UIController.ts`, `src4`, `src5` and the test harnesses: outside the modelled cores. The tests are cited only for the sequences they exercise.

## Findings

| source | as written | input that shows it | evidently intended | confidence | as-written member | corrected member |
|---|---|---|---|---|---|---|
| src/App.js:267 | after adding the edge, the link branch sets `linkSource` to null and then logs `this.linkSource.id`, which throws a TypeError | ctrl-click node A, then ctrl-click a different node B | log the source's id before clearing it; the edge and the cleared selection stay as they are | not executed | AppJs.LinkClickAsWritten (counterexample `AppJs.LinkLogThrows`) | AppJs.LinkClick (with `AppJs.LinkPairs` and `AppJs.LinkToggles`) |

=== FILE: app_js.dfy ===
/** The application object of the JavaScript prototype (`src/App.js`): a current layer,
    a stack of the layers left by diving into a node, the lazily built sub-layer of each
    node, the visibility flags of the layers, the ctrl/meta-click link protocol, the
    hover preview and the automatic return to the parent layer once the camera has been
    pulled far back. Picking is an input: a hit is the scene object under the pointer
    (`Obj`), a miss is `None`. Clock readings are parameters. */
module AppJs {
  import opened Common
  import opened Ranking
  import opened SceneJs
  import opened Seeding
  import CameraJs

  /** What `focusNode` pushes: the layer being left and the camera pose at that moment. */
  datatype Saved = Saved(layer: Layer, cameraPos: Vec3, target: Vec3)

  /** The camera-to-target distance beyond which a frame goes back up a layer. */
  const ZoomOutDistance: real := 60.0
  /** The end of a dive flight is this far behind the node ... */
  const OffsetBack: real := 20.0
  /** ... and this far above the sub-layer. */
  const OffsetUp: real := 20.0
  /** `object.userData.id`: a node's mesh carries the node's id; any other object
      (a border, a label) carries none, read here as the empty string. */
  function UserId(o: Obj): string {
    if o.meshOf != null then o.meshOf.id else ""
  }

  /** `a` is `o` itself or one of its ancestors. */
  ghost predicate Within(o: Obj, older a: Obj) {
    o == a || (o.parent.Some? && Within(o.parent.value, a))
  }

  /** The number of ancestors of `o`. */
  function Depth(o: Obj): nat {
    match o.parent
    case None => 0
    case Some(p) => 1 + Depth(p)
  }

  /** An ancestor has fewer ancestors than the object, unless it is the object. */
  lemma {:induction false} AncestorDepth(o: Obj, a: Obj)
    requires Within(o, a)
    ensures Depth(a) <= Depth(o) && (Depth(a) == Depth(o) ==> a == o)
  {
    if o != a {
      AncestorDepth(o.parent.value, a);
    }
  }

  /** No object is a proper ancestor of itself, through any chain of ancestors. */
  lemma OnlySelf(o: Obj)
    ensures forall a :: Within(o, a) && Within(a, o) ==> a == o
  {
    forall a | Within(o, a) && Within(a, o) ensures a == o {
      AncestorDepth(o, a);
      AncestorDepth(a, o);
    }
  }

  /** The walk `while (target && !target.userData.id) target = target.parent`: the
      nearest object, from `o` upwards, with a non-empty id; `None` when there is none. */
  function Holder(o: Obj): (r: Option<Obj>)
    ensures Truthy(UserId(o)) ==> r == Some(o)
    ensures r.Some? ==> Truthy(UserId(r.value)) && Within(o, r.value)
    ensures r.None? ==> forall a :: Within(o, a) ==> !Truthy(UserId(a))
    ensures r.Some? ==> forall a :: Within(o, a) && Within(a, r.value) && a != r.value ==> !Truthy(UserId(a))
  {
    if Truthy(UserId(o)) then OnlySelf(o); Some(o)
    else match o.parent
      case None => None
      case Some(p) => Holder(p)
  }

  /** The sub-layer `ensureSubLayer` builds for `node` of `parent`, as built: its
      contents below, and hidden. */
  ghost predicate Seeded(sub: Layer, node: Node, parent: Layer)
    reads sub, sub.nodes.Values`x, sub.nodes.Values`z, sub.nodes.Values`subLayer, node`x, node`z
  {
    Stocked(sub, node, parent) && !sub.visible
  }

  /** The contents of the sub-layer `ensureSubLayer` builds for `node` of `parent`,
      whether shown or not: called `<id>_sub`, 20 below the parent, centred on the
      node's world position, holding the children `<id>_child_0..2` labelled Alpha,
      Beta and Gamma, none with a sub-layer, joined by the edges 0 -> 1 and 1 -> 2, and
      laid out. */
  ghost predicate Stocked(sub: Layer, node: Node, parent: Layer)
    reads sub`order, sub`nodes, sub`edges, sub.nodes.Values`x, sub.nodes.Values`z, sub.nodes.Values`subLayer
    reads node`x, node`z
  {
    sub.id == SubId(node.id) && sub.yOffset == parent.yOffset - LayerDrop &&
    sub.parentX == parent.parentX + node.x && sub.parentZ == parent.parentZ + node.z &&
    Populated(sub, node.id) &&
    sub.edges == [Edge(ChildId(node.id, 0), ChildId(node.id, 1)), Edge(ChildId(node.id, 1), ChildId(node.id, 2))] &&
    sub.Valid() && sub.LaidOut()
  }

  /** The layer holds exactly the three children of node `id`, in order, labelled
      Alpha, Beta and Gamma, none of them with a sub-layer. */
  ghost predicate Populated(sub: Layer, id: Id)
    reads sub`order, sub`nodes, sub.nodes.Values`subLayer
  {
    sub.order == Children(id) && (forall j :: 0 <= j < 3 ==> Children(id)[j] in sub.nodes) &&
    (forall j :: 0 <= j < 3 ==> sub.nodes[Children(id)[j]].title == ChildLabels[j]) &&
    (forall k :: k in sub.nodes ==> sub.nodes[k].subLayer == null)
  }

  /** Every node of a valid layer is listed in its insertion order. */
  lemma Listed(layer: Layer, n: Node)
    requires layer.Valid() && n in layer.nodes.Values
    ensures exists j :: 0 <= j < |layer.order| && layer.nodes[layer.order[j]] == n
  {
    var k :| k in layer.nodes && layer.nodes[k] == n;
    var j :| 0 <= j < |layer.order| && layer.order[j] == k;
  }

  /** What a ctrl/meta click leaves: the new link source and the edge it adds, if any. */
  datatype LinkStep = LinkStep(source: Node?, link: Option<Edge<Id>>)

  /** The link protocol of a ctrl/meta click on `clicked` with `source` selected:
      clicking the source again deselects it, clicking another node links the source
      to it and clears the selection, and with nothing selected the click selects. */
  function LinkClick(source: Node?, clicked: Node): (r: LinkStep)
    ensures r.link.Some? <==> source != null && source != clicked
    ensures r.link.Some? ==> r.link.value == Edge(source.id, clicked.id)
    ensures r.source == null || (source == null && r.source == clicked)
  {
    if source == clicked then LinkStep(null, None)
    else if source != null then LinkStep(null, Some(Edge(source.id, clicked.id)))
    else LinkStep(clicked, None)
  }

  /** Two clicks on the same node select and deselect it, adding nothing. */
  lemma LinkToggles(n: Node)
    ensures LinkClick(null, n).source == n
    ensures LinkClick(LinkClick(null, n).source, n) == LinkStep(null, None)
  {
  }

  /** Clicking `a` and then a different `b` links `a` to `b` and ends with nothing
      selected. */
  lemma LinkPairs(a: Node, b: Node)
    requires a != b
    ensures LinkClick(LinkClick(null, a).source, b) == LinkStep(null, Some(Edge(a.id, b.id)))
  {
  }

  /** The link branch of `onClick` as written, with `thrown` recording whether its log
      line throws: after linking, the log reads `linkSource.id` on the source it has just
      set to null. */
  function LinkClickAsWritten(source: Node?, clicked: Node): (r: (LinkStep, bool))
    ensures r.0 == LinkClick(source, clicked)
  {
    if source == clicked then (LinkStep(null, None), false)
    else if source != null then
      var linkSource: Node? := null;
      (LinkStep(linkSource, Some(Edge(source.id, clicked.id))), linkSource == null)
    else (LinkStep(clicked, None), false)
  }

  /** Every click that links two nodes throws a TypeError from its log line, after the
      edge was added and the selection cleared. */
  lemma LinkLogThrows(source: Node, clicked: Node)
    requires source != clicked
    ensures LinkClickAsWritten(source, clicked).1
    ensures LinkClick(source, clicked).link == Some(Edge(source.id, clicked.id))
  {
  }

  /** The body of `ensureSubLayer` for a node without a sub-layer: a new layer under
      `node` of `parent`, seeded with three children in a chain. */
  method NewSubLayer(node: Node, parent: Layer) returns (sub: Layer)
    ensures fresh(sub) && Seeded(sub, node, parent)
    ensures forall k :: k in sub.nodes ==> fresh(sub.nodes[k])
  {
    sub := new Layer(SubId(node.id), parent.yOffset - LayerDrop, parent.parentX + node.x, parent.parentZ + node.z);
    SubIdIsNotRoot(node.id);
    Populate(sub, node.id);
    var ids := Children(node.id);
    ChildIdsDistinct(node.id);
    Chain(sub, ids[0], ids[1], ids[2]);
  }

  /** The `forEach` of `ensureSubLayer`: adds the three children of node `id` to an
      empty layer. */
  method Populate(sub: Layer, id: Id)
    requires sub.Valid() && sub.order == [] && sub.edges == []
    modifies sub
    ensures sub.Valid() && sub.edges == [] && sub.visible == old(sub.visible) && Populated(sub, id)
    ensures forall k :: k in sub.nodes ==> fresh(sub.nodes[k])
  {
    var ids := Children(id);
    ChildIdsDistinct(id);
    for i := 0 to 3
      invariant sub.Valid() && sub.edges == [] && sub.visible == old(sub.visible) && sub.order == ids[..i]
      invariant forall k :: k in sub.nodes ==> fresh(sub.nodes[k]) && sub.nodes[k].subLayer == null
      invariant forall j :: 0 <= j < i ==> sub.nodes[ids[j]].title == ChildLabels[j]
    {
      AddChild(sub, id, i);
    }
    assert sub.order == ids;
  }

  /** One round of that `forEach`: child `i` of node `id`, labelled after its index and
      placed at (3i, 0), joins a layer holding the children before it. */
  method AddChild(sub: Layer, id: Id, i: nat)
    requires i < 3 && sub.Valid() && sub.order == Children(id)[..i]
    modifies sub, sub.nodes.Values`x, sub.nodes.Values`z
    ensures sub.Valid() && sub.order == Children(id)[..i + 1] && sub.edges == old(sub.edges)
    ensures sub.visible == old(sub.visible)
    ensures var n := sub.nodes[Children(id)[i]];
      fresh(n) && n.title == ChildLabels[i] && n.subLayer == null && sub.nodes == old(sub.nodes)[Children(id)[i] := n]
  {
    var ids := Children(id);
    ChildIdsDistinct(id);
    assert ids[i] !in sub.nodes;
    sub.AddNode(ids[i], ChildLabels[i], 3.0 * i as real, 0.0);
    assert ids[..i + 1] == ids[..i] + [ids[i]];
  }

  /** The two `addEdge` calls of `ensureSubLayer`: links `a -> b -> c` in a layer
      holding those three nodes and no edge. */
  method Chain(layer: Layer, a: Id, b: Id, c: Id)
    requires layer.Valid() && layer.edges == [] && a in layer.nodes && b in layer.nodes && c in layer.nodes
    requires a != b && b != c && a != c
    modifies layer, layer.nodes.Values`x, layer.nodes.Values`z
    ensures layer.Valid() && layer.LaidOut() && layer.edges == [Edge(a, b), Edge(b, c)]
    ensures layer.nodes == old(layer.nodes) && layer.order == old(layer.order) && layer.visible == old(layer.visible)
  {
    ChainIsAcyclic(a, b, c);
    assert layer.edges + [Edge(a, b)] == [Edge(a, b)];
    AddEdgeTo(layer, a, b);
    assert layer.edges + [Edge(b, c)] == [Edge(a, b), Edge(b, c)];
    layer.AddEdge(b, c);
  }

  /** `layer.group.visible = v`. */
  method SetVisible(layer: Layer, v: bool)
    modifies layer`visible
    ensures layer.visible == v
  {
    layer.visible := v;
  }

  /** The sub-layers of the nodes of `layer`. */
  ghost function SubLayersOf(layer: Layer): set<Layer>
    reads layer`nodes, layer.nodes.Values`subLayer
  {
    set k | k in layer.nodes && layer.nodes[k].subLayer != null :: layer.nodes[k].subLayer
  }

  /** The sub-layer of `n`, if it has one, as a set. */
  ghost function SubLayerOf(n: Node): set<Layer>
    reads n`subLayer
  {
    if n.subLayer == null then {} else {n.subLayer}
  }

  /** The sub-layer of `n`, unless `n` is `except`, is hidden. */
  ghost predicate Hidden(except: Node?, n: Node)
    reads n, n.subLayer
  {
    n != except && n.subLayer != null ==> !n.subLayer.visible
  }

  /** The `forEach` over the nodes of `layer` that hides the sub-layer of every node but
      `except` (`null`: of every node). The loop of `focusNode` hides only sub-layers
      that are still visible, which ends in the same state. A sub-layer that belongs to
      `except` alone keeps its flag. */
  method HideSubLayers(layer: Layer, except: Node?)
    requires layer.Valid()
    modifies SubLayersOf(layer)`visible
    ensures forall n :: n in layer.nodes.Values ==> Hidden(except, n)
    ensures except != null && except.subLayer != null &&
            (forall n :: n in layer.nodes.Values && n != except ==> n.subLayer != except.subLayer) ==>
            except.subLayer.visible == old(except.subLayer.visible)
  {
    var i := 0;
    while i < |layer.order|
      invariant 0 <= i <= |layer.order|
      invariant forall j :: 0 <= j < i ==> Hidden(except, layer.nodes[layer.order[j]])
      invariant except != null && except.subLayer != null &&
                (forall n :: n in layer.nodes.Values && n != except ==> n.subLayer != except.subLayer) ==>
                except.subLayer.visible == old(except.subLayer.visible)
    {
      var n := layer.nodes[layer.order[i]];
      if n != except && n.subLayer != null {
        n.subLayer.visible := false;
      }
      i := i + 1;
    }
    forall n | n in layer.nodes.Values ensures Hidden(except, n) {
      Listed(layer, n);
    }
  }

  /** The visibility changes of `focusNode`: every sub-layer of a node of `left` but
      `node`'s is hidden, then `left` itself, then `node`'s sub-layer is shown. */
  method SwapVisibility(left: Layer, node: Node)
    requires left.Valid() && node in left.nodes.Values && node.subLayer != null && node.subLayer != left
    requires forall n :: n in left.nodes.Values && n != node && n.subLayer != null ==>
      n.subLayer != left && n.subLayer != node.subLayer
    modifies SubLayersOf(left)`visible, left`visible
    ensures !left.visible && node.subLayer.visible
    ensures forall n :: n in left.nodes.Values && n != node && n.subLayer != null ==> !n.subLayer.visible
  {
    HideSubLayers(left, node);
    SetVisible(left, false);
    SetVisible(node.subLayer, true);
  }

  /** `layer.addEdge(fromId, toId)`, seen from the application: the edge is appended
      when both ends are nodes of the layer, and the nodes stay. */
  method AddEdgeTo(layer: Layer, fromId: Id, toId: Id)
    requires layer.Valid()
    requires fromId in layer.nodes && toId in layer.nodes ==> Acyclic(layer.edges + [Edge(fromId, toId)])
    modifies layer, layer.nodes.Values`x, layer.nodes.Values`z
    ensures layer.Valid() && layer.nodes == old(layer.nodes) && layer.order == old(layer.order)
    ensures layer.visible == old(layer.visible)
    ensures layer.edges == if fromId in layer.nodes && toId in layer.nodes then old(layer.edges) + [Edge(fromId, toId)]
                           else old(layer.edges)
  {
    layer.AddEdge(fromId, toId);
  }

  class App {
    const rootLayer: Layer
    var currentLayer: Layer
    var layerStack: seq<Saved>
    const camera: CameraJs.CameraManager
    var linkSource: Node?
    var hoveredNode: Option<Obj>
    /** The layers created so far, with the order they were created in (a sub-layer
        is created after the layer holding its node). */
    ghost var layers: set<Layer>
    ghost var born: map<Layer, nat>

    /** The root, the current layer and every left layer are known. */
    ghost predicate Anchored()
      reads this`layers, this`currentLayer, this`layerStack
    {
      rootLayer in layers && currentLayer in layers && forall s :: s in layerStack ==> s.layer in layers
    }

    /** The sub-layer of node `n` of layer `l`, if any, is a known layer created after
        `l`, named after `n`. */
    ghost predicate Nested(l: Layer, n: Node)
      reads this`born, n`subLayer
      requires l in born
    {
      n.subLayer == null || (n.subLayer in born && born[n.subLayer] > born[l] && n.subLayer.id == SubId(n.id))
    }

    /** A known layer is valid, and the sub-layers of its nodes nest below it. */
    ghost predicate Fine(l: Layer)
      reads this`born, l`order, l`nodes, l`edges, l.nodes.Values`subLayer
    {
      l in born && born[l] < |born| && l.Valid() && forall k :: k in l.nodes ==> Nested(l, l.nodes[k])
    }

    /** The nodes of every known layer. */
    ghost function Nodes(): set<Node>
      reads this`layers, layers`nodes
    {
      set l, k | l in layers && k in l.nodes :: l.nodes[k]
    }

    ghost predicate Valid()
      reads this`layers, this`born, this`currentLayer, this`layerStack,
        layers`order, layers`nodes, layers`edges, Nodes()`subLayer, camera
    {
      born.Keys == layers && (forall l {:trigger Fine(l)} :: l in layers ==> Fine(l)) && Anchored() && camera.Valid()
    }

    /** Two nodes of a known layer never share a sub-layer, and a sub-layer is never
        the layer of its node. */
    lemma Separate(l: Layer, m: Node, n: Node)
      requires Valid() && l in layers && m in l.nodes.Values && n in l.nodes.Values
      requires m.subLayer != null
      ensures m != n ==> n.subLayer != m.subLayer
      ensures m.subLayer != l
    {
      var j :| j in l.nodes && l.nodes[j] == m;
      var k :| k in l.nodes && l.nodes[k] == n;
      assert Fine(l);
      assert Nested(l, m) && Nested(l, n);
      SubIdInjective(m.id, n.id);
    }

    /** The application at start-up: the visible, empty root layer is current, the
        stack is empty, nothing is selected or hovered and the camera is at (0, 20, 20). */
    constructor()
      ensures Valid() && fresh(rootLayer) && fresh(camera)
      ensures currentLayer == rootLayer && layerStack == [] && rootLayer.id == "root" && rootLayer.visible
      ensures rootLayer.nodes == map[] && rootLayer.edges == [] && rootLayer.yOffset == 0.0
      ensures linkSource == null && hoveredNode == None
      ensures camera.position == Vec3(0.0, 20.0, 20.0) && !camera.isFlying && !camera.isTransitioning
    {
      rootLayer := new Layer("root", 0.0, 0.0, 0.0);
      currentLayer := rootLayer;
      layerStack := [];
      camera := new CameraJs.CameraManager(Vec3(0.0, 20.0, 20.0));
      linkSource := null;
      hoveredNode := None;
      layers := {rootLayer};
      born := map[rootLayer := 0];
      new;
      assert Fine(rootLayer);
    }

    /** `findNodeRecursive(layer, id)`: the node `id` of `layer` itself if there is one,
        otherwise the first hit found depth-first through the nodes' sub-layers in
        insertion order. Whatever it finds is a node of some layer, stored under `id`. */
    function FindNodeRecursive(layer: Layer, id: Id): (found: Option<Node>)
      reads this`layers, this`born, this`currentLayer, this`layerStack,
        layers`order, layers`nodes, layers`edges, Nodes()`subLayer, camera
      requires Valid() && layer in layers
      ensures id in layer.nodes ==> found == Some(layer.nodes[id])
      ensures found.Some? ==> found.value.id == id && found.value in Nodes()
      decreases |born| - born[layer], 1, 0
    {
      assert Fine(layer);
      if id in layer.nodes then Some(layer.nodes[id]) else FindAmong(layer, id, 0)
    }

    /** The `for (const n of layer.nodes.values())` loop from the `i`-th node on. */
    function FindAmong(layer: Layer, id: Id, i: nat): (found: Option<Node>)
      reads this`layers, this`born, this`currentLayer, this`layerStack,
        layers`order, layers`nodes, layers`edges, Nodes()`subLayer, camera
      requires Valid() && layer in layers && i <= |layer.order|
      ensures found.Some? ==> found.value.id == id && found.value in Nodes()
      decreases |born| - born[layer], 0, |layer.order| - i
    {
      if i == |layer.order| then None
      else
        assert Fine(layer);
        var n := layer.nodes[layer.order[i]];
        assert Nested(layer, n);
        if n.subLayer != null then
          var found := FindNodeRecursive(n.subLayer, id);
          if found.Some? then found else FindAmong(layer, id, i + 1)
        else FindAmong(layer, id, i + 1)
    }

    /** The search is complete one level down: what the sub-layer of a node of `layer`
        finds, `layer` finds too (possibly an earlier hit). */
    lemma FindsThroughSubLayer(layer: Layer, n: Node, id: Id)
      requires Valid() && layer in layers && n in layer.nodes.Values && n.subLayer != null
      requires n.subLayer in layers && FindNodeRecursive(n.subLayer, id).Some?
      ensures FindNodeRecursive(layer, id).Some?
    {
      if id !in layer.nodes {
        assert Fine(layer);
        Listed(layer, n);
        var j :| 0 <= j < |layer.order| && layer.nodes[layer.order[j]] == n;
        FindAmongReaches(layer, id, 0, j);
      }
    }

    lemma {:induction false} FindAmongReaches(layer: Layer, id: Id, i: nat, j: nat)
      requires Valid() && layer in layers && i <= j < |layer.order| && layer.Valid()
      requires layer.nodes[layer.order[j]].subLayer != null && layer.nodes[layer.order[j]].subLayer in layers
      requires FindNodeRecursive(layer.nodes[layer.order[j]].subLayer, id).Some?
      ensures FindAmong(layer, id, i).Some?
      decreases j - i
    {
      assert Fine(layer);
      var n := layer.nodes[layer.order[i]];
      assert Nested(layer, n);
      if i < j && !(n.subLayer != null && FindNodeRecursive(n.subLayer, id).Some?) {
        FindAmongReaches(layer, id, i + 1, j);
      }
    }

    /** Allocating and filling fresh objects keeps the application valid. */
    twostate lemma StillValid()
      requires old(Valid()) && unchanged(this, camera) && unchanged(layers) && unchanged(Nodes())
      ensures Valid()
    {
    }

    /** Records the new layer `sub`, whose nodes have no sub-layers, as the newest
        known layer. */
    ghost method Register(sub: Layer)
      requires Valid() && sub !in layers && sub.Valid()
      requires forall k :: k in sub.nodes ==> sub.nodes[k].subLayer == null
      modifies this`layers, this`born
      ensures Valid() && layers == old(layers) + {sub}
      ensures forall l :: l in layers && l != sub ==> born[l] < born[sub]
    {
      ghost var n := |born|;
      assert sub !in born;
      born := born[sub := n];
      layers := layers + {sub};
      assert |born| == n + 1;
      forall l | l in layers ensures Fine(l) && (l != sub ==> born[l] < born[sub]) {
        if l != sub {
          assert old(Fine(l));
          forall k | k in l.nodes ensures Nested(l, l.nodes[k]) {
            assert old(Nested(l, l.nodes[k]));
          }
        }
      }
    }

    /** `node.subLayer = sub` for a node without a sub-layer and the newest known
        layer `sub`, which does not hold `node`. */
    method Attach(node: Node, sub: Layer)
      requires Valid() && node.subLayer == null && sub in layers && sub.id == SubId(node.id)
      requires forall l :: l in layers && l != sub ==> born[l] < born[sub]
      requires forall k :: k in sub.nodes ==> sub.nodes[k] != node
      modifies node`subLayer
      ensures Valid() && node.subLayer == sub
    {
      node.subLayer := sub;
      forall l | l in layers ensures Fine(l) {
        assert old(Fine(l));
        forall k | k in l.nodes ensures Nested(l, l.nodes[k]) {
          assert old(Nested(l, l.nodes[k]));
        }
      }
    }

    /** `ensureSubLayer(node)` for a node of the current layer: a node that has a
        sub-layer keeps it and nothing changes; otherwise it gets a new, seeded one. */
    method EnsureSubLayer(node: Node)
      requires Valid() && node in currentLayer.nodes.Values
      modifies this`layers, this`born, node`subLayer
      ensures Valid() && node.subLayer != null && node.subLayer in layers
      ensures old(node.subLayer) != null ==> node.subLayer == old(node.subLayer) && layers == old(layers)
      ensures old(node.subLayer) == null ==>
        fresh(node.subLayer) && layers == old(layers) + {node.subLayer} && Seeded(node.subLayer, node, currentLayer)
      ensures forall s :: s in SubLayersOf(currentLayer) ==> s in old(SubLayersOf(currentLayer)) || fresh(s)
    {
      if node.subLayer == null {
        BuildSubLayer(node);
      } else {
        Owned(currentLayer, node);
      }
      forall s | s in SubLayersOf(currentLayer) ensures s in old(SubLayersOf(currentLayer)) || fresh(s) {
        var k :| k in currentLayer.nodes && currentLayer.nodes[k].subLayer == s;
        assert currentLayer.nodes[k] == node || currentLayer.nodes[k].subLayer == old(currentLayer.nodes[k].subLayer);
      }
    }

    /** The branch of `ensureSubLayer` for a node without a sub-layer: a new, seeded
        layer is made, recorded as the newest known layer and attached to the node. */
    method BuildSubLayer(node: Node)
      requires Valid() && node in currentLayer.nodes.Values && node.subLayer == null
      modifies this`layers, this`born, node`subLayer
      ensures Valid() && fresh(node.subLayer) && layers == old(layers) + {node.subLayer}
      ensures Seeded(node.subLayer, node, currentLayer)
    {
      var sub := NewKnownSubLayer(node);
      ghost var seeded := Seeded(sub, node, currentLayer);
      Attach(node, sub);
      assert Seeded(sub, node, currentLayer) == seeded;
    }

    /** The new layer of `BuildSubLayer`, seeded and recorded as the newest known layer
        but not yet attached to `node`. */
    method NewKnownSubLayer(node: Node) returns (sub: Layer)
      requires Valid() && node in currentLayer.nodes.Values && node.subLayer == null
      modifies this`layers, this`born
      ensures Valid() && fresh(sub) && layers == old(layers) + {sub} && Seeded(sub, node, currentLayer)
      ensures forall l :: l in layers && l != sub ==> born[l] < born[sub]
      ensures forall k :: k in sub.nodes ==> sub.nodes[k] != node
    {
      sub := NewSubLayer(node, currentLayer);
      StillValid();
      ghost var seeded := Seeded(sub, node, currentLayer);
      Register(sub);
      assert Seeded(sub, node, currentLayer) == seeded;
    }

  /** The sub-layer of a node of a known layer is known. */
    lemma Owned(l: Layer, node: Node)
      requires Valid() && l in layers && node in l.nodes.Values
      ensures node.subLayer != null ==> node.subLayer in layers
    {
      var k :| k in l.nodes && l.nodes[k] == node;
      assert Fine(l);
      assert Nested(l, node);
    }

    /** The sub-layers of the nodes of a known layer are known, and none of them is
        that layer. */
    lemma SubLayersKnown(l: Layer)
      requires Valid() && l in layers
      ensures SubLayersOf(l) <= layers && l !in SubLayersOf(l)
    {
      forall s | s in SubLayersOf(l) ensures s in layers && s != l {
        var k :| k in l.nodes && l.nodes[k].subLayer == s;
        assert Fine(l);
        assert Nested(l, l.nodes[k]);
      }
    }

    /** Below a known layer, the sub-layer of `node` is neither that layer nor the
        sub-layer of any other of its nodes. */
    lemma Siblings(l: Layer, node: Node)
      requires Valid() && l in layers && node in l.nodes.Values && node.subLayer != null
      ensures node.subLayer != l
      ensures forall n :: n in l.nodes.Values && n != node && n.subLayer != null ==>
        n.subLayer != l && n.subLayer != node.subLayer
    {
      Separate(l, node, node);
      forall n | n in l.nodes.Values && n != node && n.subLayer != null
        ensures n.subLayer != l && n.subLayer != node.subLayer
      {
        Separate(l, n, node);
      }
    }

    /** `focusNode(node)` for a node of the current layer: the node's sub-layer (built
        if missing) becomes current and visible, the layer left and every other
        sub-layer of its nodes are hidden, the layer and camera pose are pushed, and the
        camera flies through the node to 20 behind it and 20 above the sub-layer,
        looking at the sub-layer under the node. */
    method FocusNode(node: Node, now: real)
      requires Valid() && node in currentLayer.nodes.Values
      modifies this`currentLayer, this`layerStack, this`layers, this`born,
        SubLayersOf(currentLayer)`visible, currentLayer`visible, node`subLayer, camera`flightCurve, camera`targetLookAt, camera`flightStartTime, camera`isFlying,
        camera`isTransitioning, camera`controlsEnabled
      ensures Valid() && linkSource == old(linkSource) && hoveredNode == old(hoveredNode)
      ensures node.subLayer != null && currentLayer == node.subLayer
      ensures old(node.subLayer) != null ==> node.subLayer == old(node.subLayer) && layers == old(layers)
      ensures old(node.subLayer) == null ==> fresh(node.subLayer) && layers == old(layers) + {node.subLayer}
      ensures old(node.subLayer) == null ==> Stocked(currentLayer, node, old(currentLayer))
      ensures layerStack == old(layerStack) + [Saved(old(currentLayer), old(camera.position), old(camera.target))]
      ensures !old(currentLayer).visible && currentLayer.visible
      ensures forall n :: n in old(currentLayer).nodes.Values && n != node && n.subLayer != null ==> !n.subLayer.visible
      ensures camera.isFlying && !camera.isTransitioning && !camera.controlsEnabled && camera.flightStartTime == now
      ensures camera.flightCurve == Some(CameraJs.Flight(old(camera.position), Vec3(node.x, 0.0, node.z),
                                         Vec3(node.x, currentLayer.yOffset + OffsetUp, node.z + OffsetBack)))
      ensures camera.targetLookAt == Some(Vec3(node.x, currentLayer.yOffset, node.z))
    {
      EnsureSubLayer(node);
      assert camera.position == old(camera.position) && camera.target == old(camera.target);
      ghost var link, hover := linkSource, hoveredNode;
      Descend(node, now);
      assert linkSource == link && hoveredNode == hover;
    }

    /** The rest of `focusNode`, once `node` has a sub-layer. */
    method Descend(node: Node, now: real)
      requires Valid() && node in currentLayer.nodes.Values && node.subLayer != null && node.subLayer in layers
      modifies this`currentLayer, this`layerStack, SubLayersOf(currentLayer)`visible, currentLayer`visible,
        camera`flightCurve, camera`targetLookAt, camera`flightStartTime, camera`isFlying,
        camera`isTransitioning, camera`controlsEnabled
      ensures Valid() && currentLayer == node.subLayer
      ensures Stocked(currentLayer, node, old(currentLayer)) == old(Stocked(node.subLayer, node, currentLayer))
      ensures layerStack == old(layerStack) + [Saved(old(currentLayer), old(camera.position), old(camera.target))]
      ensures !old(currentLayer).visible && currentLayer.visible
      ensures forall n :: n in old(currentLayer).nodes.Values && n != node && n.subLayer != null ==> !n.subLayer.visible
      ensures camera.isFlying && !camera.isTransitioning && !camera.controlsEnabled && camera.flightStartTime == now
      ensures camera.flightCurve == Some(CameraJs.Flight(old(camera.position), Vec3(node.x, 0.0, node.z),
                                         Vec3(node.x, currentLayer.yOffset + OffsetUp, node.z + OffsetBack)))
      ensures camera.targetLookAt == Some(Vec3(node.x, currentLayer.yOffset, node.z))
    {
      ghost var sub, parent := node.subLayer, currentLayer;
      ghost var stocked := Stocked(sub, node, parent);
      Reveal(node);
      assert Stocked(sub, node, parent) == stocked;
      Enter(node, now);
      assert Stocked(sub, node, parent) == stocked;
    }

    /** The visibility changes of `focusNode`: the current layer and the sub-layers of
        its other nodes are hidden, the sub-layer of `node` is shown. */
    method Reveal(node: Node)
      requires Valid() && node in currentLayer.nodes.Values && node.subLayer != null
      modifies SubLayersOf(currentLayer)`visible, currentLayer`visible
      ensures Valid()
      ensures !currentLayer.visible && node.subLayer.visible
      ensures forall n :: n in currentLayer.nodes.Values && n != node && n.subLayer != null ==> !n.subLayer.visible
    {
      var left := currentLayer;
      assert Fine(left);
      SubLayersKnown(left);
      Siblings(left, node);
      SwapVisibility(left, node);
    }

    /** The camera and stack changes of `focusNode`: the current layer and camera pose
        are pushed, the camera flies through `node` and the sub-layer becomes current. */
    method Enter(node: Node, now: real)
      requires Valid() && node.subLayer != null && node.subLayer in layers
      modifies this`currentLayer, this`layerStack, camera`flightCurve, camera`targetLookAt, camera`flightStartTime, camera`isFlying,
        camera`isTransitioning, camera`controlsEnabled
      ensures Valid() && currentLayer == node.subLayer
      ensures layerStack == old(layerStack) + [Saved(old(currentLayer), old(camera.position), old(camera.target))]
      ensures camera.isFlying && !camera.isTransitioning && !camera.controlsEnabled && camera.flightStartTime == now
      ensures camera.flightCurve == Some(CameraJs.Flight(old(camera.position), Vec3(node.x, 0.0, node.z),
                                         Vec3(node.x, currentLayer.yOffset + OffsetUp, node.z + OffsetBack)))
      ensures camera.targetLookAt == Some(Vec3(node.x, currentLayer.yOffset, node.z))
    {
      var sub := node.subLayer;
      layerStack := layerStack + [Saved(currentLayer, camera.position, camera.target)];
      camera.FlyThrough(camera.position, Vec3(node.x, 0.0, node.z),
                        Vec3(node.x, sub.yOffset + OffsetUp, node.z + OffsetBack), Vec3(node.x, sub.yOffset, node.z), now);
      currentLayer := sub;
    }

    /** `navigateUp()`: with an empty stack nothing changes; otherwise the current layer
        is hidden, the top entry is popped, its layer becomes current and visible, and the
        camera is sent back to the saved pose. */
    method NavigateUp()
      requires Valid()
      modifies this`layerStack, this`currentLayer, currentLayer`visible, Returning()`visible,
        camera`targetPosition, camera`targetLookAt, camera`isTransitioning, camera`controlsEnabled
      ensures Valid()
      ensures old(layerStack) == [] ==> unchanged(this, camera) && unchanged(layers)
      ensures old(layerStack) != [] ==>
        var top := old(layerStack)[|old(layerStack)| - 1];
        layerStack == old(layerStack)[..|old(layerStack)| - 1] && currentLayer == top.layer && currentLayer.visible &&
        (old(currentLayer) != top.layer ==> !old(currentLayer).visible) &&
        camera.isTransitioning && !camera.controlsEnabled &&
        camera.targetPosition == Some(top.cameraPos) && camera.targetLookAt == Some(top.target)
    {
      if |layerStack| == 0 {
        return;
      }
      var prev := layerStack[|layerStack| - 1];
      SetVisible(currentLayer, false);
      SetVisible(prev.layer, true);
      Restore();
    }

    /** The stack and camera changes of `navigateUp()`: the top entry is popped, its
        layer becomes current and the camera heads back to its saved pose. */
    method Restore()
      requires Valid() && layerStack != []
      modifies this`layerStack, this`currentLayer,
        camera`targetPosition, camera`targetLookAt, camera`isTransitioning, camera`controlsEnabled
      ensures Valid()
      ensures var top := old(layerStack)[|old(layerStack)| - 1];
        layerStack == old(layerStack)[..|old(layerStack)| - 1] && currentLayer == top.layer &&
        camera.isTransitioning && !camera.controlsEnabled &&
        camera.targetPosition == Some(top.cameraPos) && camera.targetLookAt == Some(top.target)
    {
      var prev := layerStack[|layerStack| - 1];
      layerStack := layerStack[..|layerStack| - 1];
      currentLayer := prev.layer;
      camera.TransitionTo(prev.cameraPos, prev.target);
    }

    /** The layer `navigateUp()` returns to: that of the top entry of the stack, if any. */
    ghost function Returning(): set<Layer>
      reads this`layerStack
    {
      if layerStack == [] then {} else {layerStack[|layerStack| - 1].layer}
    }

    /** Diving into a node and coming back up restores the current layer, shows it
        again and leaves the stack as it was, with the camera heading back to where it
        was before the dive. */
    method FocusThenNavigateUp(node: Node, now: real)
      requires Valid() && node in currentLayer.nodes.Values
      modifies this`currentLayer, this`layerStack, this`layers, this`born,
        SubLayersOf(currentLayer)`visible, currentLayer`visible, node`subLayer, camera
      ensures Valid() && currentLayer == old(currentLayer) && layerStack == old(layerStack) && currentLayer.visible
      ensures camera.targetPosition == Some(old(camera.position)) && camera.targetLookAt == Some(old(camera.target))
    {
      FocusNode(node, now);
      NavigateUp();
    }

    /** The zoom-out check of a frame: with a non-empty stack, no transition under way
        and the camera more than 60 from its target, go up one layer. */
    method AutoZoomOut() returns (navigated: bool)
      requires Valid()
      modifies this`layerStack, this`currentLayer, currentLayer`visible, Returning()`visible,
        camera`targetPosition, camera`targetLookAt, camera`isTransitioning, camera`controlsEnabled
      ensures Valid()
      ensures navigated == (old(layerStack) != [] && !old(camera.isTransitioning) &&
                            DistSq(old(camera.position), old(camera.target)) > ZoomOutDistance * ZoomOutDistance)
      ensures navigated ==>
        var top := old(layerStack)[|old(layerStack)| - 1];
        layerStack == old(layerStack)[..|old(layerStack)| - 1] && currentLayer == top.layer && currentLayer.visible &&
        (old(currentLayer) != top.layer ==> !old(currentLayer).visible) &&
        camera.isTransitioning && !camera.controlsEnabled &&
        camera.targetPosition == Some(top.cameraPos) && camera.targetLookAt == Some(top.target)
      ensures !navigated ==> unchanged(this, camera) && unchanged(layers)
    {
      navigated := false;
      if |layerStack| > 0 && !camera.isTransitioning {
        if DistSq(camera.position, camera.target) > ZoomOutDistance * ZoomOutDistance {
          NavigateUp();
          navigated := true;
        }
      }
    }

    /** One frame at clock reading `now`: the camera moves, then the zoom-out check runs
        on the moved camera. A flight puts the eye on its curve and a transition moves it
        15% closer to its goal; the eye and look-at point end the frame where that move
        left them. The frame goes up one layer exactly when the stack is not empty, no
        transition is still under way after the move, and the moved eye is more than 60
        from the moved look-at point. */
    method Animate(now: real, sample: (CameraJs.Flight, real) -> Vec3) returns (navigated: bool)
      requires Valid()
      modifies this`layerStack, this`currentLayer, currentLayer`visible, Returning()`visible, camera
      ensures Valid()
      ensures old(camera.isFlying) ==>
        camera.position == sample(old(camera.flightCurve).value, CameraJs.Ease(CameraJs.Progress(now - old(camera.flightStartTime)))) &&
        camera.target == Lerp(old(camera.target), old(camera.targetLookAt).value, CameraJs.FlightLookLerp)
      ensures !old(camera.isFlying) && old(camera.isTransitioning) ==>
        camera.position == Lerp(old(camera.position), old(camera.targetPosition).value, CameraJs.LerpFactor) &&
        camera.target == Lerp(old(camera.target), old(camera.targetLookAt).value, CameraJs.LerpFactor)
      ensures !old(camera.isFlying) && !old(camera.isTransitioning) ==>
        camera.position == old(camera.position) && camera.target == old(camera.target)
      ensures var stillMoving :=
          if old(camera.isFlying) then old(camera.isTransitioning)
          else old(camera.isTransitioning) &&
               !(DistSq(camera.position, old(camera.targetPosition).value) < CameraJs.StoppingThreshold * CameraJs.StoppingThreshold &&
                 DistSq(camera.target, old(camera.targetLookAt).value) < CameraJs.StoppingThreshold * CameraJs.StoppingThreshold);
        navigated == (old(layerStack) != [] && !stillMoving &&
                      DistSq(camera.position, camera.target) > ZoomOutDistance * ZoomOutDistance)
      ensures navigated ==>
        var top := old(layerStack)[|old(layerStack)| - 1];
        layerStack == old(layerStack)[..|old(layerStack)| - 1] && currentLayer == top.layer && currentLayer.visible &&
        (old(currentLayer) != top.layer ==> !old(currentLayer).visible) &&
        camera.isTransitioning && camera.targetPosition == Some(top.cameraPos) && camera.targetLookAt == Some(top.target)
      ensures !navigated ==> layerStack == old(layerStack) && currentLayer == old(currentLayer) && unchanged(layers)
    {
      camera.Update(now, sample);
      navigated := AutoZoomOut();
    }

    /** `onPointerMove` with the hit under the pointer. A hit highlights exactly the node
        whose mesh it is, remembers the nearest object with an id as `hoveredNode`, and
        when that id names a node of the current layer shows its sub-layer (built if
        missing). A miss clears every highlight and `hoveredNode`, and hides the sub-layer
        of every node of the current layer. No other layer is shown or hidden, the
        current one included. */
    method OnPointerMove(pick: Option<Obj>)
      requires Valid()
      modifies this`hoveredNode, this`layers, this`born, SubLayersOf(currentLayer)`visible,
        currentLayer.nodes.Values`hovered, currentLayer.nodes.Values`subLayer
      ensures Valid() && currentLayer == old(currentLayer) && layerStack == old(layerStack)
      ensures currentLayer.visible == old(currentLayer.visible)
      ensures pick.Some? ==> forall l :: l in old(layers) && l !in old(PreviewedBy(pick.value)) ==> l.visible == old(l.visible)
      ensures currentLayer.nodes == old(currentLayer.nodes) && currentLayer.edges == old(currentLayer.edges)
      ensures forall k :: k in currentLayer.nodes ==>
        currentLayer.nodes[k].hovered == (pick.Some? && pick.value.meshOf == currentLayer.nodes[k])
      ensures pick.Some? ==> hoveredNode == Holder(pick.value)
      ensures pick.Some? && hoveredNode.Some? && UserId(hoveredNode.value) in currentLayer.nodes ==>
        var n := currentLayer.nodes[UserId(hoveredNode.value)];
        n.subLayer != null && n.subLayer.visible && (old(n.subLayer) != null ==> n.subLayer == old(n.subLayer))
      ensures pick.None? ==> hoveredNode == None
      ensures pick.None? ==> forall n :: n in currentLayer.nodes.Values && n.subLayer != null ==> !n.subLayer.visible
    {
      if pick.Some? {
        assert PreviewedBy(pick.value) <= SubLayersOf(currentLayer);
        HoverOn(pick.value);
      } else {
        HoverOff();
      }
    }

    /** `onPointerMove` on a hit. */
    method HoverOn(obj: Obj)
      requires Valid()
      modifies this`hoveredNode, this`layers, this`born, PreviewedBy(obj)`visible,
        currentLayer.nodes.Values`hovered, currentLayer.nodes.Values`subLayer
      ensures Valid() && currentLayer.nodes == old(currentLayer.nodes) && currentLayer.edges == old(currentLayer.edges)
      ensures currentLayer.visible == old(currentLayer.visible)
      ensures forall k :: k in currentLayer.nodes ==> currentLayer.nodes[k].hovered == (obj.meshOf == currentLayer.nodes[k])
      ensures hoveredNode == Holder(obj)
      ensures hoveredNode.Some? && UserId(hoveredNode.value) in currentLayer.nodes ==>
        var n := currentLayer.nodes[UserId(hoveredNode.value)];
        n.subLayer != null && n.subLayer.visible && (old(n.subLayer) != null ==> n.subLayer == old(n.subLayer))
    {
      Highlight(Some(obj));
      Track(obj);
    }

    /** The object with an id nearest to the hit becomes `hoveredNode`, and the
        sub-layer of the node of the current layer it names, if any, is shown. */
    method Track(obj: Obj)
      requires Valid()
      modifies this`hoveredNode, this`layers, this`born, PreviewedBy(obj)`visible, currentLayer.nodes.Values`subLayer
      ensures Valid() && hoveredNode == Holder(obj) && currentLayer.visible == old(currentLayer.visible)
      ensures hoveredNode.Some? && UserId(hoveredNode.value) in currentLayer.nodes ==>
        var n := currentLayer.nodes[UserId(hoveredNode.value)];
        n.subLayer != null && n.subLayer.visible && (old(n.subLayer) != null ==> n.subLayer == old(n.subLayer))
    {
      hoveredNode := Holder(obj);
      if hoveredNode.Some? && UserId(hoveredNode.value) in currentLayer.nodes {
        Preview(currentLayer.nodes[UserId(hoveredNode.value)]);
      }
    }

    /** The sub-layer a hover on `obj` may show: that of the node of the current layer
        the hit names, when it has one. */
    ghost function PreviewedBy(obj: Obj): set<Layer>
      reads this`currentLayer, currentLayer`nodes, currentLayer.nodes.Values`subLayer
    {
      var h := Holder(obj);
      if h.Some? && UserId(h.value) in currentLayer.nodes && currentLayer.nodes[UserId(h.value)].subLayer != null
      then {currentLayer.nodes[UserId(h.value)].subLayer} else {}
    }

    /** `onPointerMove` on a miss. */
    method HoverOff()
      requires Valid()
      modifies this`hoveredNode, SubLayersOf(currentLayer)`visible, currentLayer.nodes.Values`hovered
      ensures Valid() && hoveredNode == None && currentLayer.visible == old(currentLayer.visible)
      ensures forall k :: k in currentLayer.nodes ==> !currentLayer.nodes[k].hovered
      ensures forall n :: n in currentLayer.nodes.Values && n.subLayer != null ==> !n.subLayer.visible
    {
      hoveredNode := None;
      Highlight(None);
      assert Valid();
      HideAll();
    }

    /** Every sub-layer of a node of the current layer is hidden. */
    method HideAll()
      requires Valid()
      modifies SubLayersOf(currentLayer)`visible
      ensures Valid() && currentLayer.visible == old(currentLayer.visible)
      ensures forall n :: n in currentLayer.nodes.Values && n.subLayer != null ==> !n.subLayer.visible
    {
      assert Fine(currentLayer);
      SubLayersKnown(currentLayer);
      HideSubLayers(currentLayer, null);
    }

    /** The highlight of every node of the current layer follows the hit. */
    method Highlight(pick: Option<Obj>)
      requires Valid()
      modifies currentLayer.nodes.Values`hovered
      ensures Valid()
      ensures forall k :: k in currentLayer.nodes ==>
        currentLayer.nodes[k].hovered == (pick.Some? && pick.value.meshOf == currentLayer.nodes[k])
    {
      assert Fine(currentLayer);
      currentLayer.OnHover(pick);
    }

    /** The preview of a hovered node of the current layer: its sub-layer, built if
        missing, is shown. */
    method Preview(node: Node)
      requires Valid() && node in currentLayer.nodes.Values
      modifies this`layers, this`born, SubLayerOf(node)`visible, node`subLayer
      ensures Valid() && node.subLayer != null && node.subLayer.visible
      ensures old(node.subLayer) != null ==> node.subLayer == old(node.subLayer)
      ensures currentLayer.visible == old(currentLayer.visible)
    {
      if node.subLayer != null {
        Siblings(currentLayer, node);
      }
      EnsureSubLayer(node);
      SetVisible(node.subLayer, true);
    }

    /** `onKeyDown` with `key`: Delete or Backspace while something is hovered removes
        the hovered id from the current layer (a no-op for an id it does not hold) and
        clears `hoveredNode`; any other key changes nothing modelled here. */
    method OnKeyDown(key: string)
      requires Valid()
      modifies this`hoveredNode, currentLayer, currentLayer.nodes.Values`x, currentLayer.nodes.Values`z
      ensures Valid()
      ensures (key == "Delete" || key == "Backspace") && old(hoveredNode).Some? ==>
        var id := UserId(old(hoveredNode).value);
        hoveredNode == None &&
        (id in old(currentLayer.nodes) ==>
           currentLayer.nodes == old(currentLayer.nodes) - {id} && currentLayer.edges == Detach(old(currentLayer.edges), id)) &&
        (id !in old(currentLayer.nodes) ==>
           currentLayer.nodes == old(currentLayer.nodes) && currentLayer.edges == old(currentLayer.edges))
      ensures !((key == "Delete" || key == "Backspace") && old(hoveredNode).Some?) ==> unchanged(this, currentLayer)
    {
      if (key == "Delete" || key == "Backspace") && hoveredNode.Some? {
        Remove(UserId(hoveredNode.value));
        hoveredNode := None;
      }
    }

    /** `currentLayer.removeNode(id)`: a node of the current layer leaves it together
        with its edges; any other id changes nothing. */
    method Remove(id: Id)
      requires Valid()
      modifies currentLayer, currentLayer.nodes.Values`x, currentLayer.nodes.Values`z
      ensures Valid()
      ensures id in old(currentLayer.nodes) ==>
        currentLayer.nodes == old(currentLayer.nodes) - {id} && currentLayer.edges == Detach(old(currentLayer.edges), id)
      ensures id !in old(currentLayer.nodes) ==>
        currentLayer.nodes == old(currentLayer.nodes) && currentLayer.edges == old(currentLayer.edges)
    {
      assert Fine(currentLayer);
      currentLayer.RemoveNode(id);
      forall l | l in layers ensures Fine(l) {
        assert old(Fine(l));
        if l == currentLayer {
          forall k | k in l.nodes ensures Nested(l, l.nodes[k]) {
            assert old(Nested(l, l.nodes[k]));
          }
        }
      }
    }

    /** The node of the current layer a click on `pick` lands on, if any. */
    ghost function Picked(pick: Option<Obj>): Option<Node>
      reads this`currentLayer, currentLayer`nodes
    {
      if pick.Some? && Holder(pick.value).Some? && UserId(Holder(pick.value).value) in currentLayer.nodes
      then Some(currentLayer.nodes[UserId(Holder(pick.value).value)])
      else None
    }

    /** The edge a link click on `target` would add keeps the current layer acyclic. */
    ghost predicate LinkKeepsAcyclic(target: Option<Node>)
      reads this`currentLayer, this`linkSource, currentLayer`nodes, currentLayer`edges
    {
      target.Some? && linkSource != null && linkSource != target.value && linkSource.id in currentLayer.nodes ==>
        Acyclic(currentLayer.edges + [Edge(linkSource.id, target.value.id)])
    }

    /** `onClick` on `pick`, with `linkKey` for a held Ctrl or Meta key and `now` the
        clock reading. A click that lands on no node of the current layer changes
        nothing. With the key held, the link protocol runs; the edge it asks for is added
        when the source is a node of the current layer. Without it, the click dives into
        the node. */
    method OnClick(pick: Option<Obj>, linkKey: bool, now: real)
      requires Valid()
      requires linkKey ==> LinkKeepsAcyclic(Picked(pick))
      modifies this`linkSource, this`currentLayer, this`layerStack, this`layers, this`born,
        SubLayersOf(currentLayer)`visible, currentLayer, currentLayer.nodes.Values`x, currentLayer.nodes.Values`z,
        currentLayer.nodes.Values`subLayer, camera`flightCurve, camera`targetLookAt, camera`flightStartTime, camera`isFlying,
        camera`isTransitioning, camera`controlsEnabled
      ensures Valid()
      ensures old(Picked(pick)).None? ==> unchanged(this, camera) && unchanged(layers)
      ensures old(Picked(pick)).None? ==>
        linkSource == old(linkSource) && layerStack == old(layerStack) && currentLayer == old(currentLayer) &&
        currentLayer.nodes == old(currentLayer.nodes) && currentLayer.edges == old(currentLayer.edges)
      ensures old(Picked(pick)).Some? && linkKey ==>
        var step := LinkClick(old(linkSource), old(Picked(pick)).value);
        linkSource == step.source && layerStack == old(layerStack) && currentLayer == old(currentLayer) &&
        currentLayer.nodes == old(currentLayer.nodes) &&
        currentLayer.edges == if step.link.Some? && step.link.value.from in old(currentLayer.nodes)
                              then old(currentLayer.edges) + [step.link.value] else old(currentLayer.edges)
      ensures old(Picked(pick)).Some? && linkKey ==> unchanged(camera)
      ensures old(Picked(pick)).Some? && linkKey ==> forall l :: l in old(layers) ==> l.visible == old(l.visible)
      ensures old(Picked(pick)).Some? && !linkKey ==>
        linkSource == old(linkSource) && currentLayer == old(Picked(pick)).value.subLayer &&
        layerStack == old(layerStack) + [Saved(old(currentLayer), old(camera.position), old(camera.target))]
      ensures old(Picked(pick)).Some? && !linkKey && old(Picked(pick).value.subLayer) == null ==>
        Stocked(currentLayer, old(Picked(pick)).value, old(currentLayer))
      ensures old(Picked(pick)).Some? && !linkKey ==>
        !old(currentLayer).visible && currentLayer.visible &&
        (forall n :: n in old(currentLayer).nodes.Values && n != old(Picked(pick)).value && n.subLayer != null ==>
           !n.subLayer.visible) &&
        camera.isFlying && !camera.isTransitioning && !camera.controlsEnabled && camera.flightStartTime == now
      ensures old(Picked(pick)).Some? && !linkKey ==>
        var node := old(Picked(pick)).value;
        camera.flightCurve == Some(CameraJs.Flight(old(camera.position), Vec3(node.x, 0.0, node.z),
                                   Vec3(node.x, currentLayer.yOffset + OffsetUp, node.z + OffsetBack))) &&
        camera.targetLookAt == Some(Vec3(node.x, currentLayer.yOffset, node.z))
    {
      if pick.Some? {
        var target := Holder(pick.value);
        if target.Some? && UserId(target.value) in currentLayer.nodes {
          var node := currentLayer.nodes[UserId(target.value)];
          if linkKey {
            Link(node);
          } else {
            FocusNode(node, now);
          }
        }
      }
    }

    /** `currentLayer.addEdge(fromId, toId)`: the edge is appended when both ends are
        nodes of the current layer, and the nodes stay. */
    method Connect(fromId: Id, toId: Id)
      requires Valid()
      requires fromId in currentLayer.nodes && toId in currentLayer.nodes ==>
        Acyclic(currentLayer.edges + [Edge(fromId, toId)])
      modifies currentLayer, currentLayer.nodes.Values`x, currentLayer.nodes.Values`z
      ensures Valid() && currentLayer.nodes == old(currentLayer.nodes) && currentLayer.visible == old(currentLayer.visible)
      ensures currentLayer.edges ==
        if fromId in currentLayer.nodes && toId in currentLayer.nodes then old(currentLayer.edges) + [Edge(fromId, toId)]
        else old(currentLayer.edges)
    {
      assert Fine(currentLayer);
      AddEdgeTo(currentLayer, fromId, toId);
      forall l | l in layers ensures Fine(l) {
        assert old(Fine(l));
        if l == currentLayer {
          forall k | k in l.nodes ensures Nested(l, l.nodes[k]) {
            assert old(Nested(l, l.nodes[k]));
          }
        }
      }
    }

    /** The link branch of `onClick` on `node`, a node of the current layer. */
    method Link(node: Node)
      requires Valid() && node in currentLayer.nodes.Values && LinkKeepsAcyclic(Some(node))
      modifies this`linkSource, currentLayer, currentLayer.nodes.Values`x, currentLayer.nodes.Values`z
      ensures Valid() && currentLayer.visible == old(currentLayer.visible)
      ensures var step := LinkClick(old(linkSource), node);
        linkSource == step.source && currentLayer.nodes == old(currentLayer.nodes) &&
        currentLayer.edges == if step.link.Some? && step.link.value.from in old(currentLayer.nodes)
                              then old(currentLayer.edges) + [step.link.value] else old(currentLayer.edges)
    {
      if linkSource == node {
        linkSource := null;
      } else if linkSource != null {
        assert Fine(currentLayer);
        Connect(linkSource.id, node.id);
        linkSource := null;
      } else {
        linkSource := node;
      }
    }
  }
}

=== FILE: app_ts.dfy ===
/** The application object of the TypeScript prototype (`src/App.ts`): a current layer,
    a stack of the layers left by diving into a node together with the travel progress
    at that moment, the lazily built sub-layer of each node, the target opacity of each
    layer, the ctrl/meta-click link protocol, the wheel that scrubs the
    travel progress along the camera path, and the automatic return to the parent layer
    once the camera has been pulled far back. Picking is an input: a hit is the scene
    object under the pointer (`Obj`), a miss is `None`. The camera path a dive builds is
    a parameter (`CameraTs.Curve`). */
module AppTs {
  import opened Common
  import opened Ranking
  import opened SceneTs
  import opened Seeding
  import CameraTs

  /** What `focusNode` pushes: the layer being left and the travel progress then. */
  datatype Entry = Entry(layer: Layer, progress: real)

  /** The camera-to-target distance beyond which a frame goes back up a layer. */
  const ZoomOutDistance: real := 60.0
  /** How much of the travel progress one unit of wheel `deltaY` takes back. */
  const Sensitivity: real := 0.0005
  /** The eye `getCameraTargetForNode` proposes is this far behind the node ... */
  const OffsetBack: real := 20.0

  /** `Math.max(0, Math.min(1, v))`. */
  function Clamp01(v: real): (r: real)
    ensures 0.0 <= r <= 1.0
    ensures 0.0 <= v <= 1.0 ==> r == v
    ensures v <= 0.0 ==> r == 0.0
    ensures v >= 1.0 ==> r == 1.0
  {
    var low := if v < 1.0 then v else 1.0;
    if 0.0 < low then low else 0.0
  }

  /** The travel progress after a wheel event with `deltaY` (positive: scrolling down,
      back along the path). */
  function WheelProgress(progress: real, deltaY: real): (p: real)
    ensures 0.0 <= p <= 1.0
    ensures 0.0 <= progress <= 1.0 && deltaY > 0.0 ==> p <= progress
    ensures 0.0 <= progress <= 1.0 && deltaY < 0.0 ==> p >= progress
    ensures p == 0.0 <==> progress - deltaY * Sensitivity <= 0.0
  {
    Clamp01(progress - deltaY * Sensitivity)
  }

  /** `object.userData.id`: a node's mesh carries the node's id; any other object
      carries none, read here as the empty string. */
  function UserId(o: Obj): string {
    if o.meshOf != null then o.meshOf.id else ""
  }

  /** `a` is `o` itself or one of its ancestors. */
  ghost predicate OnPath(o: Obj, older a: Obj) {
    o == a || (o.parent.Some? && OnPath(o.parent.value, a))
  }

  /** The number of ancestors of `o`. */
  function Depth(o: Obj): nat {
    match o.parent
    case None => 0
    case Some(p) => 1 + Depth(p)
  }

  /** An ancestor has fewer ancestors than the object, unless it is the object. */
  lemma {:induction false} AncestorDepth(o: Obj, a: Obj)
    requires OnPath(o, a)
    ensures Depth(a) <= Depth(o) && (Depth(a) == Depth(o) ==> a == o)
  {
    if o != a {
      AncestorDepth(o.parent.value, a);
    }
  }

  /** No object is a proper ancestor of itself, through any chain of ancestors. */
  lemma OnlySelf(o: Obj)
    ensures forall a :: OnPath(o, a) && OnPath(a, o) ==> a == o
  {
    forall a | OnPath(o, a) && OnPath(a, o) ensures a == o {
      AncestorDepth(o, a);
      AncestorDepth(a, o);
    }
  }

  /** The walk `while (target && !target.userData.id) target = target.parent`: the
      nearest object, from `o` upwards, with a non-empty id; `None` when there is none. */
  function Holder(o: Obj): (r: Option<Obj>)
    ensures Truthy(UserId(o)) ==> r == Some(o)
    ensures r.Some? ==> Truthy(UserId(r.value)) && OnPath(o, r.value)
    ensures r.None? ==> forall a :: OnPath(o, a) ==> !Truthy(UserId(a))
    ensures r.Some? ==> forall a :: OnPath(o, a) && OnPath(a, r.value) && a != r.value ==> !Truthy(UserId(a))
  {
    if Truthy(UserId(o)) then OnlySelf(o); Some(o)
    else match o.parent
      case None => None
      case Some(p) => Holder(p)
  }

  /** The world position of the mesh of `node`, a node of `layer`: the layer's group
      sits at (parentX, yOffset, parentZ) and the mesh at (x, 0, z) inside it. */
  function WorldPos(layer: Layer, node: Node): Vec3
    reads node`x, node`z
  {
    Vec3(layer.parentX + node.x, layer.yOffset, layer.parentZ + node.z)
  }

  /** What `getCameraTargetForNode` proposes for a node at world position `world`: an
      eye 20 behind the node at its height, looking at the point 20 below the node. */
  datatype CameraTarget = CameraTarget(targetPos: Vec3, targetLookAt: Vec3)

  function CameraTargetForNode(world: Vec3): (r: CameraTarget)
    ensures r.targetPos == world.Add(Vec3(0.0, 0.0, OffsetBack))
    ensures r.targetLookAt == world.Sub(Vec3(0.0, LayerDrop, 0.0))
    ensures r.targetPos.Sub(r.targetLookAt) == Vec3(0.0, LayerDrop, OffsetBack)
  {
    var sublayerY := world.y - 20.0;
    CameraTarget(Vec3(world.x, sublayerY + 20.0, world.z + 20.0), Vec3(world.x, sublayerY, world.z))
  }

  /** The sub-layer `ensureSubLayer` builds for `node` of `parent`, as built: its
      contents below, hidden and fully transparent. */
  ghost predicate Seeded(sub: Layer, node: Node, parent: Layer)
    reads sub, sub.nodes.Values`x, sub.nodes.Values`z, node`x, node`z
  {
    Stocked(sub, node, parent) && !sub.visible && sub.opacity == 0.0 && sub.targetOpacity == 0.0
  }

  /** The contents of the sub-layer `ensureSubLayer` builds for `node` of `parent`,
      whatever its visibility and opacity: called `<id>_sub`, 20 below the parent,
      centred on the node's world position, holding the children `<id>_child_0..2`
      labelled Alpha, Beta and Gamma, joined by the edges 0 -> 1 and 1 -> 2, and laid
      out. */
  ghost predicate Stocked(sub: Layer, node: Node, parent: Layer)
    reads sub`order, sub`nodes, sub`edges, sub.nodes.Values`x, sub.nodes.Values`z, node`x, node`z
  {
    var world := WorldPos(parent, node);
    sub.id == SubId(node.id) && sub.yOffset == parent.yOffset - LayerDrop &&
    sub.parentX == world.x && sub.parentZ == world.z &&
    Populated(sub, node.id) &&
    sub.edges == [Edge(ChildId(node.id, 0), ChildId(node.id, 1)), Edge(ChildId(node.id, 1), ChildId(node.id, 2))] &&
    sub.Valid() && sub.LaidOut()
  }

  /** The layer holds exactly the three children of node `id`, in order, labelled
      Alpha, Beta and Gamma. */
  ghost predicate Populated(sub: Layer, id: Id)
    reads sub`order, sub`nodes
  {
    sub.order == Children(id) && (forall j :: 0 <= j < 3 ==> Children(id)[j] in sub.nodes) &&
    (forall j :: 0 <= j < 3 ==> sub.nodes[Children(id)[j]].title == ChildLabels[j])
  }

  /** No node of the layer has a sub-layer yet. */
  ghost predicate Bare(sub: Layer)
    reads sub`nodes, sub.nodes.Values`subLayer
  {
    forall k :: k in sub.nodes ==> sub.nodes[k].subLayer == null
  }

  /** The camera target of a node is tied to its sub-layer as built: the look-at point is
      the sub-layer's origin, and the eye is 20 above and 20 behind it. */
  lemma TargetsSubLayer(sub: Layer, node: Node, parent: Layer)
    requires Stocked(sub, node, parent)
    ensures CameraTargetForNode(WorldPos(parent, node)).targetLookAt == Vec3(sub.parentX, sub.yOffset, sub.parentZ)
    ensures CameraTargetForNode(WorldPos(parent, node)).targetPos ==
            Vec3(sub.parentX, sub.yOffset + LayerDrop, sub.parentZ + OffsetBack)
  {
  }

  /** Every node of a valid layer is listed in its insertion order. */
  lemma Listed(layer: Layer, n: Node)
    requires layer.Valid() && n in layer.nodes.Values
    ensures exists j :: 0 <= j < |layer.order| && layer.nodes[layer.order[j]] == n
  {
    var k :| k in layer.nodes && layer.nodes[k] == n;
    var j :| 0 <= j < |layer.order| && layer.order[j] == k;
  }

  /** What a ctrl/meta click leaves: the new link source and the edge it adds, if any. */
  datatype LinkStep = LinkStep(source: Node?, link: Option<Edge<Id>>)

  /** The link protocol of a ctrl/meta click on `clicked` with `source` selected:
      clicking the source again deselects it, clicking another node links the source
      to it and clears the selection, and with nothing selected the click selects.
      It is the same protocol as `AppJs.LinkClick`, stated again on purpose over this
      prototype's own node type: src/App.ts:230-238 is the JavaScript branch without
      its faulty log line. */
  function LinkClick(source: Node?, clicked: Node): (r: LinkStep)
    ensures r.link.Some? <==> source != null && source != clicked
    ensures r.link.Some? ==> r.link.value == Edge(source.id, clicked.id)
    ensures r.source == null || (source == null && r.source == clicked)
  {
    if source == clicked then LinkStep(null, None)
    else if source != null then LinkStep(null, Some(Edge(source.id, clicked.id)))
    else LinkStep(clicked, None)
  }

  /** Two clicks on one node select and deselect it; clicks on `a` and then on a
      different `b` link `a` to `b`; either way nothing is selected afterwards. */
  lemma LinkSequences(a: Node, b: Node)
    ensures LinkClick(LinkClick(null, a).source, a) == LinkStep(null, None)
    ensures a != b ==> LinkClick(LinkClick(null, a).source, b) == LinkStep(null, Some(Edge(a.id, b.id)))
  {
  }

  /** The body of `ensureSubLayer` for a node of `parent` without a sub-layer: a new
      layer under the node, seeded with three children in a chain. */
  method NewSubLayer(node: Node, parent: Layer) returns (sub: Layer)
    ensures fresh(sub) && Seeded(sub, node, parent) && Bare(sub)
    ensures forall k :: k in sub.nodes ==> fresh(sub.nodes[k])
  {
    var world := WorldPos(parent, node);
    sub := new Layer(SubId(node.id), parent.yOffset - 20.0, world.x, world.z);
    SubIdIsNotRoot(node.id);
    Populate(sub, node.id);
    var ids := Children(node.id);
    ChildIdsDistinct(node.id);
    Chain(sub, ids[0], ids[1], ids[2]);
  }

  /** The `forEach` of `ensureSubLayer`: adds the three children of node `id` to an
      empty layer. */
  method Populate(sub: Layer, id: Id)
    requires sub.Valid() && sub.order == [] && sub.edges == []
    modifies sub
    ensures sub.Valid() && sub.edges == [] && Populated(sub, id) && Bare(sub)
    ensures sub.visible == old(sub.visible) && sub.opacity == old(sub.opacity) && sub.targetOpacity == old(sub.targetOpacity)
    ensures forall k :: k in sub.nodes ==> fresh(sub.nodes[k])
  {
    var ids := Children(id);
    ChildIdsDistinct(id);
    for i := 0 to 3
      invariant sub.Valid() && sub.edges == [] && sub.order == ids[..i]
      invariant sub.visible == old(sub.visible) && sub.opacity == old(sub.opacity) && sub.targetOpacity == old(sub.targetOpacity)
      invariant forall k :: k in sub.nodes ==> fresh(sub.nodes[k]) && sub.nodes[k].subLayer == null
      invariant forall j :: 0 <= j < i ==> sub.nodes[ids[j]].title == ChildLabels[j]
    {
      AddChild(sub, id, i);
    }
    assert sub.order == ids;
  }

  /** One round of that `forEach`: child `i` of node `id`, labelled after its index and
      placed at (3i, 0), joins a layer holding the children before it. */
  method AddChild(sub: Layer, id: Id, i: nat)
    requires i < 3 && sub.Valid() && sub.order == Children(id)[..i]
    modifies sub, sub.nodes.Values`x, sub.nodes.Values`z
    ensures sub.Valid() && sub.order == Children(id)[..i + 1] && sub.edges == old(sub.edges)
    ensures sub.visible == old(sub.visible) && sub.opacity == old(sub.opacity) && sub.targetOpacity == old(sub.targetOpacity)
    ensures var n := sub.nodes[Children(id)[i]];
      fresh(n) && n.title == ChildLabels[i] && n.subLayer == null && sub.nodes == old(sub.nodes)[Children(id)[i] := n]
  {
    var ids := Children(id);
    ChildIdsDistinct(id);
    assert ids[i] !in sub.nodes;
    sub.AddNode(ids[i], ChildLabels[i], i as real * 3.0, 0.0);
    assert ids[..i + 1] == ids[..i] + [ids[i]];
  }

  /** The two `addEdge` calls of `ensureSubLayer`: links `a -> b -> c` in a layer
      holding those three nodes and no edge. */
  method Chain(layer: Layer, a: Id, b: Id, c: Id)
    requires layer.Valid() && layer.edges == [] && a in layer.nodes && b in layer.nodes && c in layer.nodes
    requires a != b && b != c && a != c
    modifies layer, layer.nodes.Values`x, layer.nodes.Values`z
    ensures layer.Valid() && layer.LaidOut() && layer.edges == [Edge(a, b), Edge(b, c)]
    ensures layer.nodes == old(layer.nodes) && layer.order == old(layer.order)
    ensures layer.visible == old(layer.visible) && layer.opacity == old(layer.opacity)
    ensures layer.targetOpacity == old(layer.targetOpacity)
  {
    ChainIsAcyclic(a, b, c);
    assert layer.edges + [Edge(a, b)] == [Edge(a, b)];
    AddEdgeTo(layer, a, b);
    assert layer.edges + [Edge(b, c)] == [Edge(a, b), Edge(b, c)];
    layer.AddEdge(b, c);
  }

  /** `layer.addEdge(fromId, toId)`, seen from the application: the edge is appended
      when both ends are nodes of the layer, and the nodes and fade state stay. */
  method AddEdgeTo(layer: Layer, fromId: Id, toId: Id)
    requires layer.Valid()
    requires fromId in layer.nodes && toId in layer.nodes ==> Acyclic(layer.edges + [Edge(fromId, toId)])
    modifies layer, layer.nodes.Values`x, layer.nodes.Values`z
    ensures layer.Valid() && layer.nodes == old(layer.nodes) && layer.order == old(layer.order)
    ensures layer.visible == old(layer.visible) && layer.opacity == old(layer.opacity)
    ensures layer.targetOpacity == old(layer.targetOpacity)
    ensures layer.edges == if fromId in layer.nodes && toId in layer.nodes then old(layer.edges) + [Edge(fromId, toId)]
                           else old(layer.edges)
  {
    layer.AddEdge(fromId, toId);
  }

  /** `layer.targetOpacity = v`. */
  method SetTarget(layer: Layer, v: real)
    modifies layer`targetOpacity
    ensures layer.targetOpacity == v
  {
    layer.targetOpacity := v;
  }

  /** `layer.group.visible = true`. */
  method Show(layer: Layer)
    modifies layer`visible
    ensures layer.visible
  {
    layer.visible := true;
  }

  /** The sub-layers of the nodes of `layer`. */
  ghost function SubLayersOf(layer: Layer): set<Layer>
    reads layer`nodes, layer.nodes.Values`subLayer
  {
    set k | k in layer.nodes && layer.nodes[k].subLayer != null :: layer.nodes[k].subLayer
  }

  /** The sub-layer of `n`, if it has one, as a set. */
  ghost function SubLayerOf(n: Node): set<Layer>
    reads n`subLayer
  {
    if n.subLayer == null then {} else {n.subLayer}
  }

  /** The sub-layer of `n`, unless `n` is `except`, has target opacity 0. */
  ghost predicate Faded(except: Node, n: Node)
    reads n, n.subLayer
  {
    n != except && n.subLayer != null ==> n.subLayer.targetOpacity == 0.0
  }

  /** The `forEach` of `focusNode` over the nodes of `layer` that sets the opacity
      target of the sub-layer of every node but `except` to 0. */
  method FadeSubLayers(layer: Layer, except: Node)
    requires layer.Valid()
    modifies SubLayersOf(layer)`targetOpacity
    ensures forall n :: n in layer.nodes.Values ==> Faded(except, n)
  {
    var i := 0;
    while i < |layer.order|
      invariant 0 <= i <= |layer.order|
      invariant forall j :: 0 <= j < i ==> Faded(except, layer.nodes[layer.order[j]])
    {
      var n := layer.nodes[layer.order[i]];
      if n.subLayer != null && n != except {
        n.subLayer.targetOpacity := 0.0;
      }
      i := i + 1;
    }
    forall n | n in layer.nodes.Values ensures Faded(except, n) {
      Listed(layer, n);
    }
  }

  class App {
    const rootLayer: Layer
    var currentLayer: Layer
    var layerStack: seq<Entry>
    const camera: CameraTs.CameraManager
    /** How far along the camera path the wheel has taken the view, in [0, 1]. */
    var travelProgress: real
    var linkSource: Node?
    /** The layers created so far, with the order they were created in (a sub-layer
        is created after the layer holding its node). */
    ghost var layers: set<Layer>
    ghost var born: map<Layer, nat>

    /** The root, the current layer and every left layer are known. */
    ghost predicate Anchored()
      reads this`layers, this`currentLayer, this`layerStack
    {
      rootLayer in layers && currentLayer in layers && forall s :: s in layerStack ==> s.layer in layers
    }

    /** The travel progress, and every saved one, lies in [0, 1]. */
    ghost predicate InRange()
      reads this`travelProgress, this`layerStack
    {
      0.0 <= travelProgress <= 1.0 && forall s :: s in layerStack ==> 0.0 <= s.progress <= 1.0
    }

    /** The sub-layer of node `n` of layer `l`, if any, is a known layer created after
        `l`, named after `n`. */
    ghost predicate Nested(l: Layer, n: Node)
      reads this`born, n`subLayer
      requires l in born
    {
      n.subLayer == null || (n.subLayer in born && born[n.subLayer] > born[l] && n.subLayer.id == SubId(n.id))
    }

    /** A known layer is valid, and the sub-layers of its nodes nest below it. */
    ghost predicate Fine(l: Layer)
      reads this`born, l`order, l`nodes, l`edges, l.nodes.Values`subLayer
    {
      l in born && born[l] < |born| && l.Valid() && forall k :: k in l.nodes ==> Nested(l, l.nodes[k])
    }

    /** The nodes of every known layer. */
    ghost function Nodes(): set<Node>
      reads this`layers, layers`nodes
    {
      set l, k | l in layers && k in l.nodes :: l.nodes[k]
    }

    ghost predicate Valid()
      reads this`layers, this`born, this`currentLayer, this`layerStack, this`travelProgress,
        layers`order, layers`nodes, layers`edges, Nodes()`subLayer
    {
      born.Keys == layers && (forall l {:trigger Fine(l)} :: l in layers ==> Fine(l)) && Anchored() && InRange()
    }

    /** Two nodes of a known layer never share a sub-layer, and a sub-layer is never
        the layer of its node. */
    lemma Separate(l: Layer, m: Node, n: Node)
      requires Valid() && l in layers && m in l.nodes.Values && n in l.nodes.Values
      requires m.subLayer != null
      ensures m != n ==> n.subLayer != m.subLayer
      ensures m.subLayer != l
    {
      var j :| j in l.nodes && l.nodes[j] == m;
      var k :| k in l.nodes && l.nodes[k] == n;
      assert Fine(l);
      assert Nested(l, m) && Nested(l, n);
      SubIdInjective(m.id, n.id);
    }

    /** The application at start-up: the root layer, visible and fully opaque, is
        current, the stack is empty, the travel progress is 0 and nothing is selected;
        the camera sits at the origin with ride mode off. */
    constructor()
      ensures Valid() && fresh(rootLayer) && fresh(camera)
      ensures currentLayer == rootLayer && layerStack == [] && rootLayer.id == "root"
      ensures rootLayer.visible && rootLayer.targetOpacity == 1.0
      ensures rootLayer.nodes == map[] && rootLayer.edges == [] && rootLayer.yOffset == 0.0
      ensures travelProgress == 0.0 && linkSource == null
      ensures !camera.isRideMode && camera.rideProgress == 0.0 && camera.activePath.None?
    {
      rootLayer := new Layer("root", 0.0, 0.0, 0.0);
      currentLayer := rootLayer;
      layerStack := [];
      camera := new CameraTs.CameraManager(Vec3(0.0, 0.0, 0.0));
      travelProgress := 0.0;
      linkSource := null;
      layers := {rootLayer};
      born := map[rootLayer := 0];
      new;
      assert Fine(rootLayer);
    }

    /** Allocating and filling fresh objects keeps the application valid. */
    twostate lemma StillValid()
      requires old(Valid()) && unchanged(this) && unchanged(layers) && unchanged(Nodes())
      ensures Valid()
    {
    }

    /** Records the new layer `sub`, whose nodes have no sub-layers, as the newest
        known layer. */
    ghost method Register(sub: Layer)
      requires Valid() && sub !in layers && sub.Valid()
      requires Bare(sub)
      modifies this`layers, this`born
      ensures Valid() && layers == old(layers) + {sub}
      ensures forall l :: l in layers && l != sub ==> born[l] < born[sub]
    {
      ghost var n := |born|;
      assert sub !in born;
      born := born[sub := n];
      layers := layers + {sub};
      assert |born| == n + 1;
      forall l | l in layers ensures Fine(l) && (l != sub ==> born[l] < born[sub]) {
        if l != sub {
          assert old(Fine(l));
          forall k | k in l.nodes ensures Nested(l, l.nodes[k]) {
            assert old(Nested(l, l.nodes[k]));
          }
        }
      }
      assert Anchored() && InRange();
    }

    /** `node.subLayer = sub` for a node without a sub-layer and the newest known
        layer `sub`, which does not hold `node`. */
    method Attach(node: Node, sub: Layer)
      requires Valid() && node.subLayer == null && sub in layers && sub.id == SubId(node.id)
      requires forall l :: l in layers && l != sub ==> born[l] < born[sub]
      requires forall k :: k in sub.nodes ==> sub.nodes[k] != node
      modifies node`subLayer
      ensures Valid() && node.subLayer == sub
    {
      node.subLayer := sub;
      forall l | l in layers ensures Fine(l) {
        assert old(Fine(l));
        forall k | k in l.nodes ensures Nested(l, l.nodes[k]) {
          assert old(Nested(l, l.nodes[k]));
        }
      }
    }

    /** `ensureSubLayer(node)` for a node of the current layer: a node that has a
        sub-layer keeps it and nothing changes; otherwise it gets a new, seeded one. */
    method EnsureSubLayer(node: Node)
      requires Valid() && node in currentLayer.nodes.Values
      modifies this`layers, this`born, node`subLayer
      ensures Valid() && node.subLayer != null && node.subLayer in layers
      ensures old(node.subLayer) != null ==> node.subLayer == old(node.subLayer) && layers == old(layers)
      ensures old(node.subLayer) == null ==>
        fresh(node.subLayer) && layers == old(layers) + {node.subLayer} && Seeded(node.subLayer, node, currentLayer)
      ensures forall s :: s in SubLayersOf(currentLayer) ==> s in old(SubLayersOf(currentLayer)) || fresh(s)
    {
      if node.subLayer == null {
        BuildSubLayer(node);
      } else {
        Owned(currentLayer, node);
      }
      forall s | s in SubLayersOf(currentLayer) ensures s in old(SubLayersOf(currentLayer)) || fresh(s) {
        var k :| k in currentLayer.nodes && currentLayer.nodes[k].subLayer == s;
        assert currentLayer.nodes[k] == node || currentLayer.nodes[k].subLayer == old(currentLayer.nodes[k].subLayer);
      }
    }

    /** The branch of `ensureSubLayer` for a node without a sub-layer: a new, seeded
        layer is made, recorded as the newest known layer and attached to the node. */
    method BuildSubLayer(node: Node)
      requires Valid() && node in currentLayer.nodes.Values && node.subLayer == null
      modifies this`layers, this`born, node`subLayer
      ensures Valid() && fresh(node.subLayer) && layers == old(layers) + {node.subLayer}
      ensures Seeded(node.subLayer, node, currentLayer)
    {
      var sub := NewKnownSubLayer(node);
      Attach(node, sub);
    }

    /** The new layer of `BuildSubLayer`, seeded and recorded as the newest known layer
        but not yet attached to `node`. */
    method NewKnownSubLayer(node: Node) returns (sub: Layer)
      requires Valid() && node in currentLayer.nodes.Values && node.subLayer == null
      modifies this`layers, this`born
      ensures Valid() && fresh(sub) && layers == old(layers) + {sub} && Seeded(sub, node, currentLayer)
      ensures forall l :: l in layers && l != sub ==> born[l] < born[sub]
      ensures forall k :: k in sub.nodes ==> sub.nodes[k] != node
    {
      sub := NewSubLayer(node, currentLayer);
      StillValid();
      ghost var seeded := Seeded(sub, node, currentLayer);
      Register(sub);
      assert seeded == Seeded(sub, node, currentLayer);
    }

    /** The sub-layer of a node of a known layer is known. */
    lemma Owned(l: Layer, node: Node)
      requires Valid() && l in layers && node in l.nodes.Values
      ensures node.subLayer != null ==> node.subLayer in layers
    {
      var k :| k in l.nodes && l.nodes[k] == node;
      assert Fine(l);
      assert Nested(l, node);
    }

    /** Below a known layer, the sub-layer of `node` is neither that layer nor the
        sub-layer of any other of its nodes. */
    lemma Siblings(l: Layer, node: Node)
      requires Valid() && l in layers && node in l.nodes.Values && node.subLayer != null
      ensures node.subLayer != l
      ensures forall n :: n in l.nodes.Values && n != node && n.subLayer != null ==>
        n.subLayer != l && n.subLayer != node.subLayer
    {
      Separate(l, node, node);
      forall n | n in l.nodes.Values && n != node && n.subLayer != null
        ensures n.subLayer != l && n.subLayer != node.subLayer
      {
        Separate(l, n, node);
      }
    }

    /** `focusNode(node)` for a node of the current layer, with `curve` the camera path
        the dive builds: the node's sub-layer (built if missing) gets target opacity 1, is
        shown and becomes current; the sub-layers of the other nodes get target opacity 0,
        while the layer left
        keeps its own target and stays shown; the layer left and the travel progress are
        pushed, and the camera is put on the path in ride mode. */
    method FocusNode(node: Node, curve: CameraTs.Curve)
      requires Valid() && node in currentLayer.nodes.Values
      modifies this`currentLayer, this`layerStack, this`layers, this`born,
        SubLayersOf(currentLayer)`targetOpacity, SubLayerOf(node)`visible, node`subLayer, camera`activePath, camera`isRideMode
      ensures Valid() && linkSource == old(linkSource) && travelProgress == old(travelProgress)
      ensures node.subLayer != null && currentLayer == node.subLayer
      ensures old(node.subLayer) != null ==> node.subLayer == old(node.subLayer) && layers == old(layers)
      ensures old(node.subLayer) == null ==> fresh(node.subLayer) && layers == old(layers) + {node.subLayer}
      ensures old(node.subLayer) == null ==> Stocked(currentLayer, node, old(currentLayer)) && currentLayer.opacity == 0.0
      ensures layerStack == old(layerStack) + [Entry(old(currentLayer), old(travelProgress))]
      ensures currentLayer.targetOpacity == 1.0 && currentLayer.visible
      ensures old(currentLayer).targetOpacity == old(currentLayer.targetOpacity)
      ensures old(currentLayer).visible == old(currentLayer.visible)
      ensures forall n :: n in old(currentLayer).nodes.Values && n != node && n.subLayer != null ==>
        n.subLayer.targetOpacity == 0.0
      ensures camera.activePath == Some(curve) && camera.isRideMode
    {
      EnsureSubLayer(node);
      ghost var link := linkSource;
      Descend(node, curve);
      assert linkSource == link;
    }

    /** The rest of `focusNode`, once `node` has a sub-layer. */
    method Descend(node: Node, curve: CameraTs.Curve)
      requires Valid() && node in currentLayer.nodes.Values && node.subLayer != null && node.subLayer in layers
      modifies this`currentLayer, this`layerStack, SubLayersOf(currentLayer)`targetOpacity, SubLayerOf(node)`visible,
        camera`activePath, camera`isRideMode
      ensures Valid() && currentLayer == node.subLayer
      ensures Stocked(currentLayer, node, old(currentLayer)) == old(Stocked(node.subLayer, node, currentLayer))
      ensures currentLayer.opacity == old(node.subLayer.opacity)
      ensures layerStack == old(layerStack) + [Entry(old(currentLayer), old(travelProgress))]
      ensures currentLayer.targetOpacity == 1.0 && currentLayer.visible
      ensures old(currentLayer).targetOpacity == old(currentLayer.targetOpacity)
      ensures old(currentLayer).visible == old(currentLayer.visible)
      ensures forall n :: n in old(currentLayer).nodes.Values && n != node && n.subLayer != null ==>
        n.subLayer.targetOpacity == 0.0
      ensures camera.activePath == Some(curve) && camera.isRideMode
    {
      ghost var sub, parent := node.subLayer, currentLayer;
      ghost var stocked := Stocked(sub, node, parent);
      Reveal(node);
      assert Stocked(sub, node, parent) == stocked;
      Enter(node, curve);
      assert Stocked(sub, node, parent) == stocked;
    }

    /** The opacity changes of `focusNode`: the sub-layers of the other nodes of the
        current layer get target opacity 0, the current layer itself is left alone, and
        the sub-layer of `node` gets target opacity 1 and is shown. */
    method Reveal(node: Node)
      requires Valid() && node in currentLayer.nodes.Values && node.subLayer != null
      modifies SubLayersOf(currentLayer)`targetOpacity, SubLayerOf(node)`visible
      ensures Valid()
      ensures node.subLayer.targetOpacity == 1.0 && node.subLayer.visible
      ensures currentLayer.targetOpacity == old(currentLayer.targetOpacity)
      ensures currentLayer.visible == old(currentLayer.visible)
      ensures forall n :: n in currentLayer.nodes.Values && n != node && n.subLayer != null ==>
        n.subLayer.targetOpacity == 0.0
    {
      Siblings(currentLayer, node);
      Owned(currentLayer, node);
      assert node.subLayer in SubLayersOf(currentLayer) by {
        var k :| k in currentLayer.nodes && currentLayer.nodes[k] == node;
      }
      FadeOthers(node);
      Light(node.subLayer);
    }

    /** The `forEach` of `focusNode` on the current layer, seen from the application. */
    method FadeOthers(node: Node)
      requires Valid()
      modifies SubLayersOf(currentLayer)`targetOpacity
      ensures Valid()
      ensures forall n :: n in currentLayer.nodes.Values ==> Faded(node, n)
      ensures currentLayer.targetOpacity == old(currentLayer.targetOpacity)
    {
      assert Fine(currentLayer);
      SubLayersKnown(currentLayer);
      FadeSubLayers(currentLayer, node);
    }

    /** `sub.targetOpacity = 1; sub.group.visible = true` for a known layer. */
    method Light(sub: Layer)
      requires Valid() && sub in layers
      modifies sub`targetOpacity, sub`visible
      ensures Valid() && sub.targetOpacity == 1.0 && sub.visible
    {
      SetTarget(sub, 1.0);
      Show(sub);
    }

    /** The sub-layers of the nodes of a known layer are known. */
    lemma SubLayersKnown(l: Layer)
      requires Valid() && l in layers
      ensures SubLayersOf(l) <= layers && l !in SubLayersOf(l)
    {
      forall s | s in SubLayersOf(l) ensures s in layers && s != l {
        var k :| k in l.nodes && l.nodes[k].subLayer == s;
        assert Fine(l);
        assert Nested(l, l.nodes[k]);
      }
    }

    /** The camera and stack changes of `focusNode`: the camera rides the new path, the
        current layer and travel progress are pushed and the sub-layer becomes current. */
    method Enter(node: Node, curve: CameraTs.Curve)
      requires Valid() && node.subLayer != null && node.subLayer in layers
      modifies this`currentLayer, this`layerStack, camera`activePath, camera`isRideMode
      ensures Valid() && currentLayer == node.subLayer
      ensures layerStack == old(layerStack) + [Entry(old(currentLayer), old(travelProgress))]
      ensures camera.activePath == Some(curve) && camera.isRideMode
    {
      camera.SetPath(curve);
      layerStack := layerStack + [Entry(currentLayer, travelProgress)];
      currentLayer := node.subLayer;
    }

    /** `navigateUp()`: with an empty stack nothing changes; otherwise the current layer
        gets target opacity 0, the top entry is popped, its layer becomes current, gets
        target opacity 1 and is shown, and the travel and ride progress go back to the saved value. */
    method NavigateUp()
      requires Valid()
      modifies this`layerStack, this`currentLayer, this`travelProgress, currentLayer`targetOpacity,
        Returning()`targetOpacity, Returning()`visible, camera`rideProgress
      ensures Valid()
      ensures old(layerStack) == [] ==> unchanged(this, camera) && unchanged(layers)
      ensures old(layerStack) != [] ==>
        var top := old(layerStack)[|old(layerStack)| - 1];
        layerStack == old(layerStack)[..|old(layerStack)| - 1] && currentLayer == top.layer &&
        currentLayer.targetOpacity == 1.0 && currentLayer.visible &&
        (old(currentLayer) != top.layer ==> old(currentLayer).targetOpacity == 0.0) &&
        travelProgress == top.progress && camera.rideProgress == top.progress
    {
      if |layerStack| == 0 {
        return;
      }
      var prev := layerStack[|layerStack| - 1];
      SetTarget(currentLayer, 0.0);
      SetTarget(prev.layer, 1.0);
      Show(prev.layer);
      Restore();
    }

    /** The stack and progress changes of `navigateUp()`: the top entry is popped, its
        layer becomes current and its progress is restored for the wheel and the ride. */
    method Restore()
      requires Valid() && layerStack != []
      modifies this`layerStack, this`currentLayer, this`travelProgress, camera`rideProgress
      ensures Valid()
      ensures var top := old(layerStack)[|old(layerStack)| - 1];
        layerStack == old(layerStack)[..|old(layerStack)| - 1] && currentLayer == top.layer &&
        travelProgress == top.progress && camera.rideProgress == top.progress
    {
      var prev := layerStack[|layerStack| - 1];
      assert prev in layerStack;
      layerStack := layerStack[..|layerStack| - 1];
      currentLayer := prev.layer;
      travelProgress := prev.progress;
      camera.rideProgress := travelProgress;
    }

    /** The layer `navigateUp()` returns to: that of the top entry of the stack, if any. */
    ghost function Returning(): set<Layer>
      reads this`layerStack
    {
      if layerStack == [] then {} else {layerStack[|layerStack| - 1].layer}
    }

    /** Diving into a node and coming back up restores the current layer, sets its
        target opacity back to 1 and leaves the stack and the travel progress as they were. */
    method FocusThenNavigateUp(node: Node, curve: CameraTs.Curve)
      requires Valid() && node in currentLayer.nodes.Values
      modifies this`currentLayer, this`layerStack, this`travelProgress, this`layers, this`born,
        SubLayersOf(currentLayer)`targetOpacity, SubLayerOf(node)`visible, currentLayer`targetOpacity,
        currentLayer`visible, node`subLayer, camera
      ensures Valid() && currentLayer == old(currentLayer) && layerStack == old(layerStack)
      ensures travelProgress == old(travelProgress) && camera.rideProgress == old(travelProgress)
      ensures currentLayer.targetOpacity == 1.0 && currentLayer.visible
    {
      FocusNode(node, curve);
      NavigateUp();
    }

    /** `onMouseWheel` with `deltaY`: the travel progress moves against `deltaY` and is
        clamped to [0, 1], the ride follows it in ride mode, and a scroll down that
        leaves the progress at 0 with a non-empty stack goes up one layer. */
    method OnMouseWheel(deltaY: real)
      requires Valid()
      modifies this`layerStack, this`currentLayer, this`travelProgress, currentLayer`targetOpacity,
        Returning()`targetOpacity, Returning()`visible, camera`rideProgress
      ensures Valid() && 0.0 <= travelProgress <= 1.0
      ensures var p := WheelProgress(old(travelProgress), deltaY);
        if p == 0.0 && deltaY > 0.0 && old(layerStack) != [] then
          var top := old(layerStack)[|old(layerStack)| - 1];
          layerStack == old(layerStack)[..|old(layerStack)| - 1] && currentLayer == top.layer &&
          travelProgress == top.progress && camera.rideProgress == top.progress &&
          currentLayer.targetOpacity == 1.0 && currentLayer.visible &&
          (old(currentLayer) != top.layer ==> old(currentLayer).targetOpacity == 0.0)
        else
          layerStack == old(layerStack) && currentLayer == old(currentLayer) && travelProgress == p &&
          camera.rideProgress == (if old(camera.isRideMode) then p else old(camera.rideProgress)) &&
          unchanged(layers)
    {
      Scrub(deltaY);
      if travelProgress == 0.0 && deltaY > 0.0 && |layerStack| > 0 {
        NavigateUp();
      }
    }

    /** The first half of `onMouseWheel`: the new, clamped travel progress, copied to the
        ride in ride mode. */
    method Scrub(deltaY: real)
      requires Valid()
      modifies this`travelProgress, camera`rideProgress
      ensures Valid() && travelProgress == WheelProgress(old(travelProgress), deltaY)
      ensures camera.rideProgress == (if camera.isRideMode then travelProgress else old(camera.rideProgress))
    {
      travelProgress := WheelProgress(travelProgress, deltaY);
      if camera.isRideMode {
        camera.rideProgress := travelProgress;
      }
    }

    /** The zoom-out check of a frame: with a non-empty stack and the camera more than
        60 from its target, go up one layer. Unlike the JavaScript prototype there is no
        guard for a camera move under way. */
    method AutoZoomOut() returns (navigated: bool)
      requires Valid()
      modifies this`layerStack, this`currentLayer, this`travelProgress, currentLayer`targetOpacity,
        Returning()`targetOpacity, Returning()`visible, camera`rideProgress
      ensures Valid()
      ensures navigated == (old(layerStack) != [] &&
                            DistSq(old(camera.position), old(camera.target)) > ZoomOutDistance * ZoomOutDistance)
      ensures navigated ==>
        var top := old(layerStack)[|old(layerStack)| - 1];
        layerStack == old(layerStack)[..|old(layerStack)| - 1] && currentLayer == top.layer &&
        currentLayer.targetOpacity == 1.0 && currentLayer.visible &&
        (old(currentLayer) != top.layer ==> old(currentLayer).targetOpacity == 0.0) &&
        travelProgress == top.progress && camera.rideProgress == top.progress
      ensures !navigated ==> unchanged(this, camera) && unchanged(layers)
    {
      navigated := false;
      if |layerStack| > 0 {
        if DistSq(camera.position, camera.target) > ZoomOutDistance * ZoomOutDistance {
          NavigateUp();
          navigated := true;
        }
      }
    }

    /** One frame: the camera moves along its ride, then the zoom-out check runs on the
        moved camera. In ride mode with a path the eye ends the frame half a unit above
        the path's point at the ride progress; otherwise the eye and look-at point stay.
        The frame goes up one layer exactly when the stack is not empty and the moved eye
        is more than 60 from the moved look-at point. */
    method Animate() returns (navigated: bool)
      requires Valid()
      modifies this`layerStack, this`currentLayer, this`travelProgress, currentLayer`targetOpacity,
        Returning()`targetOpacity, Returning()`visible, camera`rideProgress, camera`position, camera`target
      ensures Valid()
      ensures old(camera.isRideMode) && old(camera.activePath).Some? ==>
        camera.position == old(camera.activePath).value.pointAt(old(camera.rideProgress)).Add(Vec3(0.0, CameraTs.EyeHeight, 0.0))
      ensures old(camera.isRideMode) && old(camera.activePath).Some? && old(camera.rideProgress) < 1.0 ==>
        camera.target == old(camera.activePath).value.pointAt(CameraTs.Lookahead(old(camera.rideProgress)))
      ensures old(camera.isRideMode) && old(camera.activePath).Some? && old(camera.rideProgress) >= 1.0 ==>
        var path := old(camera.activePath).value;
        camera.target == path.pointAt(old(camera.rideProgress)).Add(
          if path.tangentAt.Some? then path.tangentAt.value(old(camera.rideProgress)) else Vec3(1.0, 0.0, 0.0))
      ensures !(old(camera.isRideMode) && old(camera.activePath).Some?) ==>
        camera.position == old(camera.position) && camera.target == old(camera.target)
      ensures navigated == (old(layerStack) != [] && DistSq(camera.position, camera.target) > ZoomOutDistance * ZoomOutDistance)
      ensures navigated ==>
        var top := old(layerStack)[|old(layerStack)| - 1];
        layerStack == old(layerStack)[..|old(layerStack)| - 1] && currentLayer == top.layer &&
        currentLayer.targetOpacity == 1.0 && currentLayer.visible &&
        travelProgress == top.progress && camera.rideProgress == top.progress
      ensures !navigated ==> layerStack == old(layerStack) && currentLayer == old(currentLayer) && unchanged(layers)
    {
      camera.Update();
      navigated := AutoZoomOut();
    }

    /** The node of the current layer a click on `pick` lands on, if any. */
    ghost function Picked(pick: Option<Obj>): Option<Node>
      reads this`currentLayer, currentLayer`nodes
    {
      if pick.Some? && Holder(pick.value).Some? && UserId(Holder(pick.value).value) in currentLayer.nodes
      then Some(currentLayer.nodes[UserId(Holder(pick.value).value)])
      else None
    }

    /** The edge a link click on `target` would add keeps the current layer acyclic. */
    ghost predicate LinkKeepsAcyclic(target: Option<Node>)
      reads this`currentLayer, this`linkSource, currentLayer`nodes, currentLayer`edges
    {
      target.Some? && linkSource != null && linkSource != target.value && linkSource.id in currentLayer.nodes ==>
        Acyclic(currentLayer.edges + [Edge(linkSource.id, target.value.id)])
    }

    /** `onClick` on `pick`, with `linkKey` for a held Ctrl or Meta key and `curve` the
        camera path a dive would build. A click that lands on no node of the current
        layer changes nothing. With the key held, the link protocol runs; the edge it
        asks for is added when the source is a node of the current layer. Without it,
        the click dives into the node. */
    method OnClick(pick: Option<Obj>, linkKey: bool, curve: CameraTs.Curve)
      requires Valid()
      requires linkKey ==> LinkKeepsAcyclic(Picked(pick))
      modifies this`linkSource, this`currentLayer, this`layerStack, this`layers, this`born,
        SubLayersOf(currentLayer)`targetOpacity, SubLayersOf(currentLayer)`visible, currentLayer,
        currentLayer.nodes.Values`x, currentLayer.nodes.Values`z, currentLayer.nodes.Values`subLayer,
        camera`activePath, camera`isRideMode
      ensures Valid()
      ensures old(Picked(pick)).None? ==> unchanged(this, camera) && unchanged(layers)
      ensures old(Picked(pick)).None? ==>
        linkSource == old(linkSource) && layerStack == old(layerStack) && currentLayer == old(currentLayer) &&
        currentLayer.nodes == old(currentLayer.nodes) && currentLayer.edges == old(currentLayer.edges)
      ensures old(Picked(pick)).Some? && linkKey ==>
        var step := LinkClick(old(linkSource), old(Picked(pick)).value);
        linkSource == step.source && layerStack == old(layerStack) && currentLayer == old(currentLayer) &&
        currentLayer.nodes == old(currentLayer.nodes) &&
        currentLayer.edges == if step.link.Some? && step.link.value.from in old(currentLayer.nodes)
                              then old(currentLayer.edges) + [step.link.value] else old(currentLayer.edges)
      ensures old(Picked(pick)).Some? && linkKey ==> unchanged(camera)
      ensures old(Picked(pick)).Some? && linkKey ==>
        forall l :: l in old(layers) ==> l.visible == old(l.visible) && l.targetOpacity == old(l.targetOpacity)
      ensures old(Picked(pick)).Some? && !linkKey ==>
        linkSource == old(linkSource) && currentLayer == old(Picked(pick)).value.subLayer &&
        layerStack == old(layerStack) + [Entry(old(currentLayer), old(travelProgress))]
      ensures old(Picked(pick)).Some? && !linkKey && old(Picked(pick).value.subLayer) == null ==>
        Stocked(currentLayer, old(Picked(pick)).value, old(currentLayer)) && currentLayer.opacity == 0.0
      ensures old(Picked(pick)).Some? && !linkKey ==>
        currentLayer.targetOpacity == 1.0 && currentLayer.visible &&
        old(currentLayer).targetOpacity == old(currentLayer.targetOpacity) &&
        (forall n :: n in old(currentLayer).nodes.Values && n != old(Picked(pick)).value && n.subLayer != null ==>
           n.subLayer.targetOpacity == 0.0) &&
        camera.activePath == Some(curve) && camera.isRideMode
    {
      if pick.Some? {
        var target := Holder(pick.value);
        if target.Some? && UserId(target.value) in currentLayer.nodes {
          var node := currentLayer.nodes[UserId(target.value)];
          assert SubLayerOf(node) <= SubLayersOf(currentLayer);
          if linkKey {
            Link(node);
          } else {
            FocusNode(node, curve);
          }
        }
      }
    }

    /** `currentLayer.addEdge(fromId, toId)`: the edge is appended when both ends are
        nodes of the current layer, and the nodes stay. */
    method Connect(fromId: Id, toId: Id)
      requires Valid()
      requires fromId in currentLayer.nodes && toId in currentLayer.nodes ==>
        Acyclic(currentLayer.edges + [Edge(fromId, toId)])
      modifies currentLayer, currentLayer.nodes.Values`x, currentLayer.nodes.Values`z
      ensures Valid() && currentLayer.nodes == old(currentLayer.nodes)
      ensures currentLayer.visible == old(currentLayer.visible) && currentLayer.targetOpacity == old(currentLayer.targetOpacity)
      ensures currentLayer.edges ==
        if fromId in currentLayer.nodes && toId in currentLayer.nodes then old(currentLayer.edges) + [Edge(fromId, toId)]
        else old(currentLayer.edges)
    {
      assert Fine(currentLayer);
      AddEdgeTo(currentLayer, fromId, toId);
      forall l | l in layers ensures Fine(l) {
        assert old(Fine(l));
        if l == currentLayer {
          forall k | k in l.nodes ensures Nested(l, l.nodes[k]) {
            assert old(Nested(l, l.nodes[k]));
          }
        }
      }
    }

    /** The link branch of `onClick` on `node`, a node of the current layer. */
    method Link(node: Node)
      requires Valid() && node in currentLayer.nodes.Values && LinkKeepsAcyclic(Some(node))
      modifies this`linkSource, currentLayer, currentLayer.nodes.Values`x, currentLayer.nodes.Values`z
      ensures Valid()
      ensures currentLayer.visible == old(currentLayer.visible) && currentLayer.targetOpacity == old(currentLayer.targetOpacity)
      ensures var step := LinkClick(old(linkSource), node);
        linkSource == step.source && currentLayer.nodes == old(currentLayer.nodes) &&
        currentLayer.edges == if step.link.Some? && step.link.value.from in old(currentLayer.nodes)
                              then old(currentLayer.edges) + [step.link.value] else old(currentLayer.edges)
    {
      if linkSource == node {
        linkSource := null;
      } else if linkSource != null {
        assert Fine(currentLayer);
        Connect(linkSource.id, node.id);
        linkSource := null;
      } else {
        linkSource := node;
      }
    }
  }
}

=== FILE: camera_js.dfy ===
/** The camera controller of the JavaScript prototype (`src/CameraManager.js`): a flight
    along a curve that lasts two seconds and eases out, and a linear "transition" that
    closes 15% of the remaining gap on every frame until both the eye and the look-at
    point are within 0.1 of their goals. The clock is a parameter of every call that
    reads it, and the curve's sampling is a parameter of `Update`. */
module CameraJs {
  import opened Common

  /** The flight's length in milliseconds. */
  const FlightDuration: real := 2000.0
  /** The fraction of the remaining gap a transition frame closes. */
  const LerpFactor: real := 0.15
  /** The fraction of the gap to the look-at goal a flight frame closes. */
  const FlightLookLerp: real := 0.1
  /** A transition stops once both distances are below this. */
  const StoppingThreshold: real := 0.1

  /** The three points a flight passes through: the eye when it started, the node it
      flies through and the final eye position. */
  datatype Flight = Flight(start: Vec3, through: Vec3, end: Vec3)

  /** `Math.min(elapsed / flightDuration, 1)`: the share of the flight that is over.
      It is never above 1, lies in [0, 1] once the clock has not gone backwards, and is
      1 exactly from the end of the flight on. */
  function Progress(elapsed: real): (p: real)
    ensures p <= 1.0
    ensures elapsed >= 0.0 ==> 0.0 <= p
    ensures p == 1.0 <==> elapsed >= FlightDuration
  {
    var share := elapsed / FlightDuration;
    if share < 1.0 then share else 1.0
  }

  /** The cubic ease-out `1 - (1 - p)^3`. */
  function Ease(p: real): real {
    1.0 - (1.0 - p) * (1.0 - p) * (1.0 - p)
  }

  /** The ease maps [0, 1] into [0, 1], starting at 0 and ending at 1. */
  lemma EaseBounds(p: real)
    requires 0.0 <= p <= 1.0
    ensures 0.0 <= Ease(p) <= 1.0
    ensures p == 0.0 ==> Ease(p) == 0.0
    ensures p == 1.0 ==> Ease(p) == 1.0
  {
    var a := 1.0 - p;
    assert 0.0 <= a * a <= 1.0 by {
      assert a * a <= a * 1.0;
    }
    assert 0.0 <= a * a * a <= 1.0 by {
      assert a * a * a <= (a * a) * 1.0;
    }
  }

  /** The ease never moves backwards: a later moment of the flight is never closer to
      its start. */
  lemma EaseMonotone(p: real, q: real)
    requires 0.0 <= p <= q <= 1.0
    ensures Ease(p) <= Ease(q)
  {
    var a := 1.0 - p;
    var b := 1.0 - q;
    assert 0.0 <= b <= a;
    assert b * b <= a * a by {
      assert b * b <= a * b;
      assert a * b <= a * a;
    }
    assert b * b * b <= a * a * a by {
      assert b * b * b <= (a * a) * b;
      assert (a * a) * b <= (a * a) * a;
    }
  }

  /** One transition frame leaves 85% of every per-axis gap to the goal. */
  lemma TransitionGap(from: Vec3, goal: Vec3)
    ensures Lerp(from, goal, LerpFactor).Sub(goal) == from.Sub(goal).Scale(0.85)
  {
  }

  /** One transition frame multiplies the squared distance to the goal by 0.85^2, so it
      never increases and vanishes only at the goal. */
  lemma TransitionDistance(from: Vec3, goal: Vec3)
    ensures DistSq(Lerp(from, goal, LerpFactor), goal) == 0.7225 * DistSq(from, goal)
  {
    TransitionGap(from, goal);
    var g := from.Sub(goal);
    assert g.Scale(0.85).NormSq() == 0.7225 * g.NormSq();
  }

  class CameraManager {
    /** `camera.position`. */
    var position: Vec3
    /** `controls.target`, the point the orbit controls look at. */
    var target: Vec3
    /** `controls.enabled`. */
    var controlsEnabled: bool
    var targetPosition: Option<Vec3>
    var targetLookAt: Option<Vec3>
    var isTransitioning: bool
    /** `isFlying` starts out `undefined`, which reads as false. */
    var isFlying: bool
    var flightCurve: Option<Flight>
    var flightStartTime: real

    /** A flight knows its curve and look-at goal; a transition knows both goals. */
    ghost predicate Valid()
      reads this
    {
      (isFlying ==> flightCurve.Some? && targetLookAt.Some?) &&
      (isTransitioning ==> targetPosition.Some? && targetLookAt.Some?)
    }

    /** The controller of a camera at `position`; the orbit controls start enabled and
        looking at the origin. */
    constructor(position: Vec3)
      ensures Valid() && this.position == position && target == Vec3(0.0, 0.0, 0.0)
      ensures controlsEnabled && !isTransitioning && !isFlying
      ensures targetPosition == None && targetLookAt == None && flightCurve == None
    {
      this.position := position;
      target := Vec3(0.0, 0.0, 0.0);
      controlsEnabled := true;
      targetPosition := None;
      targetLookAt := None;
      isTransitioning := false;
      isFlying := false;
      flightCurve := None;
      flightStartTime := 0.0;
    }

    /** Requests a linear transition to an eye position and look-at point and hands the
        camera over from the controls; a flight under way is not cancelled, and since
        `Update` serves a flight first, the transition waits for it to end. */
    method TransitionTo(position: Vec3, lookAt: Vec3)
      requires Valid()
      modifies this`targetPosition, this`targetLookAt, this`isTransitioning, this`controlsEnabled
      ensures Valid() && isTransitioning && !controlsEnabled
      ensures targetPosition == Some(position) && targetLookAt == Some(lookAt)
    {
      targetPosition := Some(position);
      targetLookAt := Some(lookAt);
      isTransitioning := true;
      controlsEnabled := false;
    }

    /** Starts a two-second flight through `through` to `end`, looking towards
        `endLookAt`, at clock reading `now`; any transition is cancelled and the
        controls are disabled. */
    method FlyThrough(start: Vec3, through: Vec3, end: Vec3, endLookAt: Vec3, now: real)
      requires Valid()
      modifies this`flightCurve, this`targetLookAt, this`flightStartTime, this`isFlying,
        this`isTransitioning, this`controlsEnabled
      ensures Valid() && isFlying && !isTransitioning && !controlsEnabled
      ensures flightCurve == Some(Flight(start, through, end)) && targetLookAt == Some(endLookAt)
      ensures flightStartTime == now
    {
      flightCurve := Some(Flight(start, through, end));
      targetLookAt := Some(endLookAt);
      flightStartTime := now;
      isFlying := true;
      isTransitioning := false;
      controlsEnabled := false;
    }

    /** One animation frame at clock reading `now`; `sample(f, t)` is the point of the
        flight curve `f` at parameter `t`.
        During a flight the eye is put on the curve at the eased progress and the look-at
        point closes a tenth of its gap; the flight ends on the first frame at or after
        two seconds, which re-enables the controls, and a pending transition is left
        untouched. Otherwise a transition moves both points 15% closer and ends,
        re-enabling the controls, exactly when both are then within 0.1 of their goals.
        With neither under way nothing changes. */
    method Update(now: real, sample: (Flight, real) -> Vec3)
      requires Valid()
      modifies this`position, this`target, this`isFlying, this`isTransitioning, this`controlsEnabled
      ensures Valid()
      ensures old(isFlying) ==>
        var p := Progress(now - flightStartTime);
        position == sample(flightCurve.value, Ease(p)) &&
        target == Lerp(old(target), targetLookAt.value, FlightLookLerp) &&
        isFlying == (p < 1.0) && controlsEnabled == (p >= 1.0 || old(controlsEnabled)) &&
        isTransitioning == old(isTransitioning)
      ensures !old(isFlying) && old(isTransitioning) ==>
        position == Lerp(old(position), targetPosition.value, LerpFactor) &&
        target == Lerp(old(target), targetLookAt.value, LerpFactor) &&
        var arrived := DistSq(position, targetPosition.value) < StoppingThreshold * StoppingThreshold &&
                       DistSq(target, targetLookAt.value) < StoppingThreshold * StoppingThreshold;
        isTransitioning == !arrived && controlsEnabled == (arrived || old(controlsEnabled)) &&
        !isFlying
      ensures !old(isFlying) && !old(isTransitioning) ==> unchanged(this)
    {
      if isFlying {
        var progress := Progress(now - flightStartTime);
        var ease := Ease(progress);
        position := sample(flightCurve.value, ease);
        target := Lerp(target, targetLookAt.value, FlightLookLerp);
        if progress >= 1.0 {
          isFlying := false;
          controlsEnabled := true;
        }
      } else if isTransitioning {
        position := Lerp(position, targetPosition.value, LerpFactor);
        target := Lerp(target, targetLookAt.value, LerpFactor);
        if DistSq(position, targetPosition.value) < StoppingThreshold * StoppingThreshold &&
           DistSq(target, targetLookAt.value) < StoppingThreshold * StoppingThreshold {
          isTransitioning := false;
          controlsEnabled := true;
        }
      }
    }
  }
}

=== FILE: camera_ts.dfy ===
/** The camera controller of the TypeScript prototype (`src/CameraManager.ts`): a "ride"
    mode in which the eye sits half a unit above a point of a curve and looks a little
    further along it. Curve sampling is not modelled; a curve is given by its point and,
    when it has one, its tangent function. */
module CameraTs {
  import opened Common

  /** A path for the ride: the point at a fraction in [0, 1] of its length, and the
      tangent there when the curve provides one. */
  datatype Curve = Curve(pointAt: real -> Vec3, tangentAt: Option<real -> Vec3>)

  /** How far ahead along the curve the camera looks. */
  const LookAhead: real := 0.02
  /** How high above the curve the eye rides. */
  const EyeHeight: real := 0.5

  /** `Math.min(progress + 0.02, 1)`: never beyond the end of the curve, and not ahead of
      the current point exactly when the ride has reached the end. */
  function Lookahead(progress: real): (ahead: real)
    ensures ahead <= 1.0
    ensures ahead <= progress <==> progress >= 1.0
  {
    var ahead := progress + LookAhead;
    if ahead < 1.0 then ahead else 1.0
  }

  class CameraManager {
    /** `camera.position`. */
    var position: Vec3
    /** `controls.target`. */
    var target: Vec3
    /** `controls.enabled`. */
    var controlsEnabled: bool
    var activePath: Option<Curve>
    var rideProgress: real
    var isRideMode: bool

    /** The controller of a camera at `position`: no path, progress 0, ride mode off and
        the orbit controls enabled, looking at the origin. */
    constructor(position: Vec3)
      ensures this.position == position && target == Vec3(0.0, 0.0, 0.0) && controlsEnabled
      ensures activePath.None? && rideProgress == 0.0 && !isRideMode
    {
      this.position := position;
      target := Vec3(0.0, 0.0, 0.0);
      controlsEnabled := true;
      activePath := None;
      rideProgress := 0.0;
      isRideMode := false;
    }

    /** Ride mode on hands the camera over from the controls; off gives it back. */
    method SetRideMode(active: bool)
      modifies this`isRideMode, this`controlsEnabled
      ensures isRideMode == active && controlsEnabled == !active
    {
      isRideMode := active;
      controlsEnabled := !active;
    }

    /** Stores the path and turns ride mode on, leaving the controls as they were. */
    method SetPath(curve: Curve)
      modifies this`activePath, this`isRideMode
      ensures activePath == Some(curve) && isRideMode
    {
      activePath := Some(curve);
      isRideMode := true;
    }

    /** One frame: in ride mode with a path, the eye goes half a unit above the curve's
        point at the current progress and looks at the point a little further on; at the
        end of the curve, where there is nothing further on, it looks along the tangent
        (or along +x when the curve has none). Otherwise nothing moves. */
    method Update()
      modifies this`position, this`target
      ensures !(isRideMode && activePath.Some?) ==> unchanged(this)
      ensures isRideMode && activePath.Some? ==>
        var path := activePath.value;
        var eye := path.pointAt(rideProgress);
        position == eye.Add(Vec3(0.0, EyeHeight, 0.0)) &&
        (rideProgress < 1.0 ==> target == path.pointAt(Lookahead(rideProgress))) &&
        (rideProgress >= 1.0 ==>
          target == eye.Add(if path.tangentAt.Some? then path.tangentAt.value(rideProgress) else Vec3(1.0, 0.0, 0.0)))
    {
      if isRideMode && activePath.Some? {
        var path := activePath.value;
        var eye := path.pointAt(rideProgress);
        position := eye.Add(Vec3(0.0, EyeHeight, 0.0));
        var lookForward := Lookahead(rideProgress);
        var ahead := path.pointAt(lookForward);
        if lookForward <= rideProgress {
          var tangent := if path.tangentAt.Some? then path.tangentAt.value(rideProgress) else Vec3(1.0, 0.0, 0.0);
          target := eye.Add(tangent);
        } else {
          target := ahead;
        }
      }
    }
  }
}

=== FILE: common.dfy ===
/** Values shared by every part of the model: identifiers, optional values and
    three-dimensional points as the renderer sees them. */
module Common {

  /** Node, layer and plane identifiers are JavaScript strings. */
  type Id = string

  datatype Option<+T> = None | Some(value: T)

  /** A point or direction in world space. */
  datatype Vec3 = Vec3(x: real, y: real, z: real)
  {
    function Add(o: Vec3): Vec3 { Vec3(x + o.x, y + o.y, z + o.z) }
    function Sub(o: Vec3): Vec3 { Vec3(x - o.x, y - o.y, z - o.z) }
    function Scale(k: real): Vec3 { Vec3(k * x, k * y, k * z) }
    /** The square of the Euclidean length; comparing it with t*t is the same as
        comparing the length with t when t >= 0. */
    function NormSq(): real { x * x + y * y + z * z }
  }

  /** Squared Euclidean distance between two points. */
  function DistSq(a: Vec3, b: Vec3): real { a.Sub(b).NormSq() }

  /** JavaScript's `a.lerp(b, t)`: move `a` the fraction `t` of the way to `b`. */
  function Lerp(a: Vec3, b: Vec3, t: real): Vec3 { a.Add(b.Sub(a).Scale(t)) }

  predicate Distinct<T(==)>(s: seq<T>) {
    forall i, j :: 0 <= i < j < |s| ==> s[i] != s[j]
  }

  /** `s` with every occurrence of `x` removed, the rest in order: how deleting a key
      changes a JavaScript `Map`'s insertion order. */
  function Without(s: seq<Id>, x: Id): (r: seq<Id>)
    ensures forall y :: y in r <==> y in s && y != x
    ensures |r| <= |s|
  {
    if s == [] then []
    else (if s[0] == x then [] else [s[0]]) + Without(s[1..], x)
  }

  /** Removing an element keeps a duplicate-free sequence duplicate-free. */
  lemma {:induction false} WithoutDistinct(s: seq<Id>, x: Id)
    requires Distinct(s)
    ensures Distinct(Without(s, x))
  {
    if s != [] {
      WithoutDistinct(s[1..], x);
      var r := Without(s, x);
      var t := Without(s[1..], x);
      if s[0] != x {
        assert r == [s[0]] + t;
        assert s[0] !in t;
      }
    }
  }

  /** Removal works part by part: each part keeps its remaining elements in order. */
  lemma {:induction false} WithoutSplits(a: seq<Id>, b: seq<Id>, x: Id)
    ensures Without(a + b, x) == Without(a, x) + Without(b, x)
  {
    if a != [] {
      assert (a + b)[1..] == a[1..] + b;
      WithoutSplits(a[1..], b, x);
    } else {
      assert a + b == b;
    }
  }

  /** Removing an element that does not occur changes nothing. */
  lemma {:induction false} WithoutAbsent(s: seq<Id>, x: Id)
    requires x !in s
    ensures Without(s, x) == s
  {
    if s != [] {
      WithoutAbsent(s[1..], x);
      assert s == [s[0]] + s[1..];
    }
  }

  /** Removing the one occurrence of `x` joins what stands before and after it. */
  lemma WithoutMiddle(before: seq<Id>, x: Id, after: seq<Id>)
    requires x !in before && x !in after
    ensures Without(before + [x] + after, x) == before + after
  {
    var rest := [x] + after;
    assert before + [x] + after == before + rest;
    WithoutSplits(before, rest, x);
    WithoutSplits([x], after, x);
    WithoutAbsent(before, x);
    WithoutAbsent(after, x);
    assert Without([x], x) == [] by {
      assert [x][1..] == [];
    }
    assert Without(rest, x) == after;
  }

  /** Deleting the key at position `i` of a duplicate-free insertion order leaves the
      keys before it and the keys after it, each in their order. */
  lemma WithoutAt(s: seq<Id>, i: nat)
    requires Distinct(s) && i < |s|
    ensures Without(s, s[i]) == s[..i] + s[i + 1..]
  {
    var x, before, after := s[i], s[..i], s[i + 1..];
    assert x !in before by {
      forall j | 0 <= j < |before| ensures before[j] != x {
        assert before[j] == s[j];
      }
    }
    assert x !in after by {
      forall j | 0 <= j < |after| ensures after[j] != x {
        assert after[j] == s[i + 1 + j];
      }
    }
    assert s == before + [x] + after;
    WithoutMiddle(before, x, after);
  }

  /** `map.get(k)`: the stored value, or `undefined` for a missing key. */
  function Lookup<K, V>(m: map<K, V>, k: K): (r: Option<V>)
    ensures r.Some? <==> k in m
    ensures r.Some? ==> r.value == m[k]
  {
    if k in m then Some(m[k]) else None
  }

  /** JavaScript's `a <= b` where either number may be `undefined`: any comparison
      with `undefined` is false. */
  predicate AtMost(a: Option<nat>, b: Option<nat>) {
    a.Some? && b.Some? && a.value <= b.value
  }

  /** Whether a string is "truthy" in JavaScript: only the empty string is not. */
  predicate Truthy(s: string) { s != "" }
}

=== FILE: graph_ui.dfy ===
/** The two-dimensional grid editor at the root of the repository (`app.js`): graphs
    nested up to twelve levels, reached through a path of node ids, with a capped
    "auto ranking" that pushes every edge's target card right of its source card.

    The node cards are plain records owned by exactly one graph's map, so they are
    modelled as values that the map update replaces; the graphs themselves are objects
    shared between `subgraphs` and the current view, so they are a class. */
module GraphUI {
  import opened Common
  import opened Ranking

  /** A node card: `x` and `y` are grid cells; `rank` is stored but never recomputed. */
  datatype Card = Card(id: Id, caption: string, x: int, y: int, rank: int)

  /** The deepest nesting the editor allows. */
  const MaxDepth := 12
  /** The cap on the number of auto-ranking passes. */
  const MaxPasses := 100
  const MinScale: real := 0.1
  const MaxScale: real := 5.0
  /** Zooming out below this scale inside a nested graph goes back up one level. */
  const AutoUpScale: real := 0.25
  const ZoomSpeed: real := 0.001

  // ---- auto ranking, as functions of the card map ----

  /** `after` holds the cards of `before`, each unchanged except for an `x` that has not
      decreased. */
  ghost predicate Drifted(before: map<Id, Card>, after: map<Id, Card>) {
    after.Keys == before.Keys &&
    forall k :: k in before ==> after[k] == before[k].(x := after[k].x) && after[k].x >= before[k].x
  }

  /** Every edge whose two cards exist points to the right. */
  ghost predicate Ordered(cards: map<Id, Card>, edges: seq<Edge<Id>>) {
    forall e :: e in edges && e.from in cards && e.to in cards ==> cards[e.from].x < cards[e.to].x
  }

  /** The callback run for one edge: when both cards exist and the target is not right of
      the source, the target moves to the column just right of the source. The flag says
      whether a card moved. */
  function Nudge(cards: map<Id, Card>, e: Edge<Id>): (map<Id, Card>, bool) {
    if e.from in cards && e.to in cards && cards[e.to].x <= cards[e.from].x
    then (cards[e.to := cards[e.to].(x := cards[e.from].x + 1)], true)
    else (cards, false)
  }

  /** One pass over the edges in order, and whether it moved any card. */
  function Sweep(cards: map<Id, Card>, edges: seq<Edge<Id>>): (map<Id, Card>, bool) {
    if edges == [] then (cards, false)
    else
      var before := Sweep(cards, edges[..|edges| - 1]);
      var step := Nudge(before.0, edges[|edges| - 1]);
      (step.0, before.1 || step.1)
  }

  /** A pass only moves cards right; a pass that moves nothing certifies that every edge
      between existing cards points right; a pass that moves something leaves some card
      strictly further right. */
  lemma {:induction false} SweepDrifts(cards: map<Id, Card>, edges: seq<Edge<Id>>)
    ensures var r := Sweep(cards, edges);
      Drifted(cards, r.0) &&
      (!r.1 ==> r.0 == cards && Ordered(cards, edges)) &&
      (r.1 ==> exists k :: k in cards && r.0[k].x > cards[k].x)
  {
    if edges != [] {
      var init := edges[..|edges| - 1];
      var last := edges[|edges| - 1];
      SweepDrifts(cards, init);
      var before := Sweep(cards, init);
      var step := Nudge(before.0, last);
      if !before.1 && !step.1 {
        forall e | e in edges ensures e in init || e == last {
          var i :| 0 <= i < |edges| && edges[i] == e;
          if i < |edges| - 1 {
            assert init[i] == e;
          }
        }
      }
      if step.1 {
        assert step.0[last.to].x > cards[last.to].x;
      }
    }
  }

  /** Passes run while the previous one moved a card, at most `passes` of them; the flag
      says whether the loop ended on a pass that moved nothing. */
  function Settle(cards: map<Id, Card>, edges: seq<Edge<Id>>, passes: nat): (map<Id, Card>, bool)
    decreases passes
  {
    if passes == 0 then (cards, false)
    else
      var pass := Sweep(cards, edges);
      if pass.1 then Settle(pass.0, edges, passes - 1) else (pass.0, true)
  }

  /** Cards only move right, and a settled result has every edge between existing cards
      pointing right. */
  lemma {:induction false} SettleDrifts(cards: map<Id, Card>, edges: seq<Edge<Id>>, passes: nat)
    ensures var r := Settle(cards, edges, passes);
      Drifted(cards, r.0) && (r.1 ==> Ordered(r.0, edges))
    decreases passes
  {
    if passes > 0 {
      var pass := Sweep(cards, edges);
      SweepDrifts(cards, edges);
      if pass.1 {
        SettleDrifts(pass.0, edges, passes - 1);
      }
    }
  }

  /** Cards that already satisfy every edge settle on the first pass, unmoved. */
  lemma SettledWhenOrdered(cards: map<Id, Card>, edges: seq<Edge<Id>>, passes: nat)
    requires passes > 0 && Ordered(cards, edges)
    ensures Settle(cards, edges, passes) == (cards, true)
  {
    NoMoveWhenOrdered(cards, edges);
  }

  /** A pass over edges that already point right moves nothing. */
  lemma {:induction false} NoMoveWhenOrdered(cards: map<Id, Card>, edges: seq<Edge<Id>>)
    requires Ordered(cards, edges)
    ensures Sweep(cards, edges) == (cards, false)
  {
    if edges != [] {
      var init := edges[..|edges| - 1];
      assert Ordered(cards, init) by {
        forall e | e in init ensures e in edges { }
      }
      NoMoveWhenOrdered(cards, init);
      assert edges[|edges| - 1] in edges;
    }
  }

  // ---- the edge list ----

  /** No edge is repeated and none is a self-loop. */
  ghost predicate Simple(edges: seq<Edge<Id>>) {
    Distinct(edges) && forall e :: e in edges ==> e.from != e.to
  }

  /** The edge list after asking for the edge `from` -> `to`: self-loops and pairs that
      are already present are ignored; anything else is appended. */
  function WithEdge(edges: seq<Edge<Id>>, from: Id, to: Id): (r: seq<Edge<Id>>)
    ensures from != to ==> Edge(from, to) in r
    ensures forall e :: e in r <==> e in edges || (e == Edge(from, to) && from != to)
    ensures |r| >= |edges| && r[..|edges|] == edges
  {
    if from == to || Edge(from, to) in edges then edges else edges + [Edge(from, to)]
  }

  /** Adding edges keeps the list free of duplicates and self-loops. */
  lemma WithEdgeSimple(edges: seq<Edge<Id>>, from: Id, to: Id)
    requires Simple(edges)
    ensures Simple(WithEdge(edges, from, to))
  {
    var r := WithEdge(edges, from, to);
    if r != edges {
      forall i, j | 0 <= i < j < |r| ensures r[i] != r[j] {
        if j == |edges| {
          assert r[i] in edges;
        }
      }
    }
  }

  /** Asking for the same edge twice is the same as asking once. */
  lemma WithEdgeIdempotent(edges: seq<Edge<Id>>, from: Id, to: Id)
    ensures WithEdge(WithEdge(edges, from, to), from, to) == WithEdge(edges, from, to)
  {
    if from != to {
      assert Edge(from, to) in WithEdge(edges, from, to);
    }
  }

  /** Deleting a node keeps the list free of duplicates and self-loops. */
  lemma {:induction false} DetachSimple(edges: seq<Edge<Id>>, id: Id)
    requires Simple(edges)
    ensures Simple(Detach(edges, id))
  {
    if edges != [] {
      assert Simple(edges[1..]) by {
        forall e | e in edges[1..] ensures e in edges { }
      }
      DetachSimple(edges[1..], id);
      var rest := Detach(edges[1..], id);
      if edges[0].from != id && edges[0].to != id {
        assert edges[0] !in rest by {
          assert forall k :: 0 <= k < |edges[1..]| ==> edges[1..][k] == edges[k + 1];
        }
        assert Detach(edges, id) == [edges[0]] + rest;
      }
    }
  }

  // ---- the path through nested graphs ----

  /** The graph reached from `at` by following `ids` through `subgraphs`, stopping at the
      first id that has no graph. */
  function Follow(at: GraphData, subgraphs: map<Id, GraphData>, ids: seq<Id>): GraphData
    decreases |ids|
  {
    if ids == [] then at
    else if ids[0] in subgraphs then Follow(subgraphs[ids[0]], subgraphs, ids[1..])
    else at
  }

  /** Where the walk ends: the graph of the last id before the first one without a graph,
      or the starting graph when that is the very first id. */
  lemma {:induction false} FollowStopsAtGap(at: GraphData, subgraphs: map<Id, GraphData>, ids: seq<Id>, k: nat)
    requires k <= |ids| && forall i :: 0 <= i < k ==> ids[i] in subgraphs
    requires k == |ids| || ids[k] !in subgraphs
    ensures Follow(at, subgraphs, ids) == if k == 0 then at else subgraphs[ids[k - 1]]
  {
    if k > 0 {
      FollowStopsAtGap(subgraphs[ids[0]], subgraphs, ids[1..], k - 1);
      if k > 1 {
        assert ids[1..][k - 2] == ids[k - 1];
      }
    }
  }

  /** Diving into `id` (creating its graph `made` when missing) and coming back: when
      every id on the path has a graph, the dive lands on the graph of `id`, and after
      the path is popped again the view is the one before the dive. */
  lemma DiveAndSurface(root: GraphData, subgraphs: map<Id, GraphData>, path: seq<Id>, id: Id, made: GraphData)
    requires forall p :: p in path ==> p in subgraphs
    ensures var after := if id in subgraphs then subgraphs else subgraphs[id := made];
      Follow(root, after, path + [id]) == after[id] &&
      Follow(root, after, (path + [id])[..|path|]) == Follow(root, subgraphs, path)
  {
    var after := if id in subgraphs then subgraphs else subgraphs[id := made];
    FollowStopsAtGap(root, after, path + [id], |path| + 1);
    assert (path + [id])[..|path|] == path;
    FollowStopsAtGap(root, after, path, |path|);
    FollowStopsAtGap(root, subgraphs, path, |path|);
    if |path| > 0 {
      assert path[|path| - 1] in path;
    }
  }

  /** The short form of an id in the breadcrumb: its first five characters, or all of
      it when it is shorter. */
  function Short(id: Id): (r: string)
    ensures r <= id && |r| == if |id| < 5 then |id| else 5
  {
    id[..if |id| < 5 then |id| else 5]
  }

  /** The breadcrumb shown above the graph: "Root" followed by the first five characters
      of each id on the path. It is just "Root" exactly when the path is empty. */
  function Crumbs(path: seq<Id>): (r: string)
    ensures |r| >= 4 && r[..4] == "Root"
    ensures |r| == 4 <==> path == []
  {
    if path == [] then "Root"
    else Crumbs(path[..|path| - 1]) + " > " + Short(path[|path| - 1])
  }

  /** The segments of the breadcrumb read from the front of the path: " > " and the short
      form of each id, in path order. */
  function Trail(path: seq<Id>): string
    decreases |path|
  {
    if path == [] then "" else " > " + Short(path[0]) + Trail(path[1..])
  }

  /** Going one level deeper adds exactly one segment at the end of the trail. */
  lemma {:induction false} TrailAppend(path: seq<Id>, id: Id)
    ensures Trail(path + [id]) == Trail(path) + " > " + Short(id)
    decreases |path|
  {
    if path != [] {
      assert (path + [id])[1..] == path[1..] + [id];
      TrailAppend(path[1..], id);
    }
  }

  /** The breadcrumb is "Root" followed by one segment per id on the path, in order. */
  lemma {:induction false} CrumbsTrail(path: seq<Id>)
    ensures Crumbs(path) == "Root" + Trail(path)
    decreases |path|
  {
    if path != [] {
      var init := path[..|path| - 1];
      CrumbsTrail(init);
      TrailAppend(init, path[|path| - 1]);
      assert init + [path[|path| - 1]] == path;
    }
  }

  // ---- labels and stamps ----

  /** The characters JavaScript's `trim` removes that the model knows about. */
  predicate IsSpace(c: char) {
    c == ' ' || c == '\t' || c == '\n' || c == '\r' || c == '\U{0B}' || c == '\U{0C}' ||
    c == '\U{A0}' || c == '\U{FEFF}' || c == '\U{2028}' || c == '\U{2029}'
  }

  /** `s` without its leading white space. */
  function TrimStart(s: string): (r: string)
    ensures |r| <= |s| && r == s[|s| - |r|..]
    ensures r == [] || !IsSpace(r[0])
    ensures forall i :: 0 <= i < |s| - |r| ==> IsSpace(s[i])
  {
    if s != [] && IsSpace(s[0]) then TrimStart(s[1..]) else s
  }

  /** `s` without its trailing white space. */
  function TrimEnd(s: string): (r: string)
    ensures |r| <= |s| && r == s[..|r|]
    ensures r == [] || !IsSpace(r[|r| - 1])
    ensures forall i :: |r| <= i < |s| ==> IsSpace(s[i])
  {
    if s != [] && IsSpace(s[|s| - 1]) then TrimEnd(s[..|s| - 1]) else s
  }

  /** The label a finished inline edit gives its card: the typed text without surrounding
      white space, or "New Node" when nothing else is left. It is never empty and never
      starts or ends with white space. */
  function NodeLabel(typed: string): (caption: string)
    ensures caption != [] && !IsSpace(caption[0]) && !IsSpace(caption[|caption| - 1])
    ensures TrimEnd(TrimStart(typed)) != "" ==> caption == TrimEnd(TrimStart(typed))
    ensures TrimEnd(TrimStart(typed)) == "" ==> caption == "New Node"
  {
    var s := TrimStart(typed);
    var t := TrimEnd(s);
    if t == "" then "New Node" else assert t[0] == s[0]; t
  }

  /** The decimal digits of `n`, as `String(n)` writes a non-negative integer. */
  function Digits(n: nat): (s: string)
    ensures |s| >= 1 && (n >= 10 ==> |s| >= 2)
  {
    (if n < 10 then "" else Digits(n / 10)) + [('0' as int + n % 10) as char]
  }

  /** Different numbers are written differently. */
  lemma {:induction false} DigitsInjective(a: nat, b: nat)
    requires Digits(a) == Digits(b)
    ensures a == b
  {
    var s := Digits(a);
    assert s[|s| - 1] == ('0' as int + a % 10) as char == ('0' as int + b % 10) as char;
    if a >= 10 && b >= 10 {
      assert Digits(a / 10) == s[..|s| - 1] == Digits(b / 10);
      DigitsInjective(a / 10, b / 10);
    }
  }

  /** The id of a card created inline: "n" followed by the clock reading in milliseconds. */
  function Stamp(now: nat): (id: Id)
    ensures |id| >= 2 && id[0] == 'n'
  {
    "n" + Digits(now)
  }

  /** Cards created at different milliseconds get different ids. */
  lemma StampInjective(a: nat, b: nat)
    requires a != b
    ensures Stamp(a) != Stamp(b)
  {
    if Stamp(a) == Stamp(b) {
      assert Digits(a) == Stamp(a)[1..] == Stamp(b)[1..] == Digits(b);
      DigitsInjective(a, b);
    }
  }

  /** `Math.min(Math.max(v, 0.1), 5)`: the wheel's new scale, kept within the bounds and
      left alone inside them. */
  function ClampScale(v: real): (r: real)
    ensures MinScale <= r <= MaxScale
    ensures MinScale <= v <= MaxScale ==> r == v
    ensures v < MinScale ==> r == MinScale
    ensures v > MaxScale ==> r == MaxScale
  {
    var low := if v > MinScale then v else MinScale;
    if low < MaxScale then low else MaxScale
  }

  // ---- the objects ----

  /** A graph: its cards by id and its edge list. */
  class GraphData {
    var nodes: map<Id, Card>
    var edges: seq<Edge<Id>>

    constructor()
      ensures nodes == map[] && edges == []
    {
      nodes := map[];
      edges := [];
    }
  }

  /** Where a navigation is: `_navigating` is set in every phase but `Idle`. A dive first
      zooms in (`Diving`), then fades in the new graph (`Landing`); going up fades out
      (`Surfacing`). Each phase ends when its timer fires. */
  datatype Nav = Idle | Diving(target: Id) | Landing | Surfacing

  class GraphUI {
    const rootData: GraphData
    var path: seq<Id>
    var subgraphs: map<Id, GraphData>
    var scale: real
    var selectedForLink: Option<Id>
    var phase: Nav

    /** The nesting never exceeds twelve levels; a pending dive has room for one more level
        and a pending climb has a level to leave. */
    ghost predicate Valid()
      reads this
    {
      |path| <= MaxDepth &&
      (phase.Diving? ==> |path| < MaxDepth) &&
      (phase == Surfacing ==> |path| > 0)
    }

    /** The graph on screen. */
    function Current(): GraphData
      reads this`path, this`subgraphs
    {
      Follow(rootData, subgraphs, path)
    }

    /** The editor at the root graph, with no nested graphs, no selection and scale 1. */
    constructor()
      ensures Valid() && path == [] && subgraphs == map[] && phase == Idle
      ensures scale == 1.0 && selectedForLink == None
      ensures fresh(rootData) && rootData.nodes == map[] && rootData.edges == []
    {
      rootData := new GraphData();
      path := [];
      subgraphs := map[];
      scale := 1.0;
      selectedForLink := None;
      phase := Idle;
    }

    /** The capped relaxation: passes over the edges run while the last one moved a card,
        and at most `MaxPasses` times; `settled` says whether it stopped on a quiet pass. */
    method UpdateAutoRanking(data: GraphData) returns (ghost settled: bool)
      modifies data`nodes
      ensures (data.nodes, settled) == Settle(old(data.nodes), data.edges, MaxPasses)
      ensures Drifted(old(data.nodes), data.nodes) && (settled ==> Ordered(data.nodes, data.edges))
    {
      var changed := true;
      var iterations := 0;
      while changed && iterations < MaxPasses
        invariant 0 <= iterations <= MaxPasses
        invariant Settle(old(data.nodes), data.edges, MaxPasses) ==
          if changed then Settle(data.nodes, data.edges, MaxPasses - iterations) else (data.nodes, true)
        decreases MaxPasses - iterations, changed
      {
        iterations := iterations + 1;
        changed := RankPass(data);
      }
      settled := !changed;
      SettleDrifts(old(data.nodes), data.edges, MaxPasses);
    }

    /** One pass of the relaxation: the callback runs for every edge in order, and the
        result says whether it moved a card. */
    method RankPass(data: GraphData) returns (changed: bool)
      modifies data`nodes
      ensures (data.nodes, changed) == Sweep(old(data.nodes), data.edges)
    {
      changed := false;
      var j := 0;
      while j < |data.edges|
        invariant 0 <= j <= |data.edges|
        invariant (data.nodes, changed) == Sweep(old(data.nodes), data.edges[..j])
      {
        var edge := data.edges[j];
        var fromNode := Lookup(data.nodes, edge.from);
        var toNode := Lookup(data.nodes, edge.to);
        assert data.edges[..j + 1][..j] == data.edges[..j];
        if fromNode.Some? && toNode.Some? {
          if toNode.value.x <= fromNode.value.x {
            data.nodes := data.nodes[edge.to := toNode.value.(x := fromNode.value.x + 1)];
            changed := true;
          }
        }
        j := j + 1;
      }
      assert data.edges[..j] == data.edges;
    }

    /** Stores a fresh card (rank 0) under `id`, replacing any card there, then re-ranks. */
    method AddNodeToData(data: GraphData, id: Id, caption: string, x: int, y: int)
      modifies data
      ensures data.nodes == Settle(old(data.nodes)[id := Card(id, caption, x, y, 0)], old(data.edges), MaxPasses).0
      ensures data.edges == old(data.edges) && data.nodes.Keys == old(data.nodes.Keys) + {id}
      ensures data.nodes[id] == Card(id, caption, data.nodes[id].x, y, 0) && data.nodes[id].x >= x
    {
      data.nodes := data.nodes[id := Card(id, caption, x, y, 0)];
      var _ := UpdateAutoRanking(data);
    }

    /** Asks for the edge `from` -> `to`: a self-loop or a pair already present is
        ignored; otherwise the edge is appended and the cards re-ranked. The endpoints are
        not checked. */
    method AddEdgeToData(data: GraphData, from: Id, to: Id)
      modifies data
      ensures data.edges == WithEdge(old(data.edges), from, to)
      ensures data.nodes == if data.edges == old(data.edges) then old(data.nodes)
                            else Settle(old(data.nodes), data.edges, MaxPasses).0
      ensures data.nodes.Keys == old(data.nodes.Keys)
    {
      if from == to {
        return;
      }
      if Edge(from, to) in data.edges {
        return;
      }
      data.edges := data.edges + [Edge(from, to)];
      var _ := UpdateAutoRanking(data);
    }

    /** The loop that finds the graph on screen. */
    method GetCurrentData() returns (current: GraphData)
      ensures current == Current()
    {
      current := rootData;
      var i := 0;
      while i < |path|
        invariant 0 <= i <= |path|
        invariant Follow(current, subgraphs, path[i..]) == Current()
      {
        if path[i] in subgraphs {
          assert path[i..][1..] == path[i + 1..];
          current := subgraphs[path[i]];
        } else {
          return;
        }
        i := i + 1;
      }
    }

    /** A click on a card: refused with nothing changed when the path is twelve deep, a
        navigation is under way, or the id is not a card of the graph on screen; otherwise
        the dive towards that card starts, zooming to scale 8. */
    method NavigateDown(nodeId: Id)
      requires Valid()
      modifies this
      ensures Valid()
      ensures old(|path| >= MaxDepth || phase != Idle || nodeId !in Current().nodes) ==> unchanged(this)
      ensures !old(|path| >= MaxDepth || phase != Idle || nodeId !in Current().nodes) ==>
        phase == Diving(nodeId) && scale == 8.0 &&
        unchanged(this`path, this`subgraphs, this`selectedForLink)
    {
      if |path| >= MaxDepth {
        return;
      }
      if phase != Idle {
        return;
      }
      var data := GetCurrentData();
      assert data == old(Current());
      assert data.nodes == old(Current().nodes);
      var node := Lookup(data.nodes, nodeId);
      if node.None? {
        return;
      }
      phase := Diving(nodeId);
      scale := 8.0;
    }

    /** The dive's first timer: the card gets an empty graph if it has none, and its id
        is pushed on the path, which stays within twelve levels. When every id on the path
        had a graph, the view is now the card's graph. */
    method DiveTimer()
      requires Valid() && phase.Diving?
      modifies this
      ensures Valid() && phase == Landing
      ensures path == old(path) + [old(phase.target)] && |path| <= MaxDepth
      ensures subgraphs.Keys == old(subgraphs.Keys) + {old(phase.target)}
      ensures forall k :: k in old(subgraphs) ==> subgraphs[k] == old(subgraphs[k])
      ensures old(phase.target) !in old(subgraphs) ==>
        fresh(subgraphs[old(phase.target)]) &&
        subgraphs[old(phase.target)].nodes == map[] && subgraphs[old(phase.target)].edges == []
      ensures (forall p :: p in old(path) ==> p in old(subgraphs)) ==> Current() == subgraphs[old(phase.target)]
      ensures unchanged(this`scale, this`selectedForLink)
    {
      var nodeId := phase.target;
      if nodeId !in subgraphs {
        var graph := new GraphData();
        subgraphs := subgraphs[nodeId := graph];
      }
      if forall p :: p in path ==> p in old(subgraphs) {
        DiveAndSurface(rootData, old(subgraphs), path, nodeId, subgraphs[nodeId]);
      }
      path := path + [nodeId];
      phase := Landing;
    }

    /** The dive's second timer: the view is reset to scale 1, the link selection is
        dropped and navigation is allowed again. */
    method LandTimer()
      requires Valid() && phase == Landing
      modifies this
      ensures Valid() && phase == Idle && scale == 1.0 && selectedForLink == None
      ensures unchanged(this`path, this`subgraphs)
    {
      scale := 1.0;
      selectedForLink := None;
      phase := Idle;
    }

    /** Going up: nothing happens with an empty path or during a navigation; otherwise the
        climb starts. */
    method NavigateUpInteractive()
      requires Valid()
      modifies this`phase
      ensures Valid()
      ensures phase == if old(phase) == Idle && |path| > 0 then Surfacing else old(phase)
    {
      if phase != Idle || |path| == 0 {
        return;
      }
      phase := Surfacing;
    }

    /** The climb's timer: exactly one id leaves the path, the view is reset to scale 1,
        the link selection is dropped and navigation is allowed again. */
    method SurfaceTimer()
      requires Valid() && phase == Surfacing
      modifies this
      ensures Valid() && phase == Idle && scale == 1.0 && selectedForLink == None
      ensures path == old(path[..|path| - 1]) && unchanged(this`subgraphs)
      ensures |path| == old(|path|) - 1
    {
      path := path[..|path| - 1];
      scale := 1.0;
      selectedForLink := None;
      phase := Idle;
    }

    /** A wheel event: the scale moves by the scroll amount and is kept within
        [0.1, 5]; below 0.25, inside a nested graph and with no navigation under way, the
        editor starts going up. */
    method Wheel(deltaY: real)
      requires Valid()
      modifies this`scale, this`phase
      ensures Valid() && scale == ClampScale(old(scale) - deltaY * ZoomSpeed)
      ensures MinScale <= scale <= MaxScale
      ensures phase == if scale < AutoUpScale && |path| > 0 && old(phase) == Idle then Surfacing else old(phase)
    {
      var delta := -deltaY;
      scale := ClampScale(scale + delta * ZoomSpeed);
      if scale < AutoUpScale && |path| > 0 && phase == Idle {
        NavigateUpInteractive();
      }
    }

    /** A ctrl- or meta-click on a card: clicking the selected card again clears the
        selection; clicking another card while one is selected asks for the edge from the
        selected card to it in the graph on screen and clears the selection; otherwise the
        card becomes the selection. An empty id does not count as a selection. */
    method HandleNodeLink(nodeId: Id)
      requires Valid()
      modifies this`selectedForLink, Current()
      ensures Valid()
      ensures old(selectedForLink) == Some(nodeId) ==> selectedForLink == None && unchanged(Current())
      ensures old(selectedForLink) != Some(nodeId) && old(selectedForLink).Some? && Truthy(old(selectedForLink).value) ==>
        selectedForLink == None && Current().edges == WithEdge(old(Current().edges), old(selectedForLink).value, nodeId) &&
        Current().nodes == if Current().edges == old(Current().edges) then old(Current().nodes)
                           else Settle(old(Current().nodes), Current().edges, MaxPasses).0
      ensures old(selectedForLink) != Some(nodeId) && !(old(selectedForLink).Some? && Truthy(old(selectedForLink).value)) ==>
        selectedForLink == Some(nodeId) && unchanged(Current())
    {
      if selectedForLink == Some(nodeId) {
        selectedForLink := None;
      } else if selectedForLink.Some? && Truthy(selectedForLink.value) {
        var data := GetCurrentData();
        assert data == old(Current()) && data.edges == old(Current().edges);
        AddEdgeToData(data, selectedForLink.value, nodeId);
        assert Current() == data;
        selectedForLink := None;
      } else {
        selectedForLink := Some(nodeId);
      }
    }

    /** Deleting a card of the graph on screen: the card, every edge touching it (the
        others keep their order) and its nested graph go, the selection is cleared if it
        was that card, and the remaining cards are re-ranked. */
    method DeleteNode(nodeId: Id)
      requires Valid()
      modifies this`subgraphs, this`selectedForLink, Current()
      ensures Valid()
      ensures old(Current()).edges == Detach(old(Current().edges), nodeId)
      ensures old(Current()).nodes == Settle(old(Current().nodes) - {nodeId}, old(Current()).edges, MaxPasses).0
      ensures subgraphs == old(subgraphs) - {nodeId}
      ensures selectedForLink == if old(selectedForLink) == Some(nodeId) then None else old(selectedForLink)
    {
      var data := GetCurrentData();
      assert data == old(Current()) && data.nodes == old(Current().nodes) && data.edges == old(Current().edges);
      data.nodes := data.nodes - {nodeId};
      data.edges := Detach(data.edges, nodeId);
      subgraphs := subgraphs - {nodeId};
      if selectedForLink == Some(nodeId) {
        selectedForLink := None;
      }
      var _ := UpdateAutoRanking(data);
    }

    /** A double click on an empty cell: a card with an empty label is put in that cell
        of the graph on screen, under the id stamped with the clock reading `now`, without
        re-ranking; the returned edit finishes or cancels it. */
    method CreateNodeInline(gridX: int, gridY: int, now: nat) returns (input: LabelInput)
      modifies Current()
      ensures fresh(input) && input.data == old(Current()) && input.id == Stamp(now) && !input.finalized
      ensures input.data.nodes == old(Current().nodes)[Stamp(now) := Card(Stamp(now), "", gridX, gridY, 0)]
      ensures input.data.edges == old(Current().edges)
    {
      var id := Stamp(now);
      var data := GetCurrentData();
      assert data == old(Current()) && data.nodes == old(Current().nodes) && data.edges == old(Current().edges);
      data.nodes := data.nodes[id := Card(id, "", gridX, gridY, 0)];
      input := new LabelInput(data, id);
    }
  }

  /** The inline label editor of one new card, with the state its handlers share. */
  class LabelInput {
    const data: GraphData
    const id: Id
    var finalized: bool

    constructor(data: GraphData, id: Id)
      ensures this.data == data && this.id == id && !finalized
    {
      this.data := data;
      this.id := id;
      finalized := false;
    }

    /** Enter or leaving the field: the first time, if the card still exists, it gets the
        typed label and the graph it was created in is re-ranked; later calls do nothing. */
    method Finalize(ui: GraphUI, typed: string)
      modifies this`finalized, data
      ensures finalized
      ensures old(finalized) || id !in old(data.nodes) ==> unchanged(data)
      ensures !old(finalized) && id in old(data.nodes) ==>
        data.edges == old(data.edges) &&
        data.nodes == Settle(old(data.nodes)[id := old(data.nodes)[id].(caption := NodeLabel(typed))], old(data.edges), MaxPasses).0
    {
      if finalized {
        return;
      }
      finalized := true;
      var caption := NodeLabel(typed);
      var node := Lookup(data.nodes, id);
      if node.Some? {
        data.nodes := data.nodes[id := node.value.(caption := caption)];
        var _ := ui.UpdateAutoRanking(data);
      }
    }

    /** Escape: the edit is marked finished and the card is deleted from whatever graph
        is on screen now. */
    method Cancel(ui: GraphUI)
      requires ui.Valid()
      modifies this`finalized, ui`subgraphs, ui`selectedForLink, ui.Current()
      ensures finalized && ui.Valid()
      ensures old(ui.Current()).edges == Detach(old(ui.Current().edges), id)
      ensures old(ui.Current()).nodes == Settle(old(ui.Current().nodes) - {id}, old(ui.Current()).edges, MaxPasses).0
      ensures ui.subgraphs == old(ui.subgraphs) - {id}
      ensures ui.selectedForLink == if old(ui.selectedForLink) == Some(id) then None else old(ui.selectedForLink)
    {
      finalized := true;
      ui.DeleteNode(id);
    }
  }
}

=== FILE: hover_input.dfy ===
/** The hover tracking of the third prototype (`src3/InputManager.ts`, with the nodes of
    `src3/Node.ts` and the application of `src3/App.ts`): on every pointer move the id of
    the node under the pointer is compared with the last one seen, and only a change is
    recorded, announced and shown by lighting exactly the nodes with the new id. Picking
    is an input: the nodes whose meshes the ray crosses, nearest first. The console line
    announcing a change is kept as a log of the ids announced. */
module HoverInput {
  import opened Common

  /** A node of the scene: its id and whether its mesh glows (the emissive colour set
      by `setHover`). */
  class HoverNode {
    const id: Id
    var hovered: bool

    /** A new node does not glow. */
    constructor(id: Id)
      ensures this.id == id && !hovered
    {
      this.id := id;
      hovered := false;
    }
  }

  /** The application: its nodes and the id it reports as hovered. */
  class HoverApp {
    const nodes: seq<HoverNode>
    var hoveredNodeId: Option<Id>

    /** Two fresh nodes `node_A` and `node_B`, neither lit, and nothing hovered. */
    constructor()
      ensures |nodes| == 2 && nodes[0].id == "node_A" && nodes[1].id == "node_B"
      ensures fresh(nodes[0]) && fresh(nodes[1]) && nodes[0] != nodes[1]
      ensures !nodes[0].hovered && !nodes[1].hovered && hoveredNodeId == None
    {
      var a := new HoverNode("node_A");
      var b := new HoverNode("node_B");
      nodes := [a, b];
      hoveredNodeId := None;
    }
  }

  /** The id under the pointer: that of the nearest node hit, or none on a miss. */
  function PickedId(hits: seq<HoverNode>): (r: Option<Id>)
    ensures r.None? <==> hits == []
    ensures r.Some? ==> r.value == hits[0].id
  {
    if |hits| > 0 then Some(hits[0].id) else None
  }

  /** What the input manager remembers: the last id seen and the ids announced. */
  datatype Tracker = Tracker(last: Option<Id>, log: seq<Option<Id>>)

  /** The tracker after a pointer move onto `picked`. */
  function Move(t: Tracker, picked: Option<Id>): (r: Tracker)
    ensures r.last == picked
    ensures r == t <==> picked == t.last
    ensures |t.log| <= |r.log| <= |t.log| + 1 && r.log[..|t.log|] == t.log
    ensures |r.log| > |t.log| ==> r.log[|t.log|] == picked
  {
    if picked != t.last then Tracker(picked, t.log + [picked]) else t
  }

  /** A second move onto the same id changes nothing and announces nothing. */
  lemma MoveIdempotent(t: Tracker, picked: Option<Id>)
    ensures Move(Move(t, picked), picked) == Move(t, picked)
  {
  }

  /** The moves a sequence of picks makes, from the first on. */
  function Moves(t: Tracker, picks: seq<Option<Id>>): (r: Tracker)
    ensures picks != [] ==> r.last == picks[|picks| - 1]
    ensures picks == [] ==> r == t
    decreases |picks|
  {
    if picks == [] then t else Moves(Move(t, picks[0]), picks[1..])
  }

  /** Starting from nothing hovered: A then B ends on B; A then empty space ends on
      none; A, empty space and A again ends on A, announcing A, none and A. */
  lemma HoverSequences(a: Id, b: Id)
    requires a != b
    ensures Moves(Tracker(None, []), [Some(a), Some(b)]).last == Some(b)
    ensures Moves(Tracker(None, []), [Some(a), None]).last == None
    ensures Moves(Tracker(None, []), [Some(a), None, Some(a)]) == Tracker(Some(a), [Some(a), None, Some(a)])
  {
    assert Moves(Tracker(None, []), [Some(a), None, Some(a)])
        == Moves(Tracker(Some(a), [Some(a)]), [None, Some(a)])
        == Moves(Tracker(None, [Some(a), None]), [Some(a)]);
  }

  /** Exactly the nodes carrying the id `picked` glow. */
  ghost predicate Lit(nodes: seq<HoverNode>, picked: Option<Id>)
    reads set n | n in nodes
  {
    forall i :: 0 <= i < |nodes| ==> nodes[i].hovered == (picked == Some(nodes[i].id))
  }

  /** With distinct ids, lighting the id of one of the nodes lights that node and no
      other; lighting no id lights none. */
  lemma ExactlyOneLit(nodes: seq<HoverNode>, picked: Option<Id>)
    requires Lit(nodes, picked)
    requires forall i, j :: 0 <= i < j < |nodes| ==> nodes[i].id != nodes[j].id
    ensures picked.None? ==> forall i :: 0 <= i < |nodes| ==> !nodes[i].hovered
    ensures forall i, j :: 0 <= i < |nodes| && 0 <= j < |nodes| && nodes[i].hovered && nodes[j].hovered ==> i == j
    ensures forall j :: 0 <= j < |nodes| && picked == Some(nodes[j].id) ==> nodes[j].hovered
  {
    forall i, j | 0 <= i < |nodes| && 0 <= j < |nodes| && nodes[i].hovered && nodes[j].hovered
      ensures i == j
    {
      assert nodes[i].id == picked.value == nodes[j].id;
    }
  }

  class InputManager {
    const app: HoverApp
    var lastHoveredId: Option<Id>
    /** The ids announced by the "Hover change" console line, oldest first. */
    var log: seq<Option<Id>>

    /** The remembered state as a value. */
    function State(): Tracker
      reads this`lastHoveredId, this`log
    {
      Tracker(lastHoveredId, log)
    }

    /** The application reports the last id seen, and exactly the nodes with that id
        glow. */
    ghost predicate Valid()
      reads this`lastHoveredId, app`hoveredNodeId, set n | n in app.nodes
    {
      app.hoveredNodeId == lastHoveredId && Lit(app.nodes, lastHoveredId)
    }

    /** The manager of an application that reports nothing hovered and lights nothing:
        nothing seen, nothing announced. */
    constructor(app: HoverApp)
      requires app.hoveredNodeId == None && forall i :: 0 <= i < |app.nodes| ==> !app.nodes[i].hovered
      ensures this.app == app && lastHoveredId == None && log == [] && Valid()
    {
      this.app := app;
      lastHoveredId := None;
      log := [];
    }

    /** `onMouseMove` with the ray crossing `hits`: the tracker moves onto the picked id;
        when it changed, the application reports it and exactly the nodes with that id
        glow, and otherwise nothing else changes either. */
    method OnMouseMove(hits: seq<HoverNode>)
      requires Valid()
      modifies this`lastHoveredId, this`log, app`hoveredNodeId, (set n | n in app.nodes)`hovered
      ensures Valid() && State() == Move(old(State()), PickedId(hits))
      ensures PickedId(hits) == old(lastHoveredId) ==>
        app.hoveredNodeId == old(app.hoveredNodeId) && forall n :: n in app.nodes ==> n.hovered == old(n.hovered)
    {
      var current := PickedId(hits);
      if current != lastHoveredId {
        lastHoveredId := current;
        app.hoveredNodeId := current;
        log := log + [current];
        LightUp(app.nodes, current);
      }
    }
  }

  /** The `forEach` calling `setHover(node.id === currentHoveredId)` on every node. */
  method LightUp(nodes: seq<HoverNode>, picked: Option<Id>)
    modifies (set n | n in nodes)`hovered
    ensures Lit(nodes, picked)
  {
    for i := 0 to |nodes|
      invariant forall j :: 0 <= j < i ==> nodes[j].hovered == (picked == Some(nodes[j].id))
    {
      nodes[i].hovered := picked == Some(nodes[i].id);
    }
  }
}

=== FILE: navigation.dfy ===
/** The navigation path of `src/Navigator.ts`: the ids of the nodes dived into (`path`),
    the ids scrubbed back out of (`history`, for scrubbing forward again), the height of
    the layer in view (`currentY`) and the camera it places. A node is given by its id
    and the world position of its mesh. An id is a string, and like the source the
    model treats the empty string as "no id" where the source tests an id for truth. */
module Navigation {
  import opened Common

  /** The two stacks of the navigator. */
  datatype Stacks = Stacks(path: seq<Id>, history: seq<Id>)

  /** The stacks after `scrub(delta)`: scrolling up (`delta < 0`) with a non-empty path
      moves the last path id to the end of the history, scrolling down (`delta > 0`) with
      a non-empty history moves the last history id back to the end of the path; anything
      else leaves the stacks alone. An empty id taken off either stack is dropped. */
  function ScrubStacks(s: Stacks, delta: real): (r: Stacks)
    ensures |r.path| + |r.history| <= |s.path| + |s.history|
    ensures delta == 0.0 ==> r == s
    ensures delta < 0.0 && s.path != [] ==> r.path == s.path[..|s.path| - 1]
    ensures delta > 0.0 && s.history != [] ==> r.history == s.history[..|s.history| - 1]
  {
    if delta < 0.0 && |s.path| > 0 then
      var popped := s.path[|s.path| - 1];
      Stacks(s.path[..|s.path| - 1], if Truthy(popped) then s.history + [popped] else s.history)
    else if delta > 0.0 && |s.history| > 0 then
      var nodeId := s.history[|s.history| - 1];
      Stacks(if Truthy(nodeId) then s.path + [nodeId] else s.path, s.history[..|s.history| - 1])
    else s
  }

  /** Scrolling up with an empty path, or down with an empty history, does nothing. */
  lemma ScrubAtEnds(s: Stacks, delta: real)
    requires (delta < 0.0 && s.path == []) || (delta > 0.0 && s.history == [])
    ensures ScrubStacks(s, delta) == s
  {
  }

  /** A scrub moves one id from one stack to the other, so the ids on both stacks
      together stay as many as they were, unless the id moved is the empty one, which
      is lost. */
  lemma ScrubKeepsCount(s: Stacks, delta: real)
    ensures var r := ScrubStacks(s, delta);
      |r.path| + |r.history| == |s.path| + |s.history| ||
      (|r.path| + |r.history| == |s.path| + |s.history| - 1 &&
       ((delta < 0.0 && !Truthy(s.path[|s.path| - 1])) || (delta > 0.0 && !Truthy(s.history[|s.history| - 1]))))
    ensures var r := ScrubStacks(s, delta);
      multiset(r.path) + multiset(r.history) <= multiset(s.path) + multiset(s.history)
  {
    var r := ScrubStacks(s, delta);
    if delta < 0.0 && |s.path| > 0 {
      assert s.path == s.path[..|s.path| - 1] + [s.path[|s.path| - 1]];
    } else if delta > 0.0 && |s.history| > 0 {
      assert s.history == s.history[..|s.history| - 1] + [s.history[|s.history| - 1]];
    }
  }

  /** Scrolling up and then down again restores both stacks, when the id moved out is
      a real one; likewise scrolling down and then up. */
  lemma ScrubRoundTrip(s: Stacks, up: real, down: real)
    requires up < 0.0 < down
    ensures s.path != [] && Truthy(s.path[|s.path| - 1]) ==> ScrubStacks(ScrubStacks(s, up), down) == s
    ensures s.history != [] && Truthy(s.history[|s.history| - 1]) ==> ScrubStacks(ScrubStacks(s, down), up) == s
  {
    if s.path != [] && Truthy(s.path[|s.path| - 1]) {
      assert s.path[..|s.path| - 1] + [s.path[|s.path| - 1]] == s.path;
    }
    if s.history != [] && Truthy(s.history[|s.history| - 1]) {
      assert s.history[..|s.history| - 1] + [s.history[|s.history| - 1]] == s.history;
    }
  }

  /** Scrolling up over an empty id drops it: scrolling down again cannot bring it back. */
  lemma ScrubDropsEmptyId(prefix: seq<Id>, up: real, down: real)
    requires up < 0.0 < down
    ensures ScrubStacks(Stacks(prefix + [""], []), up) == Stacks(prefix, [])
    ensures ScrubStacks(ScrubStacks(Stacks(prefix + [""], []), up), down) != Stacks(prefix + [""], [])
  {
    assert (prefix + [""])[..|prefix|] == prefix;
    assert |prefix| != |prefix + [""]|;
  }

  class Navigator {
    var path: seq<Id>
    var history: seq<Id>
    var currentY: real
    /** `camera.position`. */
    var position: Vec3
    /** The point the camera was last told to look at. */
    var lookAt: Vec3

    /** The stacks as a value. */
    function State(): Stacks
      reads this`path, this`history
    {
      Stacks(path, history)
    }

    /** A navigator for a camera at `position` looking at `lookAt`: both stacks empty,
        at height 0. */
    constructor(position: Vec3, lookAt: Vec3)
      ensures path == [] && history == [] && currentY == 0.0
      ensures this.position == position && this.lookAt == lookAt
    {
      path := [];
      history := [];
      currentY := 0.0;
      this.position := position;
      this.lookAt := lookAt;
    }

    /** `dive(node)` for a node `id` whose mesh is at `world`: the id goes on the path,
        the history is forgotten, and the camera looks at the point 20 below the node
        from 10 above and 40 behind that point, the height of which becomes current. */
    method Dive(id: Id, world: Vec3)
      modifies this
      ensures path == old(path) + [id] && history == []
      ensures lookAt == world.Sub(Vec3(0.0, 20.0, 0.0)) && currentY == lookAt.y
      ensures position == lookAt.Add(Vec3(0.0, 10.0, 40.0))
    {
      path := path + [id];
      history := [];
      position := Vec3(world.x, world.y - 10.0, world.z + 40.0);
      lookAt := Vec3(world.x, world.y - 20.0, world.z);
      currentY := world.y - 20.0;
    }

    /** `scrub(delta)`: the stacks change as `ScrubStacks` says. Scrolling up out of a
        layer shows the root from (0, 30, 60) at height 0; scrolling down into a real
        id shows the layer at -20 from (0, -10, 40); scrolling down onto an empty id
        only drops it, and a scroll with nothing to do changes nothing. */
    method Scrub(delta: real)
      modifies this
      ensures State() == ScrubStacks(old(State()), delta)
      ensures delta < 0.0 && old(path) != [] ==>
        position == Vec3(0.0, 30.0, 60.0) && lookAt == Vec3(0.0, 0.0, 0.0) && currentY == 0.0
      ensures delta > 0.0 && old(history) != [] && Truthy(old(history)[|old(history)| - 1]) ==>
        position == Vec3(0.0, -10.0, 40.0) && lookAt == Vec3(0.0, -20.0, 0.0) && currentY == -20.0
      ensures !(delta < 0.0 && old(path) != []) &&
              !(delta > 0.0 && old(history) != [] && Truthy(old(history)[|old(history)| - 1])) ==>
        position == old(position) && lookAt == old(lookAt) && currentY == old(currentY)
    {
      if delta < 0.0 && |path| > 0 {
        var popped := path[|path| - 1];
        path := path[..|path| - 1];
        if Truthy(popped) {
          history := history + [popped];
        }
        position := Vec3(0.0, 30.0, 60.0);
        lookAt := Vec3(0.0, 0.0, 0.0);
        currentY := 0.0;
      } else if delta > 0.0 && |history| > 0 {
        var nodeId := history[|history| - 1];
        history := history[..|history| - 1];
        if Truthy(nodeId) {
          path := path + [nodeId];
          position := Vec3(0.0, -10.0, 40.0);
          lookAt := Vec3(0.0, -20.0, 0.0);
          currentY := -20.0;
        }
      }
    }
  }

  /** A dive into a real id followed by a scroll up leaves the path as it was before
      the dive, with that id as the whole history, at the height of the root. */
  method DiveThenScrubUp(nav: Navigator, id: Id, world: Vec3, up: real)
    requires Truthy(id) && up < 0.0
    modifies nav
    ensures nav.path == old(nav.path) && nav.history == [id] && nav.currentY == 0.0
  {
    nav.Dive(id, world);
    nav.Scrub(up);
    assert (old(nav.path) + [id])[..|old(nav.path)|] == old(nav.path);
  }
}

=== FILE: planes.dfy ===
/** The second prototype's graph: `src/GraphPlane.ts` holds a plane's nodes and
    links, `src/GraphNode.ts` a node with its rank, mesh position, hover glow and lazy
    sub-plane, and `src2/LayoutEngine.ts` ranks and places the nodes of a plane and
    of every plane below it. Links hold node objects, not ids, and the rank lives in
    each node's `rank` field. */
module Planes {
  import opened Common
  import opened Ranking

  /** A `GraphLink`: the two node objects it joins. */
  type Link = Edge<GraphNode>

  class GraphNode {
    const id: Id
    const title: string
    var rank: nat
    /** `mesh.position.x` and `mesh.position.z`. */
    var x: real
    var z: real
    var subPlane: GraphPlane?
    /** The material's `emissiveIntensity`, which hover detection reads as a flag. */
    var emissiveIntensity: real

    /** A new node has rank 0, no sub-plane and the resting glow 0.5. */
    constructor(id: Id, title: string)
      ensures this.id == id && this.title == title
      ensures rank == 0 && subPlane == null && emissiveIntensity == 0.5
      ensures x == 0.0 && z == 0.0
    {
      this.id := id;
      this.title := title;
      rank := 0;
      x := 0.0;
      z := 0.0;
      subPlane := null;
      emissiveIntensity := 0.5;
    }

    /** Whether the node glows as hovered (`emissiveIntensity > 1.0`). */
    predicate Lit()
      reads this
    {
      emissiveIntensity > 1.0
    }

    /** The sub-plane, if there is one, as a set. */
    ghost function SubPlanes(): set<GraphPlane>
      reads this`subPlane
    {
      if subPlane == null then {} else {subPlane}
    }

    /** `setHover`: the glow becomes 2.0 or 0.5, and an existing sub-plane is shown
        exactly while the node is hovered; nothing else of the sub-plane changes. */
    method SetHover(active: bool)
      modifies this`emissiveIntensity, SubPlanes()`visible
      ensures emissiveIntensity == if active then 2.0 else 0.5
      ensures Lit() <==> active
      ensures subPlane != null ==> subPlane.visible == active
    {
      if active {
        emissiveIntensity := 2.0;
        if subPlane != null {
          subPlane.visible := true;
        }
      } else {
        emissiveIntensity := 0.5;
        if subPlane != null {
          subPlane.visible := false;
        }
      }
    }

    /** `ensureSubLayer`: the first call creates a hidden, empty plane `'<id>_sub'`
        20 units down; every call returns that same plane. */
    method EnsureSubLayer() returns (p: GraphPlane)
      modifies this`subPlane
      ensures subPlane == p
      ensures old(subPlane) != null ==> p == old(subPlane)
      ensures old(subPlane) == null ==>
        fresh(p) && p.Valid() && p.Planes == {p} && p.Nodes == {} &&
        p.id == id + "_sub" && p.yOffset == -20.0 && !p.visible &&
        p.nodes == map[] && p.order == [] && p.links == []
    {
      if subPlane == null {
        var q := new GraphPlane(id + "_sub", -20.0);
        q.visible := false;
        subPlane := q;
      }
      p := subPlane;
    }
  }

  /** Two planes, when both exist, share no plane and no node below them. */
  ghost predicate Apart(p: GraphPlane, q: GraphPlane)
    reads p, q
  {
    p.Planes !! q.Planes && p.Nodes !! q.Nodes
  }

  /** The rank field of every node of `vs`. */
  ghost function Ranks(vs: set<GraphNode>): (r: map<GraphNode, nat>)
    reads vs`rank
    ensures r.Keys == vs && forall n :: n in vs ==> r[n] == n.rank
  {
    map n | n in vs :: n.rank
  }

  class GraphPlane {
    const id: Id
    const yOffset: real
    /** The insertion order of `nodes`. */
    var order: seq<Id>
    var nodes: map<Id, GraphNode>
    var links: seq<Link>
    /** `group.visible`. */
    var visible: bool
    /** Every node this plane's `addNode` created: the stored ones and those a later
        `addNode` with the same id replaced, which links may still hold. */
    ghost var Own: set<GraphNode>
    /** This plane and every plane below its stored nodes. */
    ghost var Planes: set<GraphPlane>
    /** The nodes of all those planes. */
    ghost var Nodes: set<GraphNode>

    /** Each node is stored under its own id and listed once in the insertion order,
        every link joins two nodes of this plane, the links are acyclic, and the
        planes below distinct stored nodes are valid and share nothing with this
        plane or with each other: a finite tree. */
    ghost predicate Valid()
      reads this, Planes, Nodes`subPlane
      decreases Planes
    {
      this in Planes && Own <= Nodes && Stored() && Linked() &&
      (forall k :: k in Subs() ==>
        Subs()[k] in Planes && Subs()[k].Planes <= Planes && this !in Subs()[k].Planes &&
        Subs()[k].Nodes <= Nodes && Own !! Subs()[k].Nodes && Subs()[k].Valid()) &&
      (forall k, k' {:trigger Apart(Subs()[k], Subs()[k'])} ::
        k in Subs() && k' in Subs() && k != k' ==> Apart(Subs()[k], Subs()[k']))
    }

    /** The planes below the stored nodes that have one, by node id. */
    ghost function Subs(): (s: map<Id, GraphPlane>)
      reads this, nodes.Values`subPlane
      ensures forall k :: k in s <==> k in nodes && nodes[k].subPlane != null
      ensures forall k :: k in s ==> s[k] == nodes[k].subPlane
    {
      map k | k in nodes && nodes[k].subPlane != null :: nodes[k].subPlane
    }

    /** Each stored node is kept under its own id, was created by this plane, and is
        listed once in the insertion order. */
    ghost predicate Stored()
      reads this
    {
      Distinct(order) && (forall k :: k in nodes <==> k in order) &&
      (forall k :: k in nodes ==> nodes[k] in Own && nodes[k].id == k)
    }

    /** Every link joins two nodes of this plane, and the links form no cycle. */
    ghost predicate Linked()
      reads this
    {
      (forall l :: l in links ==> l.from in Own && l.to in Own) && Acyclic(links)
    }

    /** Every node this plane ever created is still stored: no `addNode` replaced one. */
    ghost predicate NoStale()
      reads this
    {
      forall n :: n in Own ==> exists k :: k in nodes && nodes[k] == n
    }

    /** The ranks of the stored nodes, in insertion order. */
    ghost function RankList(): (rs: seq<nat>)
      reads this, Own`rank
      requires forall k :: k in order ==> k in nodes && nodes[k] in Own
      ensures |rs| == |order| && forall i :: 0 <= i < |order| ==> rs[i] == nodes[order[i]].rank
    {
      var rm, o, ns := Ranks(Own), order, nodes;
      seq(|o|, i requires 0 <= i < |o| && o[i] in ns && ns[o[i]] in rm => rm[ns[o[i]]])
    }

    /** The layout of `LayoutEngine.apply` on this plane alone: the links are a
        fixpoint of the relaxation, a stored node no link enters has rank 0, and the
        i-th stored node sits at x = 10 * rank, z = 5 * (number of earlier stored
        nodes of its rank). */
    ghost predicate LaidOut()
      reads this, Own
    {
      (forall k :: k in order ==> k in nodes) && (forall k :: k in nodes ==> nodes[k] in Own) &&
      IsFixpoint(Ranks(Own), links) &&
      (forall k :: k in nodes && !HasIncoming(links, nodes[k]) ==> nodes[k].rank == 0) &&
      forall i :: 0 <= i < |order| ==> Stacked(nodes[order[i]].x, nodes[order[i]].z, RankList(), i)
    }

    /** An empty plane; its group is visible, as a new three.js group is. */
    constructor(id: Id, yOffset: real)
      ensures Valid() && LaidOut() && Planes == {this} && Nodes == {} && Own == {}
      ensures this.id == id && this.yOffset == yOffset
      ensures order == [] && nodes == map[] && links == [] && visible
    {
      this.id := id;
      this.yOffset := yOffset;
      order := [];
      nodes := map[];
      links := [];
      visible := true;
      Own := {};
      Planes := {this};
      Nodes := {};
      new;
      assert Numbering<GraphNode>(map[], []);
    }

    /** `addNode`: a fresh node under `nid`, replacing any node stored there (links
        to the replaced node stay), then a layout of this plane and those below. */
    method AddNode(nid: Id, title: string) returns (node: GraphNode)
      requires Valid()
      modifies this, Nodes`rank, Nodes`x, Nodes`z
      ensures Valid() && TreeLaidOut(this)
      ensures fresh(node) && node.id == nid && node.title == title
      ensures node.subPlane == null && node.emissiveIntensity == 0.5
      ensures Nodes == old(Nodes) + {node} && Own == old(Own) + {node} && Planes == old(Planes)
      ensures nodes == old(nodes)[nid := node] && links == old(links)
      ensures order == if nid in old(nodes) then old(order) else old(order) + [nid]
      ensures visible == old(visible)
    {
      node := new GraphNode(nid, title);
      Store(node);
      Apply(this);
    }

    /** `this.nodes.set(id, node)` for a fresh node. */
    method Store(node: GraphNode)
      requires Valid() && node !in Nodes && node.subPlane == null
      modifies this
      ensures Valid() && Nodes == old(Nodes) + {node} && Own == old(Own) + {node}
      ensures nodes == old(nodes)[node.id := node] && links == old(links)
      ensures order == if node.id in old(nodes) then old(order) else old(order) + [node.id]
      ensures visible == old(visible) && Planes == old(Planes)
    {
      if node.id !in nodes {
        order := order + [node.id];
      }
      nodes := nodes[node.id := node];
      Own := Own + {node};
      Nodes := Nodes + {node};
      SubsAfterStore(this);
      Revalidate(this);
    }

    /** `addLink`: when both ids are stored, appends one link between the stored
        nodes, duplicates and self-loops included, and lays the planes out again;
        otherwise does nothing. */
    method AddLink(fromId: Id, toId: Id)
      requires Valid()
      requires fromId in nodes && toId in nodes ==> Acyclic(links + [Edge(nodes[fromId], nodes[toId])])
      modifies this`links, Nodes`rank, Nodes`x, Nodes`z
      ensures Valid() && nodes == old(nodes) && order == old(order) && visible == old(visible)
      ensures Nodes == old(Nodes) && Planes == old(Planes)
      ensures fromId in nodes && toId in nodes ==>
        links == old(links) + [Edge(nodes[fromId], nodes[toId])] && TreeLaidOut(this)
      ensures !(fromId in nodes && toId in nodes) ==> links == old(links) && unchanged(old(Nodes))
    {
      if fromId in nodes && toId in nodes {
        Connect(Edge(nodes[fromId], nodes[toId]));
      }
    }

    /** The successful branch of `addLink`: the push, then the layout. */
    method Connect(l: Link)
      requires Valid() && l.from in Own && l.to in Own && Acyclic(links + [l])
      modifies this`links, Nodes`rank, Nodes`x, Nodes`z
      ensures Valid() && TreeLaidOut(this) && links == old(links) + [l]
      ensures unchanged(this`nodes, this`order, this`visible, this`Nodes, this`Planes)
    {
      Link(l);
      Apply(this);
    }

    /** `this.links.push(link)` for a link between two nodes of this plane. */
    method Link(l: Link)
      requires Valid() && l.from in Own && l.to in Own && Acyclic(links + [l])
      modifies this`links
      ensures Valid() && links == old(links) + [l]
    {
      links := links + [l];
      Revalidate(this);
    }

    /** `this.nodes.get(nid)!.ensureSubLayer()`, as the second prototype's set-up calls
        it, with the plane's record of the planes below brought up to date. */
    method EnsureSubLayerAt(nid: Id) returns (p: GraphPlane)
      requires Valid() && nid in nodes
      modifies this, {nodes[nid]}`subPlane
      ensures nodes == old(nodes) && order == old(order) && links == old(links) && visible == old(visible)
      ensures Valid() && p == nodes[nid].subPlane && Nodes == old(Nodes) && Own == old(Own)
      ensures old(nodes[nid].subPlane) != null ==> p == old(nodes[nid].subPlane) && Planes == old(Planes)
      ensures old(nodes[nid].subPlane) == null ==>
        fresh(p) && p.Valid() && p.Planes == {p} && p.Nodes == {} && Planes == old(Planes) + {p} &&
        p.id == nid + "_sub" && p.yOffset == -20.0 && !p.visible &&
        p.nodes == map[] && p.order == [] && p.links == []
    {
      var node := nodes[nid];
      if node.subPlane == null {
        p := node.EnsureSubLayer();
        Planes := Planes + {p};
        Graft((this, nid));
      } else {
        p := node.EnsureSubLayer();
      }
    }

    /** `sub.addNode(cid, title)` on the sub-plane `sub` of the stored node `nid`, as
        the second prototype's set-up calls it, with this plane's record of the nodes
        below taking in the new node. */
    method AddNodeBelow(nid: Id, sub: GraphPlane, cid: Id, title: string) returns (node: GraphNode)
      requires Valid() && nid in nodes && nodes[nid].subPlane == sub
      modifies this`Nodes, sub, sub.Nodes`rank, sub.Nodes`x, sub.Nodes`z
      ensures unchanged(this`nodes, this`order, this`links, this`visible, this`Own, this`Planes)
      ensures Valid() && Nodes == old(Nodes) + {node} && unchanged(old(Nodes)`subPlane)
      ensures fresh(node) && node.id == cid && node.title == title && node.subPlane == null
      ensures sub.Valid() && sub.nodes == old(sub.nodes)[cid := node] && sub.links == old(sub.links)
      ensures sub.order == if cid in old(sub.nodes) then old(sub.order) else old(sub.order) + [cid]
      ensures sub.Own == old(sub.Own) + {node} && sub.Nodes == old(sub.Nodes) + {node} && sub.visible == old(sub.visible)
    {
      assert Subs()[nid] == sub && sub.Valid() && sub in sub.Planes && sub.Nodes <= Nodes;
      node := sub.AddNode(cid, title);
      assert unchanged(old(Nodes)`subPlane);
      Nodes := Nodes + {node};
      Regrow((this, nid));
    }

    /** `sub.addLink(fromId, toId)` on the sub-plane `sub` of the stored node `nid`,
        keeping this plane valid. */
    method AddLinkBelow(nid: Id, sub: GraphPlane, fromId: Id, toId: Id)
      requires Valid() && nid in nodes && nodes[nid].subPlane == sub
      requires fromId in sub.nodes && toId in sub.nodes ==> Acyclic(sub.links + [Edge(sub.nodes[fromId], sub.nodes[toId])])
      modifies sub`links, sub.Nodes`rank, sub.Nodes`x, sub.Nodes`z
      ensures unchanged(this`nodes, this`order, this`links, this`visible, this`Own, this`Planes)
      ensures Valid() && Nodes == old(Nodes) && unchanged(Nodes`subPlane)
      ensures sub.Valid() && sub.nodes == old(sub.nodes) && sub.order == old(sub.order)
      ensures fromId in sub.nodes && toId in sub.nodes ==> sub.links == old(sub.links) + [Edge(sub.nodes[fromId], sub.nodes[toId])]
      ensures !(fromId in sub.nodes && toId in sub.nodes) ==> sub.links == old(sub.links)
    {
      assert sub.Valid() && sub in sub.Planes && sub.Nodes <= Nodes && this !in sub.Planes by {
        assert Subs()[nid] == sub;
      }
      sub.AddLink(fromId, toId);
      Relinked((this, nid));
    }
  }

  /** After a change confined to the plane below the stored node `at.1` of the plane
      `at.0`, whose planes stay the same and whose nodes only grow by nodes new to the
      tree, `at.0` is valid again once its record of the nodes below takes in the new
      ones. */
  twostate lemma Regrow(at: (GraphPlane, Id))
    requires old(at.0.Valid()) && at.1 in old(at.0.nodes) && old(at.0.nodes[at.1].subPlane) != null
    requires unchanged(at.0`nodes, at.0`order, at.0`links, at.0`Own, at.0`Planes)
    requires unchanged((old(at.0.Nodes) - old(at.0.nodes[at.1].subPlane.Nodes))`subPlane)
    requires unchanged(old(at.0.Planes) - old(at.0.nodes[at.1].subPlane.Planes) - {at.0})
    requires var q := old(at.0.nodes[at.1].subPlane);
      q.Valid() && q.Planes == old(q.Planes) && old(q.Nodes) <= q.Nodes &&
      at.0.Nodes == old(at.0.Nodes) + q.Nodes && (q.Nodes - old(q.Nodes)) !! old(at.0.Nodes)
    ensures at.0.Valid()
  {
    var p, nid := at.0, at.1;
    var q := old(p.nodes[nid].subPlane);
    var before := old(p.Subs());
    assert nid in before && before[nid] == q;
    assert old(p.Own !! q.Nodes && q in q.Planes && p !in q.Planes && q.Nodes <= p.Nodes) && old(p.nodes[nid] in p.Own);
    var subs := p.Subs();
    assert subs == before;
    assert (nid, q) in before.Items;
    Siblings((p, nid, q));
    forall k | k in subs
      ensures subs[k] in p.Planes && subs[k].Planes <= p.Planes && p !in subs[k].Planes
      ensures subs[k].Nodes <= p.Nodes && p.Own !! subs[k].Nodes && subs[k].Valid()
    {
      assert old(subs[k] in p.Planes && subs[k].Planes <= p.Planes && p !in subs[k].Planes);
      assert old(subs[k].Nodes <= p.Nodes && p.Own !! subs[k].Nodes);
    }
    forall k, k' | k in subs && k' in subs && k != k' ensures Apart(subs[k], subs[k']) {
      var r, r' := subs[k], subs[k'];
      if k != nid && k' != nid {
        assert old(Apart(p.Subs()[k], p.Subs()[k']));
        assert old(r.Planes !! r'.Planes && r.Nodes !! r'.Nodes);
      } else if k == nid {
        assert old(r'.Nodes <= p.Nodes) && r'.Nodes == old(r'.Nodes);
      } else {
        assert old(r.Nodes <= p.Nodes) && r.Nodes == old(r.Nodes);
      }
    }
  }

  /** The planes below the other stored nodes of a plane `at.0` stay as they were, and
      valid, when only the plane `at.2` below its node `at.1`, the planes below that
      and `at.0` itself changed. */
  /** The case of `Regrow` where the plane below `at.1` kept its planes and its nodes. */
  twostate lemma Relinked(at: (GraphPlane, Id))
    requires old(at.0.Valid()) && at.1 in old(at.0.nodes) && old(at.0.nodes[at.1].subPlane) != null
    requires unchanged(at.0) && unchanged(old(at.0.Nodes)`subPlane)
    requires var q := old(at.0.nodes[at.1].subPlane);
      unchanged(old(at.0.Planes) - {q}) && q.Valid() && q.Planes == old(q.Planes) && q.Nodes == old(q.Nodes)
    ensures at.0.Valid()
  {
    var q := old(at.0.nodes[at.1].subPlane);
    assert old(q.Nodes <= at.0.Nodes && q in q.Planes) by {
      assert old(at.0.Subs()[at.1]) == q;
    }
    assert q.Nodes - old(q.Nodes) == {} && at.0.Nodes == old(at.0.Nodes) + q.Nodes;
    Regrow(at);
  }

  twostate lemma Siblings(at: (GraphPlane, Id, GraphPlane))
    requires old(at.0.Valid()) && (at.1, at.2) in old(at.0.Subs()).Items
    requires unchanged(at.0`nodes)
    requires unchanged((old(at.0.Nodes) - old(at.2.Nodes))`subPlane)
    requires unchanged(old(at.0.Planes) - old(at.2.Planes) - {at.0})
    ensures forall k :: k in old(at.0.Subs()) && k != at.1 ==>
      var r := old(at.0.Subs()[k]);
      unchanged(r) && r.Valid() && r.Planes == old(r.Planes) && r.Nodes == old(r.Nodes) &&
      r.Planes !! old(at.2.Planes) && r.Nodes !! old(at.2.Nodes)
  {
    var p, nid := at.0, at.1;
    var q := old(p.nodes[nid].subPlane);
    var before := old(p.Subs());
    forall k | k in before && k != nid
      ensures unchanged(before[k]) && before[k].Valid()
      ensures before[k].Planes !! old(q.Planes) && before[k].Nodes !! old(q.Nodes)
    {
      var r := before[k];
      assert old(Apart(p.Subs()[k], p.Subs()[nid]));
      assert old(r.Valid()) && old(r in r.Planes) && old(r.Nodes <= p.Nodes && r.Planes <= p.Planes);
      assert r in old(p.Planes) - old(q.Planes) - {p};
      KeepsValid(r);
    }
  }

  /** After a change to a plane's own fields and to the sub-plane links of its own
      nodes, the plane is valid again when its own part of the invariant holds and
      every plane below a stored node was already there, below the same id. */
  twostate lemma Revalidate(p: GraphPlane)
    requires old(p.Valid())
    requires p in p.Planes && p.Own <= p.Nodes && p.Stored() && p.Linked()
    requires old(p.Planes) <= p.Planes && old(p.Nodes) <= p.Nodes && p.Own !! (old(p.Nodes) - old(p.Own))
    requires unchanged(old(p.Planes) - {p})
    requires forall n :: n in old(p.Nodes) - old(p.Own) ==> n.subPlane == old(n.subPlane)
    requires forall k :: k in p.Subs() ==> k in old(p.Subs()) && p.Subs()[k] == old(p.Subs()[k])
    ensures p.Valid()
  {
    var subs := p.Subs();
    forall k | k in subs
      ensures subs[k] in p.Planes && subs[k].Planes <= p.Planes && p !in subs[k].Planes
      ensures subs[k].Nodes <= p.Nodes && p.Own !! subs[k].Nodes && subs[k].Valid()
    {
      var q := subs[k];
      assert old(q.Valid()) && q in old(q.Planes);
      KeepsValid(q);
    }
    forall k, k' | k in subs && k' in subs && k != k' ensures Apart(subs[k], subs[k']) {
      assert old(Apart(p.Subs()[k], p.Subs()[k']));
      assert unchanged(subs[k], subs[k']);
    }
  }

  /** After `ensureSubLayer` gives the stored node `nid`, which had none, a new, empty,
      valid plane, and the plane's records of the planes and nodes below take it in,
      the plane is valid again. */
  twostate lemma Graft(at: (GraphPlane, Id))
    requires at.0.Stored() && at.1 in at.0.nodes
    requires unchanged(at.0`nodes, at.0`order, at.0`links, at.0`Own)
    requires old(at.0.Valid()) && old(at.0.nodes[at.1].subPlane) == null
    requires unchanged(old(at.0.Planes) - {at.0})
    requires forall n :: n in old(at.0.Nodes) && n != at.0.nodes[at.1] ==> n.subPlane == old(n.subPlane)
    requires at.0.nodes[at.1].subPlane != null
    requires at.0.nodes[at.1].subPlane.Valid()
    requires at.0.nodes[at.1].subPlane.Planes == {at.0.nodes[at.1].subPlane}
    requires at.0.nodes[at.1].subPlane.Nodes == {}
    requires at.0.nodes[at.1].subPlane !in old(at.0.Planes)
    requires at.0.Planes == old(at.0.Planes) + {at.0.nodes[at.1].subPlane}
    requires at.0.Nodes == old(at.0.Nodes)
    ensures at.0.Valid()
  {
    var p, nid := at.0, at.1;
    var q := p.nodes[nid].subPlane;
    var subs, before := p.Subs(), old(p.Subs());
    assert subs == before[nid := q];
    forall k | k in subs && k != nid
      ensures subs[k] in p.Planes && subs[k].Planes <= p.Planes && p !in subs[k].Planes
      ensures subs[k].Nodes <= p.Nodes && p.Own !! subs[k].Nodes && subs[k].Valid()
    {
      var r := subs[k];
      assert old(r.Valid()) && r in old(r.Planes);
      KeepsValid(r);
    }
    forall k, k' | k in subs && k' in subs && k != k' ensures Apart(subs[k], subs[k']) {
      if k != nid && k' != nid {
        assert old(Apart(p.Subs()[k], p.Subs()[k']));
        assert unchanged(subs[k], subs[k']);
      } else if k != nid {
        NewIsApart(subs[k], q, old(p.Planes));
      } else {
        NewIsApart(subs[k'], q, old(p.Planes));
      }
    }
  }

  /** When every stored node is either stored as before, with the same sub-plane, or
      has none, every plane below a stored node was there before. */
  twostate lemma SubsAfterStore(p: GraphPlane)
    requires forall k :: k in p.nodes ==>
      p.nodes[k].subPlane == null || (k in old(p.nodes) && p.nodes[k] == old(p.nodes[k]))
    requires forall k :: k in old(p.nodes) ==> old(p.nodes)[k].subPlane == old(p.nodes[k].subPlane)
    ensures forall k :: k in p.Subs() ==> k in old(p.Subs()) && p.Subs()[k] == old(p.Subs()[k])
  {
  }

  /** A new, empty plane outside a set of planes is apart from any plane whose planes
      lie in that set. */
  lemma NewIsApart(q: GraphPlane, r: GraphPlane, seen: set<GraphPlane>)
    requires q.Planes <= seen && r.Planes == {r} && r.Nodes == {} && r !in seen
    ensures Apart(q, r) && Apart(r, q)
  {
  }

  /** The positions of the i-th stored node given the ranks `rs` of all stored nodes:
      x = 10 * rank and z = 5 * the number of earlier nodes of the same rank. */
  ghost predicate Stacked(x: real, z: real, rs: seq<nat>, i: nat)
    requires i < |rs|
  {
    x == (rs[i] * 10) as real && z == (Count(rs[..i], rs[i]) * 5) as real
  }

  /** A plane and every plane below it are laid out. */
  ghost predicate TreeLaidOut(plane: GraphPlane)
    reads plane.Planes, plane.Nodes
    requires plane.Valid()
    decreases plane.Planes
  {
    plane.LaidOut() && forall k :: k in plane.Subs() ==> TreeLaidOut(plane.Subs()[k])
  }

  /** `LayoutEngine.apply(plane)`: lays out the plane's own nodes, then the planes
      below them. Only ranks and positions change. Nodes that a later `addNode`
      replaced keep their old rank as a starting point, so the ranks are exact when
      there are none. */
  method Apply(plane: GraphPlane)
    requires plane.Valid()
    modifies plane.Nodes`rank, plane.Nodes`x, plane.Nodes`z
    decreases plane.Planes, 1
    ensures plane.Valid() && TreeLaidOut(plane)
    ensures plane.NoStale() ==> Exact(Ranks(plane.Own), plane.links)
  {
    ghost var ranks := LayOut(plane);
    ApplyBelow(plane);
    RanksAgree(plane.Own, ranks);
  }

  /** The plane tree of the second prototype's set-up, apart from its layout: the
      chain `node_0 -> node_1 -> node_2` on the root plane, and the link
      `sub_0 -> sub_1` on the sub-plane of `node_0`. */
  ghost predicate SetUpTree(root: GraphPlane, n0: GraphNode, n1: GraphNode, n2: GraphNode, c0: GraphNode, c1: GraphNode)
    reads root, n0`subPlane, n1`subPlane, n2`subPlane, n0.subPlane
  {
    root.id == "root" && root.nodes == map["node_0" := n0, "node_1" := n1, "node_2" := n2] &&
    root.links == [Edge(n0, n1), Edge(n1, n2)] && n1.subPlane == null && n2.subPlane == null &&
    n0.subPlane != null && n0.subPlane.id == "node_0_sub" &&
    n0.subPlane.nodes == map["sub_0" := c0, "sub_1" := c1] && n0.subPlane.links == [Edge(c0, c1)]
  }

  /** The set-up of the second prototype's application: the tree above, then one
      layout pass over all of it, which leaves the root's ranks exact. */
  method StartUp() returns (root: GraphPlane, n0: GraphNode, n1: GraphNode, n2: GraphNode, c0: GraphNode, c1: GraphNode)
    ensures root.Valid() && TreeLaidOut(root) && Exact(Ranks(root.Own), root.links)
    ensures SetUpTree(root, n0, n1, n2, c0, c1)
  {
    root, n0, n1, n2, c0, c1 := Built();
    Apply(root);
  }

  /** The set-up before its layout pass. */
  method Built() returns (root: GraphPlane, n0: GraphNode, n1: GraphNode, n2: GraphNode, c0: GraphNode, c1: GraphNode)
    ensures root.Valid() && root.NoStale() && fresh(root.Nodes)
    ensures SetUpTree(root, n0, n1, n2, c0, c1)
  {
    root, n0, n1, n2, c0, c1 := Nest();
    Distinct3();
    assert root.nodes["node_0"] == n0 && root.nodes["node_1"] == n1 && root.nodes["node_2"] == n2;
  }

  /** The set-up up to the link of the sub-plane of `node_0`. */
  method Nest() returns (root: GraphPlane, n0: GraphNode, n1: GraphNode, n2: GraphNode, c0: GraphNode, c1: GraphNode)
    ensures root.Valid() && root.id == "root" && root.Own == {n0, n1, n2} && fresh(root.Nodes)
    ensures root.nodes == map["node_0" := n0, "node_1" := n1, "node_2" := n2]
    ensures root.links == [Edge(n0, n1), Edge(n1, n2)] && n1.subPlane == n2.subPlane == null
    ensures n0.subPlane != null && n0.subPlane.id == "node_0_sub" && n0.subPlane.nodes == map["sub_0" := c0, "sub_1" := c1]
    ensures n0.subPlane.links == [Edge(c0, c1)]
  {
    var sub;
    root, n0, n1, n2, sub, c0, c1 := Brood();
    Distinct3();
    assert root.nodes["node_0"] == n0 && sub.nodes["sub_0"] == c0 && sub.nodes["sub_1"] == c1;
    ChainAcyclic(c0, c1, n0);
    assert sub.links + [Edge(c0, c1)] == [Edge(c0, c1)];
    root.AddLinkBelow("node_0", sub, "sub_0", "sub_1");
  }

  /** The set-up up to the two nodes of the sub-plane of `node_0`. */
  method Brood() returns (root: GraphPlane, n0: GraphNode, n1: GraphNode, n2: GraphNode, sub: GraphPlane, c0: GraphNode, c1: GraphNode)
    ensures root.Valid() && root.id == "root" && root.Own == {n0, n1, n2} && root.Nodes == {n0, n1, n2, c0, c1}
    ensures fresh(root) && fresh(root.Nodes) && fresh(n0) && fresh(c0) && fresh(c1) && fresh(sub)
    ensures root.nodes == map["node_0" := n0, "node_1" := n1, "node_2" := n2]
    ensures root.links == [Edge(n0, n1), Edge(n1, n2)] && n0.subPlane == sub && n1.subPlane == n2.subPlane == null
    ensures sub.id == "node_0_sub" && sub.nodes == map["sub_0" := c0, "sub_1" := c1] && sub.links == [] && sub.Nodes == {c0, c1} && fresh(sub.Nodes)
    ensures c0 != c1 && c1 != n0 && c0 != n0
  {
    root, n0, n1, n2, sub := Sprout();
    Distinct3();
    assert root.nodes["node_0"] == n0 && fresh(n0);
    c0 := root.AddNodeBelow("node_0", sub, "sub_0", "Child A");
    assert fresh(c0) && sub.Nodes == {c0} && fresh(root.Nodes);
    c1 := root.AddNodeBelow("node_0", sub, "sub_1", "Child B");
    assert fresh(c1) && fresh(root.Nodes);
  }

  /** The root plane of the set-up with the empty sub-plane of `node_0`. */
  method Sprout() returns (root: GraphPlane, n0: GraphNode, n1: GraphNode, n2: GraphNode, sub: GraphPlane)
    ensures root.Valid() && root.id == "root" && root.Own == root.Nodes == {n0, n1, n2}
    ensures root.nodes == map["node_0" := n0, "node_1" := n1, "node_2" := n2]
    ensures root.links == [Edge(n0, n1), Edge(n1, n2)] && n0 != n1 && n1 != n2 && n0 != n2
    ensures n0.subPlane == sub && n1.subPlane == n2.subPlane == null && fresh(root) && fresh(sub) && fresh(root.Nodes)
    ensures sub.id == "node_0_sub" && sub.nodes == map[] && sub.links == [] && sub.Nodes == {}
  {
    root, n0, n1, n2 := Trio();
    Distinct3();
    assert root.nodes["node_0"] == n0;
    sub := root.EnsureSubLayerAt("node_0");
    assert "node_0" + "_sub" == "node_0_sub";
  }

  /** `plane.addLink(fromId, toId)` as the set-up uses it, between two stored nodes;
      the layout it also does is left out, as in `Place`. */
  method Join(plane: GraphPlane, fromId: Id, toId: Id)
    requires plane.Valid() && fromId in plane.nodes && toId in plane.nodes
    requires Acyclic(plane.links + [Edge(plane.nodes[fromId], plane.nodes[toId])])
    modifies plane`links, plane.Nodes`rank, plane.Nodes`x, plane.Nodes`z
    ensures plane.Valid() && plane.links == old(plane.links) + [Edge(plane.nodes[fromId], plane.nodes[toId])]
    ensures plane.nodes == old(plane.nodes) && plane.Nodes == old(plane.Nodes) && plane.Planes == old(plane.Planes)
    ensures plane.Own == old(plane.Own) && unchanged(plane.Nodes`subPlane)
  {
    plane.AddLink(fromId, toId);
  }

  /** The node ids of the set-up differ from each other. */
  lemma Distinct3()
    ensures "node_0" != "node_1" && "node_1" != "node_2" && "node_0" != "node_2" && "sub_0" != "sub_1"
  {
    assert "node_0"[5] == '0' && "node_1"[5] == '1' && "node_2"[5] == '2';
    assert "sub_0"[4] == '0' && "sub_1"[4] == '1';
  }

  /** The root plane of the set-up before its sub-plane: three nodes and two links. */
  method Trio() returns (root: GraphPlane, n0: GraphNode, n1: GraphNode, n2: GraphNode)
    ensures root.Valid() && root.id == "root" && root.Planes == {root} && root.Own == root.Nodes == {n0, n1, n2}
    ensures root.nodes == map["node_0" := n0, "node_1" := n1, "node_2" := n2]
    ensures root.links == [Edge(n0, n1), Edge(n1, n2)] && fresh(root) && fresh(root.Nodes)
    ensures n0 != n1 && n1 != n2 && n0 != n2 && n0.subPlane == n1.subPlane == n2.subPlane == null
  {
    root, n0, n1, n2 := Three();
    Distinct3();
    ChainAcyclic(n0, n1, n2);
    assert root.links + [Edge(n0, n1)] == [Edge(n0, n1)];
    Join(root, "node_0", "node_1");
    assert root.links + [Edge(n1, n2)] == [Edge(n0, n1), Edge(n1, n2)];
    Join(root, "node_1", "node_2");
  }

  /** `plane.addNode(nid, title)` as the set-up uses it: the layout it also does is
      left out, since the set-up ends with a layout pass over the whole tree. */
  method Place(plane: GraphPlane, nid: Id, title: string) returns (node: GraphNode)
    requires plane.Valid()
    modifies plane, plane.Nodes`rank, plane.Nodes`x, plane.Nodes`z
    ensures plane.Valid() && fresh(node) && node.subPlane == null
    ensures plane.Nodes == old(plane.Nodes) + {node} && plane.Own == old(plane.Own) + {node}
    ensures plane.Planes == old(plane.Planes) && plane.links == old(plane.links)
    ensures plane.nodes == old(plane.nodes)[nid := node]
  {
    node := plane.AddNode(nid, title);
  }

  /** The three nodes of the set-up's root plane, before its links. */
  method Three() returns (root: GraphPlane, n0: GraphNode, n1: GraphNode, n2: GraphNode)
    ensures root.Valid() && root.id == "root" && root.Planes == {root} && root.Own == root.Nodes == {n0, n1, n2}
    ensures root.nodes == map["node_0" := n0, "node_1" := n1, "node_2" := n2]
    ensures root.links == [] && fresh(root) && fresh(root.Nodes)
    ensures n0 != n1 && n1 != n2 && n0 != n2 && n0.subPlane == n1.subPlane == n2.subPlane == null
  {
    Distinct3();
    root := new GraphPlane("root", 0.0);
    n0 := Place(root, "node_0", "Start");
    n1 := Place(root, "node_1", "Process");
    n2 := Place(root, "node_2", "End");
  }

  /** The recursion of `apply` into the sub-plane of every stored node, in insertion
      order. It touches no node of the plane itself. */
  method ApplyBelow(plane: GraphPlane)
    requires plane.Valid()
    modifies (plane.Nodes - plane.Own)`rank, (plane.Nodes - plane.Own)`x, (plane.Nodes - plane.Own)`z
    decreases plane.Planes, 0
    ensures plane.Valid() && forall k :: k in plane.Subs() ==> TreeLaidOut(plane.Subs()[k])
  {
    var order, nodes := plane.order, plane.nodes;
    ghost var subs := plane.Subs();
    label entry:
    var i := 0;
    while i < |order|
      invariant 0 <= i <= |order|
      invariant unchanged(plane)
      invariant forall j :: 0 <= j < i && order[j] in subs ==> subs[order[j]].Valid() && TreeLaidOut(subs[order[j]])
    {
      KeepsValid@entry(plane);
      var node := nodes[order[i]];
      if node.subPlane != null {
        ghost var sub := subs[order[i]];
        assert plane.Own !! sub.Nodes;
        forall j | 0 <= j < i && order[j] in subs ensures Apart(subs[order[j]], sub) {
          assert order[j] != order[i];
          assert Apart(plane.Subs()[order[j]], plane.Subs()[order[i]]);
        }
        label before:
        Apply(node.subPlane);
        forall j | 0 <= j < i && order[j] in subs ensures subs[order[j]].Valid() && TreeLaidOut(subs[order[j]]) {
          KeepsTreeLaidOut@before(subs[order[j]]);
        }
      }
      ghost var step := i;
      forall j | 0 <= j <= step && order[j] in subs ensures subs[order[j]].Valid() && TreeLaidOut(subs[order[j]]) {
        if j == step {
        }
      }
      i := i + 1;
    }
    KeepsValid@entry(plane);
    forall k | k in subs ensures TreeLaidOut(subs[k]) {
      var j :| 0 <= j < |order| && order[j] == k;
    }
  }

  /** A plane whose fields and whose nodes' sub-plane links are untouched, with every
      plane below it untouched, stays valid. */
  twostate lemma KeepsValid(p: GraphPlane)
    requires old(p.Valid())
    requires unchanged(p) && unchanged(old(p.Planes))
    requires forall n :: n in old(p.Nodes) ==> n.subPlane == old(n.subPlane)
    ensures p.Valid() && p.Subs() == old(p.Subs())
  {
  }

  /** A plane whose planes and nodes are untouched stays laid out. */
  twostate lemma KeepsTreeLaidOut(q: GraphPlane)
    requires old(q.Valid()) && old(TreeLaidOut(q))
    requires unchanged(q) && unchanged(old(q.Planes)) && unchanged(old(q.Nodes))
    ensures q.Valid() && TreeLaidOut(q)
  {
  }

  /** The plane's own part of `apply`: rank the stored nodes, then place them. */
  method LayOut(plane: GraphPlane) returns (ghost ranks: map<GraphNode, nat>)
    requires plane.Stored() && plane.Linked()
    modifies plane.Own`rank, plane.Own`x, plane.Own`z
    ensures plane.LaidOut() && Mirrors(plane.Own, ranks)
    ensures plane.NoStale() ==> Exact(ranks, plane.links)
  {
    ranks := Rank(plane);
    Position(plane);
    RanksAgree(plane.Own, ranks);
  }

  /** Reset the stored nodes' ranks to 0 and relax the links until a pass changes
      nothing. The result is a fixpoint in which a stored node no link enters has
      rank 0, and it is exact unless some replaced node kept an old rank. */
  method Rank(plane: GraphPlane) returns (ghost ranks: map<GraphNode, nat>)
    requires plane.Stored() && plane.Linked()
    modifies plane.Own`rank
    ensures Mirrors(plane.Own, ranks) && IsFixpoint(ranks, plane.links)
    ensures forall k :: k in plane.nodes && !HasIncoming(plane.links, plane.nodes[k]) ==> Get(ranks, plane.nodes[k]) == 0
    ensures plane.NoStale() ==> Exact(ranks, plane.links)
  {
    ResetRanks(plane);
    ghost var base := Ranks(plane.Own);
    Relax(plane.links, plane.Own);
    ranks := Ranks(plane.Own);
    if plane.NoStale() {
      forall v | v in base ensures base[v] == 0 {
        var k :| k in plane.nodes && plane.nodes[k] == v;
      }
      ZeroBase(base, ranks, plane.links);
    }
    forall k | k in plane.nodes && !HasIncoming(plane.links, plane.nodes[k])
      ensures Get(ranks, plane.nodes[k]) == 0
    {
      Unentered(base, ranks, plane.links, plane.nodes[k]);
    }
  }

  /** `plane.nodes.forEach(node => node.rank = 0)`. */
  method ResetRanks(plane: GraphPlane)
    requires plane.Stored()
    modifies plane.Own`rank
    ensures forall k :: k in plane.nodes ==> plane.nodes[k].rank == 0
    ensures forall n :: n in plane.Own && n !in plane.nodes.Values ==> n.rank == old(n.rank)
  {
    var i := 0;
    while i < |plane.order|
      invariant 0 <= i <= |plane.order|
      invariant forall j :: 0 <= j < i ==> plane.nodes[plane.order[j]].rank == 0
      invariant forall n :: n in plane.Own && n !in plane.nodes.Values ==> n.rank == old(n.rank)
    {
      plane.nodes[plane.order[i]].rank := 0;
      i := i + 1;
    }
    forall k | k in plane.nodes ensures plane.nodes[k].rank == 0 {
      var j :| 0 <= j < |plane.order| && plane.order[j] == k;
    }
  }

  /** `ranks` records the `rank` field of every node of `own` and nothing else. */
  ghost predicate Mirrors(own: set<GraphNode>, ranks: map<GraphNode, nat>)
    reads own`rank
  {
    ranks.Keys == own && forall n :: n in own ==> ranks[n] == n.rank
  }

  /** A map that mirrors the rank fields is the map of the rank fields. */
  lemma RanksAgree(own: set<GraphNode>, ranks: map<GraphNode, nat>)
    requires Mirrors(own, ranks)
    ensures Ranks(own) == ranks
  {
  }

  /** The `while (changed)` loop over the links' `rank` fields. It ends at a fixpoint
      in which every rank above its starting value was produced by a link; with a
      cycle among the links it would never end. */
  method Relax(links: seq<Link>, ghost own: set<GraphNode>)
    requires forall l :: l in links ==> l.from in own && l.to in own
    requires Acyclic(links)
    modifies own`rank
    ensures IsFixpoint(Ranks(own), links)
    ensures SupportedAbove(old(Ranks(own)), Ranks(own), links) && Grows(old(Ranks(own)), Ranks(own))
  {
    ghost var base := Ranks(own);
    ghost var cur := base;
    ghost var numbering :| Numbering(numbering, links);
    ghost var level := LiftedLevel(numbering, links, base);
    var changed := true;
    while changed
      invariant Mirrors(own, cur)
      invariant Below(cur, level) && SupportedAbove(base, cur, links) && Grows(base, cur)
      invariant !changed ==> IsFixpoint(cur, links)
      decreases Gap(links, level, cur), changed
    {
      changed, cur := RelaxPass(links, own, cur, base, level);
    }
    assert cur == Ranks(own);
  }

  /** One `plane.links.forEach` pass: every link whose target does not sit above its
      source lifts the target to one above the source. */
  method RelaxPass(links: seq<Link>, ghost own: set<GraphNode>, ghost cur: map<GraphNode, nat>,
                   ghost base: map<GraphNode, nat>, ghost level: map<GraphNode, nat>)
    returns (changed: bool, ghost next: map<GraphNode, nat>)
    requires forall l :: l in links ==> l.from in own && l.to in own
    requires Mirrors(own, cur) && Levelled(level, links) && Below(cur, level)
    requires SupportedAbove(base, cur, links) && Grows(base, cur)
    modifies own`rank
    ensures Mirrors(own, next)
    ensures Below(next, level) && SupportedAbove(base, next, links) && Grows(base, next)
    ensures !changed ==> next == cur && IsFixpoint(next, links)
    ensures changed ==> Gap(links, level, next) < Gap(links, level, cur)
  {
    next := cur;
    changed := false;
    var j := 0;
    while j < |links|
      invariant 0 <= j <= |links|
      invariant Mirrors(own, next)
      invariant Below(next, level) && SupportedAbove(base, next, links)
      invariant Grows(base, next) && Grows(cur, next)
      invariant !changed ==> next == cur
      invariant !changed ==> forall k :: 0 <= k < j ==> Get(next, links[k].from) < Get(next, links[k].to)
      invariant changed ==> Gap(links, level, next) < Gap(links, level, cur)
    {
      var lifted;
      lifted, next := Visit(links[j], links, own, cur, base, level, next);
      if lifted {
        changed := true;
      }
      j := j + 1;
    }
    if !changed {
      forall l | l in links ensures Get(next, l.from) < Get(next, l.to) {
        var k :| 0 <= k < |links| && links[k] == l;
      }
    }
  }

  /** The pass's callback on one link `l`: when `l.to.rank <= l.from.rank`, set
      `l.to.rank = l.from.rank + 1`. The ranks before are `prev`, after `next`. */
  method Visit(l: Link, ghost links: seq<Link>, ghost own: set<GraphNode>, ghost cur: map<GraphNode, nat>,
               ghost base: map<GraphNode, nat>, ghost level: map<GraphNode, nat>, ghost prev: map<GraphNode, nat>)
    returns (lifted: bool, ghost next: map<GraphNode, nat>)
    requires l in links && l.from in own && l.to in own
    requires Mirrors(own, prev) && Levelled(level, links) && Below(cur, level) && Below(prev, level)
    requires SupportedAbove(base, prev, links) && Grows(base, prev) && Grows(cur, prev)
    modifies l.to`rank
    ensures Mirrors(own, next)
    ensures Below(next, level) && SupportedAbove(base, next, links)
    ensures Grows(base, next) && Grows(cur, next)
    ensures !lifted ==> next == prev && Get(next, l.from) < Get(next, l.to)
    ensures lifted ==> Gap(links, level, next) < Gap(links, level, cur)
  {
    lifted := l.to.rank <= l.from.rank;
    next := prev;
    if lifted {
      RaiseInPass(base, cur, prev, links, level, l);
      l.to.rank := l.from.rank + 1;
      next := prev[l.to := Get(prev, l.from) + 1];
    }
  }

  /** The positioning loop: `rankCounts.get(rank) || 0` earlier nodes of the same rank
      put the node at z = 5 * that count, and x = 10 * rank. */
  method Position(plane: GraphPlane)
    requires plane.Stored()
    modifies plane.Own`x, plane.Own`z
    ensures forall i :: 0 <= i < |plane.order| ==>
      Stacked(plane.nodes[plane.order[i]].x, plane.nodes[plane.order[i]].z, plane.RankList(), i)
  {
    var order, nodes := plane.order, plane.nodes;
    forall j, k | 0 <= j < k < |order| ensures nodes[order[j]] != nodes[order[k]] {
      assert nodes[order[j]].id == order[j] && nodes[order[k]].id == order[k];
    }
    Spread(order, nodes, plane.RankList(), plane.Own);
  }

  /** The loop itself, over the stored nodes in insertion order, whose ranks are `rs`. */
  method Spread(order: seq<Id>, nodes: map<Id, GraphNode>, ghost rs: seq<nat>, ghost own: set<GraphNode>)
    requires |rs| == |order| && forall j :: 0 <= j < |order| ==> order[j] in nodes && nodes[order[j]] in own
    requires forall j :: 0 <= j < |order| ==> nodes[order[j]].rank == rs[j]
    requires forall j, k :: 0 <= j < k < |order| ==> nodes[order[j]] != nodes[order[k]]
    modifies own`x, own`z
    ensures forall j :: 0 <= j < |order| ==> Stacked(nodes[order[j]].x, nodes[order[j]].z, rs, j)
  {
    var rankCounts: map<nat, nat> := map[];
    var i := 0;
    while i < |order|
      invariant 0 <= i <= |order|
      invariant Tallied(rankCounts, rs[..i])
      invariant forall j :: 0 <= j < i ==> Stacked(nodes[order[j]].x, nodes[order[j]].z, rs, j)
    {
      var node := nodes[order[i]];
      var found := Lookup(rankCounts, node.rank);
      var count := if found.Some? && found.value != 0 then found.value else 0;
      node.x := (node.rank * 10) as real;
      node.z := (count * 5) as real;
      CountsStep(rs, rankCounts, i, node.rank, count);
      rankCounts := rankCounts[node.rank := count + 1];
      i := i + 1;
    }
  }

  /** `counts` holds, for every rank, how often it occurs in `rs`; a missing rank
      counts 0. */
  ghost predicate Tallied(counts: map<nat, nat>, rs: seq<nat>) {
    forall r :: Get(counts, r) == Count(rs, r)
  }

  /** Counting the next rank `r` of `rs`, seen `count` times so far, into the table. */
  lemma CountsStep(rs: seq<nat>, counts: map<nat, nat>, i: nat, r: nat, count: nat)
    requires i < |rs| && Tallied(counts, rs[..i]) && r == rs[i] && count == Get(counts, r)
    ensures Tallied(counts[r := count + 1], rs[..i + 1])
  {
    var after := counts[r := count + 1];
    forall r' ensures Get(after, r') == Count(rs[..i + 1], r') {
      CountStep(rs, r', i);
    }
  }
}

=== FILE: ranking.dfy ===
/** The longest-path ranking that every layout variant computes, stated once as a
    specification: what a finished relaxation looks like, why it cannot finish on a
    cyclic edge set, why it is unique on an acyclic one, and how the nodes of one
    rank are spread along z. */
module Ranking {
  import opened Common

  /** An edge as the layout sees it: a pair of nodes, named by id in the first
      prototype and by object in the second. */
  datatype Edge<V> = Edge(from: V, to: V)

  /** `ranks.get(id) ?? 0`: an id without an entry reads as rank 0. */
  function Get<V>(ranks: map<V, nat>, id: V): nat {
    if id in ranks then ranks[id] else 0
  }

  /** Whether some edge ends at `v`. */
  ghost predicate HasIncoming<V>(edges: seq<Edge<V>>, v: V) {
    exists e :: e in edges && e.to == v
  }

  /** The relaxation's exit condition: no edge `e` has `rank(e.to) <= rank(e.from)`. */
  ghost predicate IsFixpoint<V>(ranks: map<V, nat>, edges: seq<Edge<V>>) {
    forall e :: e in edges ==> Get(ranks, e.from) < Get(ranks, e.to)
  }

  /** The rank of `v`, the same value as `Get(ranks, v)`; `Supported` quantifies over
      it so that the ranks of predecessors it mentions do not instantiate it again. */
  ghost function RankOf<V>(ranks: map<V, nat>, v: V): nat {
    Get(ranks, v)
  }

  /** Every positive rank was produced by some edge into that node: it is at most one
      above the rank of that edge's source. */
  ghost predicate Supported<V>(ranks: map<V, nat>, edges: seq<Edge<V>>) {
    SupportedAbove(map[], ranks, edges)
  }

  /** Every rank above its starting value `base` was produced by some edge into that
      node. A relaxation that starts from `base` instead of from all zeros keeps it. */
  ghost predicate SupportedAbove<V>(base: map<V, nat>, ranks: map<V, nat>, edges: seq<Edge<V>>) {
    forall v {:trigger RankOf(ranks, v)} :: v in ranks && RankOf(ranks, v) > Get(base, v) ==>
      exists e :: e in edges && e.to == v && RankOf(ranks, v) <= Get(ranks, e.from) + 1
  }

  /** A finished ranking: a fixpoint in which each positive rank is exactly one above
      the rank of some predecessor, hence one above its highest-ranked predecessor. */
  ghost predicate Exact<V>(ranks: map<V, nat>, edges: seq<Edge<V>>) {
    IsFixpoint(ranks, edges) && Supported(ranks, edges)
  }

  /** `level` numbers every endpoint so that each edge climbs strictly. */
  ghost predicate Levelled<V>(level: map<V, nat>, edges: seq<Edge<V>>) {
    forall e :: e in edges ==> e.from in level && e.to in level && level[e.from] < level[e.to]
  }

  /** An edge set is acyclic exactly when it admits such a numbering (a topological
      order); `CycleIsNotAcyclic` and `FixpointMeansAcyclic` connect it to cycles and
      to the relaxation. */
  ghost predicate Acyclic<V>(edges: seq<Edge<V>>) {
    exists level :: Numbering(level, edges)
  }

  /** A level numbering of exactly the endpoints of `edges`. */
  ghost predicate Numbering<V>(older level: map<V, nat>, edges: seq<Edge<V>>) {
    (forall v :: v in level ==> v in Vertices(edges)) && Levelled(level, edges)
  }

  /** A walk along edges: consecutive ids are joined by an edge. */
  ghost predicate IsPath<V>(p: seq<V>, edges: seq<Edge<V>>) {
    |p| >= 1 && forall i :: 0 <= i < |p| - 1 ==> Edge(p[i], p[i + 1]) in edges
  }

  /** A closed walk of at least one edge; `[v, v]` is a self-loop. */
  ghost predicate IsCycle<V>(p: seq<V>, edges: seq<Edge<V>>) {
    IsPath(p, edges) && |p| >= 2 && p[0] == p[|p| - 1]
  }

  /** Pointwise bound of one rank map by another. */
  ghost predicate Below<V>(ranks: map<V, nat>, bound: map<V, nat>) {
    forall v {:trigger Get(ranks, v)} {:trigger Get(bound, v)} :: v in ranks ==> Get(ranks, v) <= Get(bound, v)
  }

  /** Pointwise order between two successive rank maps. */
  ghost predicate Grows<V>(before: map<V, nat>, after: map<V, nat>) {
    forall v {:trigger Get(before, v)} {:trigger Get(after, v)} :: v in before ==> Get(before, v) <= Get(after, v)
  }

  /** How far the ranks of the edges' targets may still rise before reaching their
      levels; the relaxation loops decrease it on every change. */
  ghost function Gap<V>(edges: seq<Edge<V>>, level: map<V, nat>, ranks: map<V, nat>): nat
    requires Below(ranks, level)
  {
    if edges == [] then 0
    else Get(level, edges[0].to) - Get(ranks, edges[0].to) + Gap(edges[1..], level, ranks)
  }

  /** Raising ranks never increases the gap, and raising the rank of the target of
      some edge `e` decreases it. */
  lemma {:induction false} GapShrinks<V>(edges: seq<Edge<V>>, level: map<V, nat>,
                                      before: map<V, nat>, after: map<V, nat>, e: Edge<V>)
    requires Below(before, level) && Below(after, level) && Grows(before, after)
    ensures Gap(edges, level, after) <= Gap(edges, level, before)
    ensures e in edges && Get(before, e.to) < Get(after, e.to) ==>
              Gap(edges, level, after) < Gap(edges, level, before)
  {
    if edges != [] {
      GapShrinks(edges[1..], level, before, after, e);
      assert Get(before, edges[0].to) <= Get(after, edges[0].to);
      assert e in edges ==> e == edges[0] || e in edges[1..];
    }
  }

  /** One relaxation step `rank(e.to) := rank(e.from) + 1` keeps the ranks below the
      levels and supported above their starting values, and shrinks the gap. */
  lemma Raise<V>(base: map<V, nat>, prev: map<V, nat>, next: map<V, nat>, edges: seq<Edge<V>>,
                 level: map<V, nat>, e: Edge<V>)
    requires Levelled(level, edges) && e in edges
    requires Below(prev, level) && SupportedAbove(base, prev, edges)
    requires Get(prev, e.to) <= Get(prev, e.from) && next == prev[e.to := Get(prev, e.from) + 1]
    ensures Below(next, level) && SupportedAbove(base, next, edges) && Grows(prev, next)
    ensures Gap(edges, level, next) < Gap(edges, level, prev)
  {
    forall v | v in next && RankOf(next, v) > Get(base, v)
      ensures exists d :: d in edges && d.to == v && RankOf(next, v) <= Get(next, d.from) + 1
    {
      if v == e.to {
        assert e.to == v && RankOf(next, v) <= Get(next, e.from) + 1;
      } else {
        assert v in prev && RankOf(prev, v) == RankOf(next, v);
        var d :| d in edges && d.to == v && RankOf(prev, v) <= Get(prev, d.from) + 1;
        assert Get(prev, d.from) <= Get(next, d.from);
      }
    }
    GapShrinks(edges, level, prev, next, e);
  }

  /** A relaxation step `rank(e.to) := rank(e.from) + 1` inside a pass that started
      from `cur`: the ranks stay below the levels, supported above `base` and growing
      from `base` and from `cur`, and the gap is now below the one at the pass's
      start. */
  lemma RaiseInPass<V>(base: map<V, nat>, cur: map<V, nat>, prev: map<V, nat>,
                       edges: seq<Edge<V>>, level: map<V, nat>, e: Edge<V>)
    requires Levelled(level, edges) && e in edges
    requires Below(cur, level) && Below(prev, level) && SupportedAbove(base, prev, edges)
    requires Grows(base, prev) && Grows(cur, prev) && Get(prev, e.to) <= Get(prev, e.from)
    ensures var next := prev[e.to := Get(prev, e.from) + 1];
      Below(next, level) && SupportedAbove(base, next, edges) && Grows(base, next) && Grows(cur, next) &&
      Gap(edges, level, next) < Gap(edges, level, cur)
  {
    var next := prev[e.to := Get(prev, e.from) + 1];
    Raise(base, prev, next, edges, level, e);
    GapShrinks(edges, level, cur, prev, e);
  }

  /** Every finite rank map has an upper bound. */
  lemma {:induction false} MapBound<V>(m: map<V, nat>) returns (b: nat)
    ensures forall v :: v in m ==> m[v] <= b
    decreases |m|
  {
    b := 0;
    if m != map[] {
      var v :| v in m;
      var c := MapBound(m - {v});
      b := if m[v] > c then m[v] else c;
      forall u | u in m ensures m[u] <= b {
        if u != v {
          assert u in m - {v};
        }
      }
    }
  }

  /** A level numbering raised uniformly above every rank of `ranks`, and extended to
      the nodes it did not number, is still a level numbering and bounds `ranks`: a
      relaxation that starts from arbitrary ranks instead of zeros still terminates. */
  lemma LiftedLevel<V>(level: map<V, nat>, edges: seq<Edge<V>>, ranks: map<V, nat>) returns (lifted: map<V, nat>)
    requires Levelled(level, edges)
    ensures Levelled(lifted, edges) && Below(ranks, lifted)
  {
    var b := MapBound(ranks);
    lifted := map v | v in level.Keys + ranks.Keys :: Get(level, v) + b;
  }

  /** A vertex no edge enters keeps its starting rank. */
  lemma Unentered<V>(base: map<V, nat>, ranks: map<V, nat>, edges: seq<Edge<V>>, v: V)
    requires SupportedAbove(base, ranks, edges) && !HasIncoming(edges, v)
    ensures Get(ranks, v) <= Get(base, v)
  {
    if v in ranks && RankOf(ranks, v) > Get(base, v) {
      assert false;
    }
  }

  /** Starting from all zeros, support above the start is plain support. */
  lemma ZeroBase<V>(base: map<V, nat>, ranks: map<V, nat>, edges: seq<Edge<V>>)
    requires forall v :: v in base ==> base[v] == 0
    requires SupportedAbove(base, ranks, edges)
    ensures Supported(ranks, edges)
  {
    forall v | v in ranks && RankOf(ranks, v) > Get(map[], v)
      ensures exists e :: e in edges && e.to == v && RankOf(ranks, v) <= Get(ranks, e.from) + 1
    {
      assert Get(base, v) == 0;
    }
  }

  /** Ranks climb by at least one along every edge of a walk. */
  lemma {:induction false} PathClimbs<V>(p: seq<V>, edges: seq<Edge<V>>, ranks: map<V, nat>)
    requires IsPath(p, edges) && IsFixpoint(ranks, edges)
    ensures Get(ranks, p[|p| - 1]) >= Get(ranks, p[0]) + |p| - 1
  {
    if |p| > 1 {
      var q := p[..|p| - 1];
      assert IsPath(q, edges) by {
        forall i | 0 <= i < |q| - 1 ensures Edge(q[i], q[i + 1]) in edges {
          assert Edge(p[i], p[i + 1]) in edges;
        }
      }
      PathClimbs(q, edges, ranks);
      assert Edge(p[|p| - 2], p[|p| - 1]) in edges;
    }
  }

  /** A cyclic edge set, a self-loop included, has no fixpoint, so a relaxation loop
      that exits only at a fixpoint never exits on it. */
  lemma CycleHasNoFixpoint<V>(p: seq<V>, edges: seq<Edge<V>>, ranks: map<V, nat>)
    requires IsCycle(p, edges)
    ensures !IsFixpoint(ranks, edges)
  {
    if IsFixpoint(ranks, edges) {
      PathClimbs(p, edges, ranks);
    }
  }

  /** A level numbering is itself a fixpoint of the relaxation. */
  lemma LevelIsFixpoint<V>(level: map<V, nat>, edges: seq<Edge<V>>)
    requires Levelled(level, edges)
    ensures IsFixpoint(level, edges)
  {
    forall e | e in edges ensures Get(level, e.from) < Get(level, e.to) {
    }
  }

  /** No level numbering exists for a cyclic edge set. */
  lemma CycleIsNotAcyclic<V>(p: seq<V>, edges: seq<Edge<V>>)
    requires IsCycle(p, edges)
    ensures !Acyclic(edges)
  {
    if Acyclic(edges) {
      var level :| Levelled(level, edges);
      LevelIsFixpoint(level, edges);
      CycleHasNoFixpoint(p, edges, level);
    }
  }

  /** The ids that appear on some edge. */
  ghost function Vertices<V>(edges: seq<Edge<V>>): set<V> {
    (set e | e in edges :: e.from) + (set e | e in edges :: e.to)
  }

  /** The chain `a -> b -> c` of three distinct vertices, and its first edge alone,
      are acyclic. */
  lemma ChainAcyclic<V>(a: V, b: V, c: V)
    requires a != b && b != c && a != c
    ensures Acyclic([Edge(a, b)]) && Acyclic([Edge(a, b), Edge(b, c)])
  {
    var ranks := map[a := 0, b := 1, c := 2];
    assert IsFixpoint(ranks, [Edge(a, b)]);
    FixpointMeansAcyclic(ranks, [Edge(a, b)]);
    assert IsFixpoint(ranks, [Edge(a, b), Edge(b, c)]);
    FixpointMeansAcyclic(ranks, [Edge(a, b), Edge(b, c)]);
  }

  /** Any fixpoint witnesses acyclicity; so once a layout has finished, laying out
      the same edges again terminates. */
  lemma FixpointMeansAcyclic<V>(ranks: map<V, nat>, edges: seq<Edge<V>>)
    requires IsFixpoint(ranks, edges)
    ensures Acyclic(edges)
  {
    var level := map v | v in Vertices(edges) :: Get(ranks, v);
    forall e | e in edges
      ensures e.from in level && e.to in level && level[e.from] < level[e.to]
    {
      assert e.from in Vertices(edges) && e.to in Vertices(edges);
    }
    assert Numbering(level, edges);
  }

  /** Two finished rankings of the same acyclic edges agree at `v`. */
  lemma {:induction false} ExactAgreesAt<V>(edges: seq<Edge<V>>, level: map<V, nat>,
                                         r1: map<V, nat>, r2: map<V, nat>, v: V)
    requires Levelled(level, edges) && Exact(r1, edges) && Exact(r2, edges)
    ensures Get(r1, v) == Get(r2, v)
    decreases Get(level, v)
  {
    assert RankOf(r1, v) == Get(r1, v) && RankOf(r2, v) == Get(r2, v);
    if Get(r1, v) > 0 {
      var e :| e in edges && e.to == v && Get(r1, v) <= Get(r1, e.from) + 1;
      ExactAgreesAt(edges, level, r1, r2, e.from);
      assert Get(r2, e.from) < Get(r2, v);
    }
    if Get(r2, v) > 0 {
      var e :| e in edges && e.to == v && Get(r2, v) <= Get(r2, e.from) + 1;
      ExactAgreesAt(edges, level, r1, r2, e.from);
      assert Get(r1, e.from) < Get(r1, v);
    }
  }

  /** A finished ranking is determined by the edges alone: whatever the ranks were
      before, every layout of the same edges produces the same ranks. */
  lemma ExactIsUnique<V>(edges: seq<Edge<V>>, r1: map<V, nat>, r2: map<V, nat>)
    requires Acyclic(edges) && Exact(r1, edges) && Exact(r2, edges)
    ensures forall v :: Get(r1, v) == Get(r2, v)
  {
    var level :| Levelled(level, edges);
    forall v ensures Get(r1, v) == Get(r2, v) {
      ExactAgreesAt(edges, level, r1, r2, v);
    }
  }

  /** In a finished ranking a node sits at rank 0 exactly when no edge enters it, and
      otherwise exactly one above its highest-ranked predecessor. */
  lemma ExactCharacterised<V>(ranks: map<V, nat>, edges: seq<Edge<V>>, v: V)
    requires Exact(ranks, edges)
    ensures Get(ranks, v) == 0 <==> !HasIncoming(edges, v)
    ensures forall e :: e in edges && e.to == v ==> Get(ranks, e.from) + 1 <= Get(ranks, v)
    ensures Get(ranks, v) > 0 ==> exists e :: e in edges && e.to == v && Get(ranks, v) == Get(ranks, e.from) + 1
  {
    assert RankOf(ranks, v) == Get(ranks, v);
    if HasIncoming(edges, v) {
      var e :| e in edges && e.to == v;
      assert Get(ranks, e.from) < Get(ranks, e.to);
    }
  }

  /** The edges left after removing node `id`: those not incident to it, in their
      original order (`edges.filter(e => e.from !== id && e.to !== id)`). */
  function Detach(edges: seq<Edge<Id>>, id: Id): (r: seq<Edge<Id>>)
    ensures forall e :: e in r <==> e in edges && e.from != id && e.to != id
    ensures |r| <= |edges|
  {
    if edges == [] then []
    else (if edges[0].from != id && edges[0].to != id then [edges[0]] else []) + Detach(edges[1..], id)
  }

  /** Detaching keeps the relative order: it distributes over concatenation. */
  lemma {:induction false} DetachSplits(a: seq<Edge<Id>>, b: seq<Edge<Id>>, id: Id)
    ensures Detach(a + b, id) == Detach(a, id) + Detach(b, id)
  {
    if a != [] {
      assert (a + b)[1..] == a[1..] + b;
      DetachSplits(a[1..], b, id);
    } else {
      assert a + b == b;
    }
  }

  /** Detaching a node no edge touches changes nothing. */
  lemma {:induction false} DetachUntouched(edges: seq<Edge<Id>>, id: Id)
    requires forall e :: e in edges ==> e.from != id && e.to != id
    ensures Detach(edges, id) == edges
  {
    if edges != [] {
      DetachUntouched(edges[1..], id);
      assert edges == [edges[0]] + edges[1..];
    }
  }

  /** The edges whose both ends are among `keys`, in order: the only edges the
      JavaScript relaxation can act on, since comparing with `undefined` is false. */
  function Known(keys: set<Id>, edges: seq<Edge<Id>>): (r: seq<Edge<Id>>)
    ensures forall e :: e in r <==> e in edges && e.from in keys && e.to in keys
  {
    if edges == [] then []
    else (if edges[0].from in keys && edges[0].to in keys then [edges[0]] else []) + Known(keys, edges[1..])
  }

  /** When every endpoint is known, no edge is dropped. */
  lemma {:induction false} KnownAll(keys: set<Id>, edges: seq<Edge<Id>>)
    requires forall e :: e in edges ==> e.from in keys && e.to in keys
    ensures Known(keys, edges) == edges
  {
    if edges != [] {
      KnownAll(keys, edges[1..]);
      assert edges == [edges[0]] + edges[1..];
    }
  }

  /** Removing edges keeps a level numbering valid. */
  lemma AcyclicSubset<V>(edges: seq<Edge<V>>, sub: seq<Edge<V>>)
    requires Acyclic(edges) && forall e :: e in sub ==> e in edges
    ensures Acyclic(sub)
  {
    var level :| Numbering(level, edges);
    var kept := map v | v in level && v in Vertices(sub) :: level[v];
    forall e | e in sub ensures e.from in kept && e.to in kept && kept[e.from] < kept[e.to] {
      assert e in edges;
      assert e.from in Vertices(sub) && e.to in Vertices(sub);
    }
    assert Levelled(kept, sub);
    assert Numbering(kept, sub);
  }


  // ---- placement of the nodes of one rank ----
  // The layouts walk the nodes in map insertion order; `rs[i]` is the rank of the
  // i-th node. A node's index in its rank group is the number of earlier nodes of
  // the same rank, and the group's length is the number of nodes of that rank.

  /** The coordinates of the i-th node given the ranks `rs` of all nodes in order, as both
      `Layout` variants of the first prototype place it: x = 5 * rank, z = 3 * centred
      offset. */
  ghost predicate PositionFits(x: real, z: real, rs: seq<nat>, i: nat)
    requires i < |rs|
  {
    x == 5.0 * rs[i] as real && z == 3.0 * CentredZ(rs, i)
  }

  /** How many entries of `rs` equal `r`. */
  function Count(rs: seq<nat>, r: nat): nat {
    if rs == [] then 0 else Count(rs[..|rs| - 1], r) + (if rs[|rs| - 1] == r then 1 else 0)
  }

  /** The members of rank `r`, in order: the `rankGroups.get(r)` array. */
  function Group<T>(xs: seq<T>, rs: seq<nat>, r: nat): seq<T>
    requires |xs| == |rs|
  {
    if xs == [] then []
    else Group(xs[..|xs| - 1], rs[..|rs| - 1], r) + (if rs[|rs| - 1] == r then [xs[|xs| - 1]] else [])
  }

  /** `Array.prototype.indexOf`: the first position of `x`, or -1. */
  function IndexOf<T(==)>(s: seq<T>, x: T): (r: int)
    ensures -1 <= r
    ensures r == -1 <==> x !in s
    ensures 0 <= r ==> r < |s| && s[r] == x && x !in s[..r]
  {
    if s == [] then -1
    else if s[0] == x then 0
    else
      var k := IndexOf(s[1..], x);
      assert s == [s[0]] + s[1..];
      assert 0 <= k ==> s[..k + 1] == [s[0]] + s[1..][..k];
      if k == -1 then -1 else k + 1
  }

  /** The first occurrence is the only position with no earlier occurrence. */
  lemma IndexOfIsFirst<T>(s: seq<T>, x: T, k: nat)
    requires k < |s| && s[k] == x && x !in s[..k]
    ensures IndexOf(s, x) == k
  {
  }

  /** `index - (size - 1) / 2`: the centred offset of one member of a group of `size`. */
  function Offset(index: int, size: nat): real {
    index as real - (size as real - 1.0) / 2.0
  }

  /** The centred z offset, before spacing, of the i-th node. */
  function CentredZ(rs: seq<nat>, i: nat): real
    requires i < |rs|
  {
    Offset(Count(rs[..i], rs[i]), Count(rs, rs[i]))
  }

  lemma CountStep(rs: seq<nat>, r: nat, i: nat)
    requires i < |rs|
    ensures Count(rs[..i + 1], r) == Count(rs[..i], r) + (if rs[i] == r then 1 else 0)
  {
    assert rs[..i + 1][..i] == rs[..i];
  }

  /** Counting over a longer prefix never counts fewer. */
  lemma {:induction false} CountGrows(rs: seq<nat>, r: nat, i: nat, j: nat)
    requires i <= j <= |rs|
    ensures Count(rs[..i], r) <= Count(rs[..j], r)
    decreases j
  {
    if i < j {
      CountGrows(rs, r, i, j - 1);
      CountStep(rs, r, j - 1);
    }
  }

  /** The rank group holds exactly the members of that rank. */
  lemma {:induction false} GroupSize<T>(xs: seq<T>, rs: seq<nat>, r: nat)
    requires |xs| == |rs|
    ensures |Group(xs, rs, r)| == Count(rs, r)
    ensures forall x :: x in Group(xs, rs, r) ==> exists i :: 0 <= i < |xs| && xs[i] == x && rs[i] == r
  {
    if xs != [] {
      var n := |xs| - 1;
      GroupSize(xs[..n], rs[..n], r);
      forall x | x in Group(xs, rs, r) ensures exists i :: 0 <= i < |xs| && xs[i] == x && rs[i] == r {
        if x in Group(xs[..n], rs[..n], r) {
          var i :| 0 <= i < n && xs[..n][i] == x && rs[..n][i] == r;
          assert xs[i] == x && rs[i] == r;
        } else {
          assert xs[n] == x && rs[n] == r;
        }
      }
    }
  }

  /** Groups of prefixes are prefixes of groups. */
  lemma {:induction false} GroupPrefix<T>(xs: seq<T>, rs: seq<nat>, r: nat, n: nat)
    requires |xs| == |rs| && n <= |xs|
    ensures Group(xs[..n], rs[..n], r) <= Group(xs, rs, r)
    decreases |xs|
  {
    if n < |xs| {
      var m := |xs| - 1;
      assert xs[..m][..n] == xs[..n] && rs[..m][..n] == rs[..n];
      GroupPrefix(xs[..m], rs[..m], r, n);
    } else {
      assert xs[..n] == xs && rs[..n] == rs;
    }
  }

  /** With the members pairwise distinct (distinct node objects), `group.indexOf(n)`
      finds a node exactly at its index in its rank group. */
  lemma GroupIndexOf<T>(xs: seq<T>, rs: seq<nat>, i: nat)
    requires |xs| == |rs| && i < |xs| && Distinct(xs)
    ensures IndexOf(Group(xs, rs, rs[i]), xs[i]) == Count(rs[..i], rs[i])
  {
    var r := rs[i];
    var before := Group(xs[..i], rs[..i], r);
    assert xs[..i + 1][..i] == xs[..i] && rs[..i + 1][..i] == rs[..i];
    assert Group(xs[..i + 1], rs[..i + 1], r) == before + [xs[i]];
    GroupPrefix(xs, rs, r, i + 1);
    GroupSize(xs[..i], rs[..i], r);
    var g := Group(xs, rs, r);
    assert g[..|before| + 1] == before + [xs[i]];
    assert g[..|before|] == before;
    assert xs[i] !in before by {
      forall x | x in before ensures x != xs[i] {
        var k :| 0 <= k < i && xs[..i][k] == x && rs[..i][k] == r;
        assert xs[k] == x;
      }
    }
    IndexOfIsFirst(g, xs[i], |before|);
  }

  /** A node's index lies inside its group, and later members of the same rank get
      strictly larger indices: the z offsets within a rank are pairwise distinct. */
  lemma IndexOrdered(rs: seq<nat>, i: nat, j: nat)
    requires i < j < |rs| && rs[i] == rs[j]
    ensures Count(rs[..i], rs[i]) < Count(rs[..j], rs[j]) < Count(rs, rs[j])
  {
    CountStep(rs, rs[i], i);
    CountGrows(rs, rs[i], i + 1, j);
    CountStep(rs, rs[j], j);
    CountGrows(rs, rs[j], j + 1, |rs|);
    assert rs[..|rs|] == rs;
  }

  /** Every index below the group size is taken by some member of the group. */
  lemma {:induction false} IndexTaken(rs: seq<nat>, r: nat, t: nat)
    requires t < Count(rs, r)
    ensures exists i :: 0 <= i < |rs| && rs[i] == r && Count(rs[..i], r) == t
  {
    var n := |rs| - 1;
    if t < Count(rs[..n], r) {
      IndexTaken(rs[..n], r, t);
      var i :| 0 <= i < n && rs[..n][i] == r && Count(rs[..n][..i], r) == t;
      assert rs[..n][..i] == rs[..i];
    }
  }

  /** The z offsets of a rank group are symmetric about 0: for every node there is a
      node of the same rank at the mirrored offset. */
  lemma GroupIsSymmetric(rs: seq<nat>, i: nat)
    requires i < |rs|
    ensures exists j :: 0 <= j < |rs| && rs[j] == rs[i] && CentredZ(rs, j) == -CentredZ(rs, i)
  {
    var r := rs[i];
    var t := Count(rs[..i], r);
    CountStep(rs, r, i);
    CountGrows(rs, r, i + 1, |rs|);
    assert rs[..|rs|] == rs;
    IndexTaken(rs, r, Count(rs, r) - 1 - t);
  }

  /** Each rank listed in `groups` maps to its group. */
  ghost predicate Grouped<T>(groups: map<nat, seq<T>>, xs: seq<T>, rs: seq<nat>)
    requires |xs| == |rs|
  {
    forall r :: r in groups ==> groups[r] == Group(xs, rs, r)
  }

  /** One step of the grouping loop: appending entry `i` to the group of its rank,
      created empty when missing, extends the grouping to one more entry. */
  lemma GroupsStep<T>(groups: map<nat, seq<T>>, xs: seq<T>, rs: seq<nat>, i: nat)
    requires |xs| == |rs| && i < |xs|
    requires Grouped(groups, xs[..i], rs[..i]) && forall k :: 0 <= k < i ==> rs[k] in groups
    ensures var after := groups[rs[i] := (if rs[i] in groups then groups[rs[i]] else []) + [xs[i]]];
      Grouped(after, xs[..i + 1], rs[..i + 1]) && forall k :: 0 <= k < i + 1 ==> rs[k] in after
  {
    var after := groups[rs[i] := (if rs[i] in groups then groups[rs[i]] else []) + [xs[i]]];
    assert xs[..i + 1][..i] == xs[..i] && rs[..i + 1][..i] == rs[..i];
    forall r | r in after ensures after[r] == Group(xs[..i + 1], rs[..i + 1], r) {
      if r == rs[i] && rs[i] !in groups {
        NoGroupYet(xs[..i], rs[..i], r);
      }
    }
  }

  lemma NoGroupYet<T>(xs: seq<T>, rs: seq<nat>, r: nat)
    requires |xs| == |rs| && forall k :: 0 <= k < |rs| ==> rs[k] != r
    ensures Group(xs, rs, r) == []
  {
    GroupSize(xs, rs, r);
  }

  /** What `group.indexOf(n)` and `group.length` come to for the i-th member. */
  lemma IndexInGroup<T>(nodesList: seq<T>, rs: seq<nat>, i: nat)
    requires |nodesList| == |rs| && i < |rs| && Distinct(nodesList)
    ensures IndexOf(Group(nodesList, rs, rs[i]), nodesList[i]) == Count(rs[..i], rs[i])
    ensures |Group(nodesList, rs, rs[i])| == Count(rs, rs[i])
  {
    GroupIndexOf(nodesList, rs, i);
    GroupSize(nodesList, rs, rs[i]);
  }

  /** The sum of the centred offsets 0 .. m-1 of a group of `size`. */
  function OffsetSum(m: nat, size: nat): real {
    if m == 0 then 0.0 else OffsetSum(m - 1, size) + Offset(m - 1, size)
  }

  lemma {:induction false} OffsetSumClosedForm(m: nat, size: nat)
    ensures OffsetSum(m, size) == (m as real) * (m as real - size as real) / 2.0
  {
    if m > 0 {
      OffsetSumClosedForm(m - 1, size);
    }
  }

  /** The sum of the centred offsets of the members of rank `r` among `rs`, in a
      group of `size`. */
  function GroupZSum(rs: seq<nat>, r: nat, size: nat): real {
    if rs == [] then 0.0
    else GroupZSum(rs[..|rs| - 1], r, size) +
         (if rs[|rs| - 1] == r then Offset(Count(rs[..|rs| - 1], r), size) else 0.0)
  }

  lemma {:induction false} GroupZSumIsOffsetSum(rs: seq<nat>, r: nat, size: nat)
    ensures GroupZSum(rs, r, size) == OffsetSum(Count(rs, r), size)
  {
    if rs != [] {
      GroupZSumIsOffsetSum(rs[..|rs| - 1], r, size);
    }
  }

  /** The z offsets of every rank group sum to 0: each rank is centred on z = 0. */
  lemma GroupIsCentred(rs: seq<nat>, r: nat)
    ensures GroupZSum(rs, r, Count(rs, r)) == 0.0
  {
    GroupZSumIsOffsetSum(rs, r, Count(rs, r));
    OffsetSumClosedForm(Count(rs, r), Count(rs, r));
  }
}

=== FILE: scene_js.dfy ===
/** The JavaScript scene of the first prototype: `src/Layout.js` and `src/Layer.js`.
    They follow the TypeScript files closely, with two differences the model keeps:
    the relaxation compares possibly-`undefined` ranks, so an edge with an endpoint
    outside the node map is never relaxed, and hovering matches the picked object
    itself only, without walking up to its parents. */
module SceneJs {
  import opened Common
  import opened Ranking

  /** A node of a layer (`src/Node.js` without its geometry); `hovered` is the
      highlight that `setHover` switches. */
  class Node {
    const id: Id
    const title: string
    var x: real
    var z: real
    var hovered: bool
    var subLayer: Layer?

    constructor(id: Id, title: string, x: real, z: real)
      ensures this.id == id && this.title == title && this.x == x && this.z == z
      ensures !hovered && subLayer == null
    {
      this.id := id;
      this.title := title;
      this.x := x;
      this.z := z;
      hovered := false;
      subLayer := null;
    }
  }

  ghost function IdSet(ids: seq<Id>): set<Id> {
    set id | id in ids
  }

  function RankSeq(ns: seq<Node>, ranks: map<Id, nat>): (rs: seq<nat>)
    ensures |rs| == |ns| && forall i :: 0 <= i < |ns| ==> rs[i] == Get(ranks, ns[i].id)
  {
    seq(|ns|, i requires 0 <= i < |ns| => Get(ranks, ns[i].id))
  }

  function Ids(ns: seq<Node>): (ids: seq<Id>)
    ensures |ids| == |ns| && forall i :: 0 <= i < |ns| ==> ids[i] == ns[i].id
  {
    seq(|ns|, i requires 0 <= i < |ns| => ns[i].id)
  }

  /** Where the layout puts the nodes of `ns` given their ranks. */
  ghost predicate Placed(ns: seq<Node>, ranks: map<Id, nat>)
    reads (set n | n in ns)`x, (set n | n in ns)`z
  {
    forall i :: 0 <= i < |ns| ==> PlacedAt(ns, ranks, i)
  }

  ghost predicate PlacedAt(ns: seq<Node>, ranks: map<Id, nat>, i: nat)
    reads (set n | n in ns)`x, (set n | n in ns)`z
    requires i < |ns|
  {
    PositionFits(ns[i].x, ns[i].z, RankSeq(ns, ranks), i)
  }

  /** The relaxation of `Layout.compute` in JavaScript: exactly the listed ids get
      rank 0 and no other id ever gets a rank, since a pass compares `ranks.get(...)`
      values and a comparison with `undefined` is false. The result is the exact
      ranking of the edges joining two listed ids (`Known`); the other edges are
      ignored. A cycle among those edges would make the loop run forever. */
  method ComputeRanks(ids: seq<Id>, edges: seq<Edge<Id>>) returns (ranks: map<Id, nat>)
    requires Acyclic(Known(IdSet(ids), edges))
    ensures forall v :: v in ranks <==> v in ids
    ensures Exact(ranks, Known(IdSet(ids), edges))
  {
    ranks := ZeroRanks(ids);
    ghost var known := Known(IdSet(ids), edges);
    ghost var level :| Levelled(level, known);

    var changed := true;
    while changed
      invariant ranks.Keys == IdSet(ids)
      invariant Below(ranks, level) && Supported(ranks, known)
      invariant !changed ==> IsFixpoint(ranks, known)
      decreases Gap(known, level, ranks), changed
    {
      ranks, changed := RelaxPass(ranks, edges, level);
    }
  }

  /** The initial `ranks.set(n.id, 0)` over every listed id. */
  method ZeroRanks(ids: seq<Id>) returns (ranks: map<Id, nat>)
    ensures ranks.Keys == IdSet(ids)
    ensures forall v :: v in ranks ==> ranks[v] == 0
  {
    ranks := map[];
    var i := 0;
    while i < |ids|
      invariant 0 <= i <= |ids|
      invariant forall id :: id in ranks <==> id in ids[..i]
      invariant forall v :: v in ranks ==> ranks[v] == 0
    {
      ranks := ranks[ids[i] := 0];
      i := i + 1;
    }
    assert ids[..i] == ids;
  }

  /** What a pass keeps of the ranks `next` reached from `ranks`: the same keys, below
      the levels, supported and grown. */
  ghost predicate Relaxing(ranks: map<Id, nat>, next: map<Id, nat>, edges: seq<Edge<Id>>, level: map<Id, nat>) {
    next.Keys == ranks.Keys && Below(next, level) && Supported(next, edges) && Grows(ranks, next)
  }

  /** One raise of the pass, on an edge between two ranked nodes, keeps `Relaxing` and
      shrinks the gap below the pass's start. */
  lemma RelaxStep(ranks: map<Id, nat>, next: map<Id, nat>, edges: seq<Edge<Id>>, level: map<Id, nat>, e: Edge<Id>)
    requires Levelled(level, edges) && Below(ranks, level) && e in edges && e.to in ranks
    requires Relaxing(ranks, next, edges, level) && Get(next, e.to) <= Get(next, e.from)
    ensures Relaxing(ranks, next[e.to := Get(next, e.from) + 1], edges, level)
    ensures Gap(edges, level, next[e.to := Get(next, e.from) + 1]) < Gap(edges, level, ranks)
  {
    RaiseInPass(map[], ranks, next, edges, level, e);
  }

  /** One `edges.forEach` pass: an edge is relaxed only when both ranks are defined
      and `rTo <= rFrom`. The keys never change, so the relaxed edges are exactly
      those of `Known(ranks.Keys, edges)`. */
  method RelaxPass(ranks: map<Id, nat>, edges: seq<Edge<Id>>, ghost level: map<Id, nat>)
    returns (next: map<Id, nat>, changed: bool)
    requires Levelled(level, Known(ranks.Keys, edges))
    requires Below(ranks, level) && Supported(ranks, Known(ranks.Keys, edges))
    ensures next.Keys == ranks.Keys
    ensures Below(next, level) && Supported(next, Known(ranks.Keys, edges)) && Grows(ranks, next)
    ensures !changed ==> next == ranks && IsFixpoint(next, Known(ranks.Keys, edges))
    ensures changed ==> Gap(Known(ranks.Keys, edges), level, next) < Gap(Known(ranks.Keys, edges), level, ranks)
  {
    ghost var known := Known(ranks.Keys, edges);
    next := ranks;
    changed := false;
    var j := 0;
    while j < |edges|
      invariant 0 <= j <= |edges|
      invariant Relaxing(ranks, next, known, level)
      invariant !changed ==> next == ranks
      invariant !changed ==> forall k :: 0 <= k < j && edges[k] in known ==> Get(next, edges[k].from) < Get(next, edges[k].to)
      invariant changed ==> Gap(known, level, next) < Gap(known, level, ranks)
    {
      var e := edges[j];
      var rFrom := Lookup(next, e.from);
      var rTo := Lookup(next, e.to);
      if AtMost(rTo, rFrom) {
        assert e in known;
        RelaxStep(ranks, next, known, level, e);
        next := next[e.to := rFrom.value + 1];
        changed := true;
      }
      j := j + 1;
    }
    if !changed {
      forall e | e in known ensures Get(next, e.from) < Get(next, e.to) {
        var k :| 0 <= k < |edges| && edges[k] == e;
      }
    }
  }

  /** `rankGroups`: the nodes of each rank in the given order. */
  method GroupByRank(nodesList: seq<Node>, ranks: map<Id, nat>) returns (rankGroups: map<nat, seq<Node>>)
    ensures forall i :: 0 <= i < |nodesList| ==> Get(ranks, nodesList[i].id) in rankGroups
    ensures Grouped(rankGroups, nodesList, RankSeq(nodesList, ranks))
  {
    ghost var rs := RankSeq(nodesList, ranks);
    rankGroups := map[];
    var i := 0;
    while i < |nodesList|
      invariant 0 <= i <= |nodesList|
      invariant forall k :: 0 <= k < i ==> rs[k] in rankGroups
      invariant Grouped(rankGroups, nodesList[..i], rs[..i])
    {
      var n := nodesList[i];
      var r := Get(ranks, n.id);
      GroupsStep(rankGroups, nodesList, rs, i);
      // the group of `r`, started empty when missing, gets `n` appended
      var group := if r in rankGroups then rankGroups[r] else [];
      rankGroups := rankGroups[r := group + [n]];
      i := i + 1;
    }
    assert nodesList[..i] == nodesList && rs[..i] == rs;
  }

  /** `Layout.compute(nodes, edges)` in JavaScript: ranks exactly the nodes' ids by
      the edges joining two of them, and writes x = 5 * rank, z = 3 * centred offset
      in the rank group. */
  method Compute(nodesList: seq<Node>, edges: seq<Edge<Id>>) returns (ghost ranks: map<Id, nat>)
    requires Distinct(nodesList) && Acyclic(Known(IdSet(Ids(nodesList)), edges))
    modifies (set n | n in nodesList)`x, (set n | n in nodesList)`z
    ensures forall v :: v in ranks <==> v in Ids(nodesList)
    ensures Exact(ranks, Known(IdSet(Ids(nodesList)), edges)) && Placed(nodesList, ranks)
  {
    var rk := ComputeRanks(Ids(nodesList), edges);
    ranks := rk;
    var rankGroups := GroupByRank(nodesList, rk);
    Place(nodesList, rk, rankGroups);
  }

  /** The positioning pass: `group.indexOf(n)` is the number of earlier nodes of the
      same rank. */
  method Place(nodesList: seq<Node>, ranks: map<Id, nat>, rankGroups: map<nat, seq<Node>>)
    requires Distinct(nodesList)
    requires forall i :: 0 <= i < |nodesList| ==> Get(ranks, nodesList[i].id) in rankGroups
    requires forall r :: r in rankGroups ==> rankGroups[r] == Group(nodesList, RankSeq(nodesList, ranks), r)
    modifies (set n | n in nodesList)`x, (set n | n in nodesList)`z
    ensures Placed(nodesList, ranks)
  {
    ghost var rs := RankSeq(nodesList, ranks);
    var i := 0;
    while i < |nodesList|
      invariant 0 <= i <= |nodesList|
      invariant forall k :: 0 <= k < i ==> PositionFits(nodesList[k].x, nodesList[k].z, rs, k)
    {
      var x, z := Slot(nodesList, ranks, rankGroups, i);
      nodesList[i].x := x;
      nodesList[i].z := z;
      i := i + 1;
    }
  }

  /** Where node `i` goes: x = 5 * rank, and z = 3 * its `indexOf` in its rank group,
      centred on the group. */
  method Slot(nodesList: seq<Node>, ranks: map<Id, nat>, rankGroups: map<nat, seq<Node>>, i: nat)
    returns (x: real, z: real)
    requires Distinct(nodesList) && i < |nodesList|
    requires Get(ranks, nodesList[i].id) in rankGroups
    requires forall r :: r in rankGroups ==> rankGroups[r] == Group(nodesList, RankSeq(nodesList, ranks), r)
    ensures PositionFits(x, z, RankSeq(nodesList, ranks), i)
  {
    var n := nodesList[i];
    var r := Get(ranks, n.id);
    var group := rankGroups[r];
    var index := IndexOf(group, n);
    IndexInGroup(nodesList, RankSeq(nodesList, ranks), i);
    var offset := index as real - (|group| as real - 1.0) / 2.0;
    x, z := (r * 5) as real, offset * 3.0;
  }

  /** A picked scene object: the node whose mesh it is, if any, and its parent. */
  datatype Obj = Obj(meshOf: Node?, parent: Option<Obj>)

  /** One layer of the nested graph (`src/Layer.js`); `order` is the insertion order
      of the node map. */
  class Layer {
    const id: Id
    const yOffset: real
    const parentX: real
    const parentZ: real
    var order: seq<Id>
    var nodes: map<Id, Node>
    var edges: seq<Edge<Id>>
    var visible: bool

    ghost predicate Valid()
      reads this`order, this`nodes, this`edges
    {
      Consistent(order, nodes, edges)
    }

    /** `Array.from(this.nodes.values())`. */
    function NodesList(): (ns: seq<Node>)
      reads this`order, this`nodes
      requires forall k :: k in order ==> k in nodes
      ensures |ns| == |order| && forall i :: 0 <= i < |order| ==> ns[i] == nodes[order[i]]
    {
      InOrder(order, nodes)
    }

    /** The node positions are the layout of the current nodes and edges. */
    ghost predicate LaidOut()
      reads this`order, this`nodes, this`edges, nodes.Values`x, nodes.Values`z
      requires Valid()
    {
      exists ranks :: Exact(ranks, edges) && Placed(NodesList(), ranks)
    }

    lemma NodesDistinct()
      requires Valid()
      ensures Distinct(NodesList()) && (set n | n in NodesList()) <= nodes.Values
      ensures IdSet(Ids(NodesList())) == nodes.Keys
    {
      var ns := NodesList();
      forall i, j | 0 <= i < j < |ns| ensures ns[i] != ns[j] {
        assert ns[i].id == order[i] && ns[j].id == order[j];
      }
      assert Ids(ns) == order;
    }

    /** After a layout every edge points towards larger x, by at least 5 units. */
    lemma EdgesPointForward()
      requires Valid() && LaidOut()
      ensures forall e :: e in edges ==> nodes[e.to].x >= nodes[e.from].x + 5.0
    {
      var ranks :| Exact(ranks, edges) && Placed(NodesList(), ranks);
      var ns := NodesList();
      forall e | e in edges ensures nodes[e.to].x >= nodes[e.from].x + 5.0 {
        var i :| 0 <= i < |order| && order[i] == e.from;
        var j :| 0 <= j < |order| && order[j] == e.to;
        assert ns[i] == nodes[e.from] && ns[j] == nodes[e.to];
        assert PlacedAt(ns, ranks, i) && PlacedAt(ns, ranks, j);
        assert Get(ranks, e.from) < Get(ranks, e.to);
      }
    }

    /** Only the layer called `'root'` starts visible. */
    constructor(id: Id, yOffset: real, parentX: real, parentZ: real)
      ensures Valid() && LaidOut()
      ensures this.id == id && this.yOffset == yOffset && this.parentX == parentX && this.parentZ == parentZ
      ensures order == [] && nodes == map[] && edges == []
      ensures visible == (id == "root")
    {
      this.id := id;
      this.yOffset := yOffset;
      this.parentX := parentX;
      this.parentZ := parentZ;
      order := [];
      nodes := map[];
      edges := [];
      visible := id == "root";
      new;
      assert Numbering<Id>(map[], []);
      assert Exact<Id>(map[], []) && Placed(NodesList(), map[]);
    }

    /** Recomputes every node's position; every edge joins two stored nodes, so the
        layout ranks by all of them. */
    method RefreshLayout()
      requires Valid()
      modifies nodes.Values`x, nodes.Values`z
      ensures unchanged(this) && LaidOut()
    {
      NodesDistinct();
      var ns := NodesList();
      KnownAll(nodes.Keys, edges);
      ghost var ranks := Compute(ns, edges);
    }

    /** `addNode`: a fresh node under `nid`, replacing any node stored there, then a
        new layout. */
    method AddNode(nid: Id, title: string, x: real, z: real)
      requires Valid()
      modifies this, nodes.Values`x, nodes.Values`z
      ensures Valid() && LaidOut()
      ensures nid in nodes && fresh(nodes[nid]) && nodes[nid].title == title
      ensures !nodes[nid].hovered && nodes[nid].subLayer == null
      ensures nodes == old(nodes)[nid := nodes[nid]]
      ensures order == if nid in old(nodes) then old(order) else old(order) + [nid]
      ensures edges == old(edges) && visible == old(visible)
    {
      var node := new Node(nid, title, x, z);
      Store(node);
      RefreshLayout();
    }

    /** `this.nodes.set(id, node)`. */
    method Store(node: Node)
      requires Valid()
      modifies this
      ensures Valid()
      ensures nodes == old(nodes)[node.id := node]
      ensures order == if node.id in old(nodes) then old(order) else old(order) + [node.id]
      ensures edges == old(edges) && visible == old(visible)
    {
      InsertionIsConsistent(order, nodes, edges, node);
      if node.id !in nodes {
        order := order + [node.id];
      }
      nodes := nodes[node.id := node];
    }

    /** `addEdge`: appends the edge, duplicates and self-loops included, when both
        ends are stored nodes, then re-runs the layout; otherwise does nothing. */
    method AddEdge(fromId: Id, toId: Id)
      requires Valid()
      requires fromId in nodes && toId in nodes ==> Acyclic(edges + [Edge(fromId, toId)])
      modifies this, nodes.Values`x, nodes.Values`z
      ensures Valid()
      ensures nodes == old(nodes) && order == old(order) && visible == old(visible)
      ensures fromId in nodes && toId in nodes ==> edges == old(edges) + [Edge(fromId, toId)] && LaidOut()
      ensures !(fromId in nodes && toId in nodes) ==> edges == old(edges) && unchanged(nodes.Values)
    {
      if fromId in nodes && toId in nodes {
        edges := edges + [Edge(fromId, toId)];
        RefreshLayout();
      }
    }

    /** `removeNode`: for a stored id, drops exactly the edges touching it, keeping
        the rest in order, deletes the node and re-runs the layout. An unknown id
        changes nothing. */
    method RemoveNode(nid: Id)
      requires Valid()
      modifies this, nodes.Values`x, nodes.Values`z
      ensures Valid() && visible == old(visible)
      ensures nid !in old(nodes) ==>
        nodes == old(nodes) && order == old(order) && edges == old(edges) && unchanged(nodes.Values)
      ensures nid in old(nodes) ==>
        nodes == old(nodes) - {nid} && order == Without(old(order), nid) &&
        edges == Detach(old(edges), nid) && LaidOut() && unchanged(old(nodes[nid]))
    {
      if nid !in nodes {
        return;
      }
      Forget(nid);
      RefreshLayout();
    }

    /** The edge filter and `this.nodes.delete(id)`. */
    method Forget(nid: Id)
      requires Valid()
      modifies this
      ensures Valid()
      ensures nodes == old(nodes) - {nid} && order == Without(old(order), nid)
      ensures edges == Detach(old(edges), nid) && visible == old(visible)
    {
      RemovalIsConsistent(order, nodes, edges, nid);
      edges := Detach(edges, nid);
      nodes := nodes - {nid};
      order := Without(order, nid);
    }

    /** `onHover(object)`: `node.setHover(object === node.mesh)` for every node, so
        exactly the node whose own mesh was picked is highlighted; a child of a mesh
        highlights nothing and `null` clears every highlight. */
    method OnHover(pick: Option<Obj>)
      requires Valid()
      modifies nodes.Values`hovered
      ensures forall k :: k in nodes ==> nodes[k].hovered == (pick.Some? && pick.value.meshOf == nodes[k])
    {
      var i := 0;
      while i < |order|
        invariant 0 <= i <= |order|
        invariant forall j :: 0 <= j < i ==> nodes[order[j]].hovered == (pick.Some? && pick.value.meshOf == nodes[order[j]])
      {
        var node := nodes[order[i]];
        forall j | 0 <= j < i ensures nodes[order[j]] != node {
          assert nodes[order[j]].id == order[j] && node.id == order[i];
        }
        node.hovered := pick.Some? && pick.value.meshOf == node;
        i := i + 1;
      }
    }
  }

  /** Each node is stored under its own id and listed once in the insertion order,
      each edge joins two stored nodes, and the edges are acyclic. */
  ghost predicate Consistent(order: seq<Id>, nodes: map<Id, Node>, edges: seq<Edge<Id>>) {
    Distinct(order) && (forall k :: k in nodes <==> k in order) &&
    (forall k :: k in nodes ==> nodes[k].id == k) &&
    (forall e :: e in edges ==> e.from in nodes && e.to in nodes) &&
    Acyclic(edges)
  }

  lemma RemovalIsConsistent(order: seq<Id>, nodes: map<Id, Node>, edges: seq<Edge<Id>>, nid: Id)
    requires Consistent(order, nodes, edges)
    ensures Consistent(Without(order, nid), nodes - {nid}, Detach(edges, nid))
  {
    WithoutDistinct(order, nid);
    AcyclicSubset(edges, Detach(edges, nid));
  }

  lemma InsertionIsConsistent(order: seq<Id>, nodes: map<Id, Node>, edges: seq<Edge<Id>>, node: Node)
    requires Consistent(order, nodes, edges)
    ensures Consistent(if node.id in nodes then order else order + [node.id], nodes[node.id := node], edges)
  {
  }

  function InOrder(order: seq<Id>, nodes: map<Id, Node>): (ns: seq<Node>)
    requires forall k :: k in order ==> k in nodes
    ensures |ns| == |order| && forall i :: 0 <= i < |order| ==> ns[i] == nodes[order[i]]
  {
    seq(|order|, i requires 0 <= i < |order| && order[i] in nodes => nodes[order[i]])
  }

  /** An edge with an endpoint outside the node map is never relaxed: the ranks that
      `Layout.compute` leaves are the same with or without it. */
  lemma UnknownEdgeIgnored(ids: seq<Id>, edges: seq<Edge<Id>>, e: Edge<Id>)
    requires e.from !in ids || e.to !in ids
    ensures Known(IdSet(ids), edges + [e]) == Known(IdSet(ids), edges)
  {
    KnownAppend(IdSet(ids), edges, [e]);
    assert Known(IdSet(ids), [e]) == [];
  }

  lemma {:induction false} KnownAppend(keys: set<Id>, a: seq<Edge<Id>>, b: seq<Edge<Id>>)
    ensures Known(keys, a + b) == Known(keys, a) + Known(keys, b)
  {
    if a != [] {
      assert (a + b)[1..] == a[1..] + b;
      KnownAppend(keys, a[1..], b);
    } else {
      assert a + b == b;
    }
  }
}

=== FILE: scene_ts.dfy ===
/** The TypeScript scene of the first prototype: `src/Layout.ts`, which ranks and
    places the nodes of one layer, and `src/Layer.ts`, which stores a layer's nodes and
    edges and re-runs the layout after every structural change. Meshes, materials and
    labels are not modelled; a node keeps its id, title, position and hover flag. */
module SceneTs {
  import opened Common
  import opened Ranking

  /** A node of a layer (`src/Node.ts` without its geometry). */
  class Node {
    const id: Id
    const title: string
    var x: real
    var z: real
    var hovered: bool
    /** The layer one level down, created on demand by the application. */
    var subLayer: Layer?

    constructor(id: Id, title: string, x: real, z: real)
      ensures this.id == id && this.title == title && this.x == x && this.z == z
      ensures !hovered && subLayer == null
    {
      this.id := id;
      this.title := title;
      this.x := x;
      this.z := z;
      hovered := false;
      subLayer := null;
    }
  }

  /** The rank of every node of `ns`, in order. */
  function RankSeq(ns: seq<Node>, ranks: map<Id, nat>): (rs: seq<nat>)
    ensures |rs| == |ns| && forall i :: 0 <= i < |ns| ==> rs[i] == Get(ranks, ns[i].id)
  {
    seq(|ns|, i requires 0 <= i < |ns| => Get(ranks, ns[i].id))
  }

  function Ids(ns: seq<Node>): (ids: seq<Id>)
    ensures |ids| == |ns| && forall i :: 0 <= i < |ns| ==> ids[i] == ns[i].id
  {
    seq(|ns|, i requires 0 <= i < |ns| => ns[i].id)
  }

  /** Where the layout puts the nodes of `ns` given their ranks: x = 5 * rank, and z
      = 3 * the centred offset of the node within its rank group. */
  ghost predicate Placed(ns: seq<Node>, ranks: map<Id, nat>)
    reads (set n | n in ns)`x, (set n | n in ns)`z
  {
    forall i :: 0 <= i < |ns| ==> PlacedAt(ns, ranks, i)
  }

  ghost predicate PlacedAt(ns: seq<Node>, ranks: map<Id, nat>, i: nat)
    reads (set n | n in ns)`x, (set n | n in ns)`z
    requires i < |ns|
  {
    PositionFits(ns[i].x, ns[i].z, RankSeq(ns, ranks), i)
  }

  /** The relaxation of `Layout.compute`: every listed id starts at rank 0, then full
      passes over the edges raise `rank(to)` to `rank(from) + 1` wherever
      `rank(to) <= rank(from)`, until a pass changes nothing. Ids missing from the
      map read as 0 and may be raised like any other. On a cyclic edge set the loop
      never exits (`CycleHasNoFixpoint`), hence the precondition. */
  method ComputeRanks(ids: seq<Id>, edges: seq<Edge<Id>>) returns (ranks: map<Id, nat>)
    requires Acyclic(edges)
    ensures forall id :: id in ids ==> id in ranks
    ensures forall v :: v in ranks ==> v in ids || HasIncoming(edges, v)
    ensures Exact(ranks, edges)
  {
    ranks := map[];
    var i := 0;
    while i < |ids|
      invariant 0 <= i <= |ids|
      invariant forall id :: id in ranks <==> id in ids[..i]
      invariant forall v :: v in ranks ==> ranks[v] == 0
    {
      ranks := ranks[ids[i] := 0];
      i := i + 1;
    }
    assert ids[..i] == ids;

    ghost var level :| Levelled(level, edges);
    var changed := true;
    while changed
      invariant Below(ranks, level) && Supported(ranks, edges)
      invariant forall id :: id in ids ==> id in ranks
      invariant forall v :: v in ranks ==> v in ids || HasIncoming(edges, v)
      invariant !changed ==> IsFixpoint(ranks, edges)
      decreases Gap(edges, level, ranks), changed
    {
      ranks, changed := RelaxPass(ranks, edges, level);
    }
  }

  /** One `edges.forEach` pass of the relaxation. It reports a change exactly when it
      raised some rank, in which case the gap to the levels shrank; a pass without a
      change leaves a fixpoint. */
  method RelaxPass(ranks: map<Id, nat>, edges: seq<Edge<Id>>, ghost level: map<Id, nat>)
    returns (next: map<Id, nat>, changed: bool)
    requires Levelled(level, edges) && Below(ranks, level) && Supported(ranks, edges)
    ensures Below(next, level) && Supported(next, edges) && Grows(ranks, next)
    ensures forall v :: v in ranks ==> v in next
    ensures forall v :: v in next ==> v in ranks || HasIncoming(edges, v)
    ensures !changed ==> next == ranks && IsFixpoint(next, edges)
    ensures changed ==> Gap(edges, level, next) < Gap(edges, level, ranks)
  {
    next := ranks;
    changed := false;
    var j := 0;
    while j < |edges|
      invariant 0 <= j <= |edges|
      invariant Relaxing(ranks, next, edges, level)
      invariant !changed ==> next == ranks
      invariant !changed ==> forall k :: 0 <= k < j ==> Get(next, edges[k].from) < Get(next, edges[k].to)
      invariant changed ==> Gap(edges, level, next) < Gap(edges, level, ranks)
    {
      var e := edges[j];
      var rFrom := Get(next, e.from);
      var rTo := Get(next, e.to);
      if rTo <= rFrom {
        RelaxStep(ranks, next, edges, level, e);
        next := next[e.to := rFrom + 1];
        changed := true;
      }
      j := j + 1;
    }
    if !changed {
      forall e | e in edges ensures Get(next, e.from) < Get(next, e.to) {
        var k :| 0 <= k < |edges| && edges[k] == e;
      }
    }
  }

  /** What a pass keeps of the ranks `next` reached from `ranks`: below the levels,
      supported, grown, with every key of `ranks` and no key no edge enters besides. */
  ghost predicate Relaxing(ranks: map<Id, nat>, next: map<Id, nat>, edges: seq<Edge<Id>>, level: map<Id, nat>) {
    Below(next, level) && Supported(next, edges) && Grows(ranks, next) &&
    (forall v :: v in ranks ==> v in next) && (forall v :: v in next ==> v in ranks || HasIncoming(edges, v))
  }

  /** One raise of the pass keeps `Relaxing` and shrinks the gap below the pass's start. */
  lemma RelaxStep(ranks: map<Id, nat>, next: map<Id, nat>, edges: seq<Edge<Id>>, level: map<Id, nat>, e: Edge<Id>)
    requires Levelled(level, edges) && Below(ranks, level) && e in edges
    requires Relaxing(ranks, next, edges, level) && Get(next, e.to) <= Get(next, e.from)
    ensures Relaxing(ranks, next[e.to := Get(next, e.from) + 1], edges, level)
    ensures Gap(edges, level, next[e.to := Get(next, e.from) + 1]) < Gap(edges, level, ranks)
  {
    RaiseInPass(map[], ranks, next, edges, level, e);
    assert HasIncoming(edges, e.to);
  }

  /** The grouping pass of `Layout.compute`: `rankGroups.get(r)` lists the nodes of
      rank `r` in the given order, and every node's rank has a group. */
  method GroupByRank(nodesList: seq<Node>, ranks: map<Id, nat>) returns (rankGroups: map<nat, seq<Node>>)
    ensures forall i :: 0 <= i < |nodesList| ==> Get(ranks, nodesList[i].id) in rankGroups
    ensures Grouped(rankGroups, nodesList, RankSeq(nodesList, ranks))
  {
    ghost var rs := RankSeq(nodesList, ranks);
    rankGroups := map[];
    var i := 0;
    while i < |nodesList|
      invariant 0 <= i <= |nodesList|
      invariant forall k :: 0 <= k < i ==> rs[k] in rankGroups
      invariant Grouped(rankGroups, nodesList[..i], rs[..i])
    {
      var n := nodesList[i];
      var r := Get(ranks, n.id);
      GroupsStep(rankGroups, nodesList, rs, i);
      // the group of `r`, started empty when missing, gets `n` appended
      var group := if r in rankGroups then rankGroups[r] else [];
      rankGroups := rankGroups[r := group + [n]];
      i := i + 1;
    }
    assert nodesList[..i] == nodesList && rs[..i] == rs;
  }

  /** `Layout.compute(nodes, edges)`, the nodes given as `Array.from(nodes.values())`:
      ranks every node, groups the nodes by rank in the given order and writes each
      node's `x` and `z`. The result depends on the order and the edges only. */
  method Compute(nodesList: seq<Node>, edges: seq<Edge<Id>>) returns (ghost ranks: map<Id, nat>)
    requires Distinct(nodesList) && Acyclic(edges)
    modifies (set n | n in nodesList)`x, (set n | n in nodesList)`z
    ensures Exact(ranks, edges) && Placed(nodesList, ranks)
  {
    var rk := ComputeRanks(Ids(nodesList), edges);
    ranks := rk;
    var rankGroups := GroupByRank(nodesList, rk);
    Place(nodesList, rk, rankGroups);
  }

  /** The positioning pass of `Layout.compute`: x = 5 * rank, z = 3 * (index in the
      rank group - (group length - 1) / 2). */
  method Place(nodesList: seq<Node>, ranks: map<Id, nat>, rankGroups: map<nat, seq<Node>>)
    requires Distinct(nodesList)
    requires forall i :: 0 <= i < |nodesList| ==> Get(ranks, nodesList[i].id) in rankGroups
    requires forall r :: r in rankGroups ==> rankGroups[r] == Group(nodesList, RankSeq(nodesList, ranks), r)
    modifies (set n | n in nodesList)`x, (set n | n in nodesList)`z
    ensures Placed(nodesList, ranks)
  {
    ghost var rs := RankSeq(nodesList, ranks);
    var i := 0;
    while i < |nodesList|
      invariant 0 <= i <= |nodesList|
      invariant forall k :: 0 <= k < i ==> PositionFits(nodesList[k].x, nodesList[k].z, rs, k)
    {
      var x, z := Slot(nodesList, ranks, rankGroups, i);
      nodesList[i].x := x;
      nodesList[i].z := z;
      i := i + 1;
    }
  }

  /** Where node `i` goes: x = 5 * rank, and z = 3 * its `indexOf` in its rank group,
      centred on the group. */
  method Slot(nodesList: seq<Node>, ranks: map<Id, nat>, rankGroups: map<nat, seq<Node>>, i: nat)
    returns (x: real, z: real)
    requires Distinct(nodesList) && i < |nodesList|
    requires Get(ranks, nodesList[i].id) in rankGroups
    requires forall r :: r in rankGroups ==> rankGroups[r] == Group(nodesList, RankSeq(nodesList, ranks), r)
    ensures PositionFits(x, z, RankSeq(nodesList, ranks), i)
  {
    var n := nodesList[i];
    var r := Get(ranks, n.id);
    var group := rankGroups[r];
    var index := IndexOf(group, n);
    IndexInGroup(nodesList, RankSeq(nodesList, ranks), i);
    var offset := index as real - (|group| as real - 1.0) / 2.0;
    x, z := (r * 5) as real, offset * 3.0;
  }

  /** A picked scene object, as far as hovering cares: the node whose mesh it is, if
      any, and its parent object. */
  datatype Obj = Obj(meshOf: Node?, parent: Option<Obj>)

  /** Whether the picked object is `n`'s mesh or a descendant of it. */
  predicate Within(pick: Option<Obj>, n: Node) {
    match pick
    case None => false
    case Some(o) => o.meshOf == n || Within(o.parent, n)
  }

  /** One layer of the nested graph (`src/Layer.ts`). `order` is the insertion order
      of the node map: a new id is appended, an overwritten id keeps its place. */
  class Layer {
    const id: Id
    const yOffset: real
    const parentX: real
    const parentZ: real
    var order: seq<Id>
    var nodes: map<Id, Node>
    var edges: seq<Edge<Id>>
    var visible: bool
    var opacity: real
    var targetOpacity: real

    /** Each node is stored under its own id, each edge joins two stored nodes, and the
        edges are acyclic, which every caller of `addEdge` has to keep (a cycle would
        hang the layout). */
    ghost predicate Valid()
      reads this`order, this`nodes, this`edges
    {
      Consistent(order, nodes, edges)
    }

    /** `Array.from(this.nodes.values())`. */
    function NodesList(): (ns: seq<Node>)
      reads this`order, this`nodes
      requires forall k :: k in order ==> k in nodes
      ensures |ns| == |order| && forall i :: 0 <= i < |order| ==> ns[i] == nodes[order[i]]
    {
      InOrder(order, nodes)
    }

    /** The node positions are the layout of the current nodes and edges. */
    ghost predicate LaidOut()
      reads this`order, this`nodes, this`edges, nodes.Values`x, nodes.Values`z
      requires Valid()
    {
      exists ranks :: Exact(ranks, edges) && Placed(NodesList(), ranks)
    }

    lemma NodesDistinct()
      requires Valid()
      ensures Distinct(NodesList()) && (set n | n in NodesList()) <= nodes.Values
    {
      var ns := NodesList();
      forall i, j | 0 <= i < j < |ns| ensures ns[i] != ns[j] {
        assert ns[i].id == order[i] && ns[j].id == order[j];
      }
    }

    /** After a layout every edge points towards larger x: its target sits at least
        one rank, 5 units, further along than its source. */
    lemma EdgesPointForward()
      requires Valid() && LaidOut()
      ensures forall e :: e in edges ==> nodes[e.to].x >= nodes[e.from].x + 5.0
    {
      var ranks :| Exact(ranks, edges) && Placed(NodesList(), ranks);
      var ns := NodesList();
      forall e | e in edges ensures nodes[e.to].x >= nodes[e.from].x + 5.0 {
        var i :| 0 <= i < |order| && order[i] == e.from;
        var j :| 0 <= j < |order| && order[j] == e.to;
        assert ns[i] == nodes[e.from] && ns[j] == nodes[e.to];
        assert PlacedAt(ns, ranks, i) && PlacedAt(ns, ranks, j);
        assert Get(ranks, e.from) < Get(ranks, e.to);
      }
    }

    /** Only the layer called `'root'` starts visible and opaque. */
    constructor(id: Id, yOffset: real, parentX: real, parentZ: real)
      ensures Valid() && LaidOut()
      ensures this.id == id && this.yOffset == yOffset && this.parentX == parentX && this.parentZ == parentZ
      ensures order == [] && nodes == map[] && edges == []
      ensures visible == (id == "root")
      ensures opacity == targetOpacity == (if id == "root" then 1.0 else 0.0)
    {
      this.id := id;
      this.yOffset := yOffset;
      this.parentX := parentX;
      this.parentZ := parentZ;
      order := [];
      nodes := map[];
      edges := [];
      visible := id == "root";
      opacity := if id == "root" then 1.0 else 0.0;
      targetOpacity := if id == "root" then 1.0 else 0.0;
      new;
      LevelIsAcyclic();
      assert Exact<Id>(map[], []) && Placed(NodesList(), map[]);
    }

    static lemma LevelIsAcyclic()
      ensures Acyclic<Id>([])
    {
      assert Numbering<Id>(map[], []);
    }

    /** Recomputes every node's position from the current nodes and edges. */
    method RefreshLayout()
      requires Valid()
      modifies nodes.Values`x, nodes.Values`z
      ensures unchanged(this) && LaidOut()
    {
      NodesDistinct();
      var ns := NodesList();
      ghost var ranks := Compute(ns, edges);
    }

    /** `addNode`: a fresh node under `nid`, replacing any node stored there, then a
        new layout. */
    method AddNode(nid: Id, title: string, x: real, z: real)
      requires Valid()
      modifies this, nodes.Values`x, nodes.Values`z
      ensures Valid() && LaidOut()
      ensures nid in nodes && fresh(nodes[nid]) && nodes[nid].title == title
      ensures !nodes[nid].hovered && nodes[nid].subLayer == null
      ensures nodes == old(nodes)[nid := nodes[nid]]
      ensures order == if nid in old(nodes) then old(order) else old(order) + [nid]
      ensures edges == old(edges)
      ensures visible == old(visible) && opacity == old(opacity) && targetOpacity == old(targetOpacity)
    {
      var node := new Node(nid, title, x, z);
      Store(node);
      RefreshLayout();
    }

    /** `this.nodes.set(node.id, node)`: a new id joins the end of the insertion order,
        an existing one keeps its place. */
    method Store(node: Node)
      requires Valid()
      modifies this
      ensures Valid()
      ensures nodes == old(nodes)[node.id := node]
      ensures order == if node.id in old(nodes) then old(order) else old(order) + [node.id]
      ensures edges == old(edges)
      ensures visible == old(visible) && opacity == old(opacity) && targetOpacity == old(targetOpacity)
    {
      InsertionIsConsistent(order, nodes, edges, node);
      if node.id !in nodes {
        order := order + [node.id];
      }
      nodes := nodes[node.id := node];
    }

    /** `addEdge`: appends the edge, duplicates and self-loops included, when both
        ends are stored nodes, then re-runs the layout; otherwise does nothing. */
    method AddEdge(fromId: Id, toId: Id)
      requires Valid()
      requires fromId in nodes && toId in nodes ==> Acyclic(edges + [Edge(fromId, toId)])
      modifies this, nodes.Values`x, nodes.Values`z
      ensures Valid()
      ensures nodes == old(nodes) && order == old(order)
      ensures visible == old(visible) && opacity == old(opacity) && targetOpacity == old(targetOpacity)
      ensures fromId in nodes && toId in nodes ==> edges == old(edges) + [Edge(fromId, toId)] && LaidOut()
      ensures !(fromId in nodes && toId in nodes) ==> edges == old(edges) && unchanged(nodes.Values)
    {
      if fromId in nodes && toId in nodes {
        edges := edges + [Edge(fromId, toId)];
        RefreshLayout();
      }
    }

    /** `removeNode`: for a stored id, drops the node and exactly the edges touching
        it, keeping the other edges in order, then re-runs the layout; the removed
        node's own sub-layer is left as it was. An unknown id changes nothing. */
    method RemoveNode(nid: Id)
      requires Valid()
      modifies this, nodes.Values`x, nodes.Values`z
      ensures Valid()
      ensures visible == old(visible) && opacity == old(opacity) && targetOpacity == old(targetOpacity)
      ensures nid !in old(nodes) ==>
        nodes == old(nodes) && order == old(order) && edges == old(edges) && unchanged(nodes.Values)
      ensures nid in old(nodes) ==>
        nodes == old(nodes) - {nid} && order == Without(old(order), nid) &&
        edges == Detach(old(edges), nid) && LaidOut() && unchanged(old(nodes[nid]))
    {
      if nid !in nodes {
        return;
      }
      Forget(nid);
      RefreshLayout();
    }

    /** The bookkeeping half of `removeNode`: `this.edges.filter(...)` followed by
        `this.nodes.delete(nid)`. */
    method Forget(nid: Id)
      requires Valid()
      modifies this
      ensures Valid()
      ensures nodes == old(nodes) - {nid} && order == Without(old(order), nid)
      ensures edges == Detach(old(edges), nid)
      ensures visible == old(visible) && opacity == old(opacity) && targetOpacity == old(targetOpacity)
    {
      RemovalIsConsistent(order, nodes, edges, nid);
      edges := Detach(edges, nid);
      nodes := nodes - {nid};
      order := Without(order, nid);
    }

    /** `onHover`: each node is marked hovered exactly when the picked object is its
        mesh or lies below it; a miss clears every mark. */
    method OnHover(pick: Option<Obj>)
      requires Valid()
      modifies nodes.Values`hovered
      ensures forall k :: k in nodes ==> nodes[k].hovered == Within(pick, nodes[k])
    {
      var i := 0;
      while i < |order|
        invariant 0 <= i <= |order|
        invariant forall j :: 0 <= j < i ==> nodes[order[j]].hovered == Within(pick, nodes[order[j]])
      {
        var node := nodes[order[i]];
        var isTarget := false;
        var current := pick;
        while current.Some?
          invariant isTarget ==> Within(pick, node)
          invariant !isTarget ==> Within(pick, node) == Within(current, node)
          decreases current
        {
          if current.value.meshOf == node {
            isTarget := true;
            break;
          }
          current := current.value.parent;
        }
        forall j | 0 <= j < i ensures nodes[order[j]] != node {
          assert nodes[order[j]].id == order[j] && node.id == order[i];
        }
        node.hovered := isTarget;
        i := i + 1;
      }
    }

    /** The per-frame `update`: the opacity moves a tenth of the way to its target
        unless already within 0.001, and the layer is shown exactly while it is
        fading in or still more than 1% opaque. */
    method Update()
      modifies this
      ensures targetOpacity == old(targetOpacity)
      ensures Abs(old(opacity) - targetOpacity) > 0.001 ==>
        opacity == old(opacity) + (targetOpacity - old(opacity)) * 0.1
      ensures Abs(old(opacity) - targetOpacity) <= 0.001 ==> opacity == old(opacity)
      ensures opacity == FadeStep(old(opacity), targetOpacity)
      ensures visible <==> targetOpacity > 0.0 || opacity > 0.01
      ensures order == old(order) && nodes == old(nodes) && edges == old(edges)
    {
      if Abs(opacity - targetOpacity) > 0.001 {
        opacity := opacity + (targetOpacity - opacity) * 0.1;
      }
      if targetOpacity > 0.0 || opacity > 0.01 {
        visible := true;
      } else {
        visible := false;
      }
    }
  }

  /** The layer invariant on the stored values: each node is stored under its own id
      and listed once in the insertion order, each edge joins two stored nodes, and
      the edges are acyclic. */
  ghost predicate Consistent(order: seq<Id>, nodes: map<Id, Node>, edges: seq<Edge<Id>>) {
    Distinct(order) && (forall k :: k in nodes <==> k in order) &&
    (forall k :: k in nodes ==> nodes[k].id == k) &&
    (forall e :: e in edges ==> e.from in nodes && e.to in nodes) &&
    Acyclic(edges)
  }

  /** Deleting a node together with its edges keeps the invariant. */
  lemma RemovalIsConsistent(order: seq<Id>, nodes: map<Id, Node>, edges: seq<Edge<Id>>, nid: Id)
    requires Consistent(order, nodes, edges)
    ensures Consistent(Without(order, nid), nodes - {nid}, Detach(edges, nid))
  {
    WithoutDistinct(order, nid);
    AcyclicSubset(edges, Detach(edges, nid));
  }

  /** Storing a node under its own id keeps the invariant. */
  lemma InsertionIsConsistent(order: seq<Id>, nodes: map<Id, Node>, edges: seq<Edge<Id>>, node: Node)
    requires Consistent(order, nodes, edges)
    ensures Consistent(if node.id in nodes then order else order + [node.id], nodes[node.id := node], edges)
  {
  }

  /** The values of a map listed in the order of its keys. */
  function InOrder(order: seq<Id>, nodes: map<Id, Node>): (ns: seq<Node>)
    requires forall k :: k in order ==> k in nodes
    ensures |ns| == |order| && forall i :: 0 <= i < |order| ==> ns[i] == nodes[order[i]]
  {
    seq(|order|, i requires 0 <= i < |order| && order[i] in nodes => nodes[order[i]])
  }

  function Abs(v: real): real { if v < 0.0 then -v else v }

  /** The opacity after one `update` towards `target`: a tenth of the gap is closed
      while the gap is above 0.001, and a smaller gap is left as it is. The step never
      passes the target. */
  function FadeStep(opacity: real, target: real): (next: real)
    ensures Abs(opacity - target) > 0.001 ==> next - target == 0.9 * (opacity - target)
    ensures Abs(opacity - target) <= 0.001 ==> next == opacity
    ensures opacity <= target ==> opacity <= next <= target
    ensures target <= opacity ==> target <= next <= opacity
  {
    if Abs(opacity - target) > 0.001 then opacity + (target - opacity) * 0.1 else opacity
  }

  /** The opacity after `frames` updates towards a fixed target. */
  function Fade(opacity: real, target: real, frames: nat): real {
    if frames == 0 then opacity else FadeStep(Fade(opacity, target, frames - 1), target)
  }

  /** `gap` scaled by 0.9, `n` times over: 0.9^n * gap. */
  function Shrunk(gap: real, n: nat): real {
    if n == 0 then gap else 0.9 * Shrunk(gap, n - 1)
  }

  /** Repeated updates never pass the target: after any number of frames the opacity
      lies between where it started and the target. */
  lemma {:induction false} FadeBetween(opacity: real, target: real, frames: nat)
    ensures opacity <= target ==> opacity <= Fade(opacity, target, frames) <= target
    ensures target <= opacity ==> target <= Fade(opacity, target, frames) <= opacity
  {
    if frames > 0 {
      FadeBetween(opacity, target, frames - 1);
    }
  }

  /** Repeated updates close the gap geometrically: after `frames` frames the gap to
      the target is either within 0.001 already or exactly 0.9^frames of the first gap,
      on the same side of the target. */
  lemma {:induction false} FadeGap(opacity: real, target: real, frames: nat)
    ensures Abs(Fade(opacity, target, frames) - target) <= 0.001 ||
            Fade(opacity, target, frames) - target == Shrunk(opacity - target, frames)
  {
    if frames > 0 {
      FadeGap(opacity, target, frames - 1);
    }
  }

  /** Laying out the same nodes and edges again yields the same positions, whatever
      the positions were before: `compute` is deterministic and idempotent. */
  lemma LayoutIsDeterministic(ns: seq<Node>, edges: seq<Edge<Id>>, r1: map<Id, nat>, r2: map<Id, nat>)
    requires Acyclic(edges) && Exact(r1, edges) && Exact(r2, edges)
    ensures RankSeq(ns, r1) == RankSeq(ns, r2)
    ensures forall i :: 0 <= i < |ns| ==> CentredZ(RankSeq(ns, r1), i) == CentredZ(RankSeq(ns, r2), i)
  {
    ExactIsUnique(edges, r1, r2);
  }
}

=== FILE: seeding.dfy ===
/** The naming and seeding scheme both application prototypes use for the sub-layer
    of a node: the sub-layer of node `id` is called `<id>_sub`, sits 20 below the
    node's layer and starts with the children `<id>_child_0..2`, labelled Alpha, Beta
    and Gamma and chained `0 -> 1 -> 2`. */
module Seeding {
  import opened Common
  import opened Ranking

  /** A sub-layer sits this far below the layer of its node. */
  const LayerDrop: real := 20.0
  /** The labels of the three children a new sub-layer is seeded with. */
  const ChildLabels: seq<string> := ["Alpha", "Beta", "Gamma"]

  /** The id of the sub-layer of node `id`. */
  function SubId(id: Id): Id {
    id + "_sub"
  }

  /** `${id}_child_${i}`. */
  function ChildId(id: Id, i: nat): Id
    requires i < 3
  {
    id + "_child_" + ["012"[i]]
  }

  /** The three children of a node have three different ids. */
  lemma ChildIdsDistinct(id: Id)
    ensures ChildId(id, 0) != ChildId(id, 1) && ChildId(id, 1) != ChildId(id, 2) && ChildId(id, 0) != ChildId(id, 2)
  {
    assert ChildId(id, 0)[|id| + 7] == '0';
    assert ChildId(id, 1)[|id| + 7] == '1';
    assert ChildId(id, 2)[|id| + 7] == '2';
  }

  /** A sub-layer is never called `'root'`, so it starts hidden. */
  lemma SubIdIsNotRoot(id: Id)
    ensures SubId(id) != "root"
  {
    assert SubId(id)[|SubId(id)| - 1] == 'b';
  }

  /** Different nodes have differently named sub-layers. */
  lemma SubIdInjective(a: Id, b: Id)
    ensures SubId(a) == SubId(b) ==> a == b
  {
    if SubId(a) == SubId(b) {
      assert a == SubId(a)[..|a|] && b == SubId(b)[..|b|];
    }
  }

  /** The chain `a -> b -> c` of three distinct ids, and its first edge alone, are acyclic. */
  lemma ChainIsAcyclic(a: Id, b: Id, c: Id)
    requires a != b && b != c && a != c
    ensures Acyclic([Edge(a, b)]) && Acyclic([Edge(a, b), Edge(b, c)])
  {
    ChainAcyclic(a, b, c);
  }

  /** The ids of the three children of the sub-layer of node `id`. */
  function Children(id: Id): seq<Id> {
    [ChildId(id, 0), ChildId(id, 1), ChildId(id, 2)]
  }
}
